=== FILE: README.md ===
# EduHup backend rules in Dafny

This project models the server-side rules of the EduHup backend, a FastAPI service for study
groups and shared document repositories. Each route reads MongoDB documents, applies a rule to
lists and trees, and writes the result back. Here the database is one immutable `Store` value
holding users, groups, repositories, messages, notifications and the blob store. Every route is a
pure function from the store and the request to `Result<...>`. An error carries only an HTTP
status and detail and never a store, so a refused request changes nothing by construction.

The modules follow the backend's structure:

- `Common`: results and HTTP errors, Python truthiness, and the list operations the routes rely
  on. `$pull` becomes `RemoveAll`; `list(set(...))` becomes `SetUnion`.
- `Sorting`: stable sort by an integer key, and "the first k after sorting".
- `Store`: the documents, plus the `$push`/`$pull` updates on the id lists a user document keeps.
- `Tree`: a repository's directory forest, `find_directory_by_name`, `collect_all_files`, and an
  in-place edit of the directory the search finds.
- `S3`: object keys and URLs for repository, group and profile files, over a key-to-bytes map.
- `Auth`: token expiry arithmetic, the logout deny-list, and the current-user check.
- `Users`: `check_members_exist` and the account-deletion cascade.
- `Membership`: the member-list rules that the create and update routes share.
- `RepoRoutes`: repository creation, membership, pinning, the directory tree routes, the count
  and the recent-files view.
- `GroupRoutes`: the group routes.
- `Notify`: the notification helpers, with their duplicate filter and broadcast lines.
- `Inbox`: the notification listing and mark-as-read.
- `Messages`: the message history and the live chat's admission, frames and disconnect.

A file entry's upload time is optional: files that arrive inside an `add_directory` request are
stored without one, and the recent-files view then fails as the route does.

Time, sizes, the password check, the JWT decoder and the bucket configuration are parameters.
Ids are strings for groups, repositories and users. Notification ids are positions in the
collection.

## Model

| member | source | states |
|---|---|---|
| Common.RemoveAll | backend/app/routes/group.py:186 | removing an address drops every occurrence, keeps all other elements with their multiplicities, and is never longer |
| Common.SetUnion | backend/app/routes/group.py:226 | the union of two member lists has no repeats and holds exactly the addresses of either list |
| Sorting.SortBy | backend/app/routes/repo.py:514 | the sort result is ordered by the key and is a permutation of its input |
| Sorting.SmallestK | backend/app/routes/messages.py:92 | sort-then-take-k yields min(k, n) ordered elements drawn from the input, none later than any element left out |
| Store.ChangeRefs | backend/app/routes/group.py:63-73 | a `$push`/`$pull` changes only the named id list of a user document; id, e-mail and the other lists stay |
| Store.UpdateUsers | backend/app/routes/group.py:156-159 | in every user the filter selects, the named id list gets the push or pull; unselected users are untouched; every user keeps its profile fields and other lists, and the set of users and of registered addresses stays |
| Store.PushToEachLists | backend/app/routes/group.py:69-73 | after the per-member `$push`, every user whose address was in the list lists the new id |
| Store.PushKeeps | backend/app/routes/repo.py:62-66 | later pushes never remove an id a user already lists |
| Store.PullFromEachClears | backend/app/routes/repo.py:222-226 | after the per-member `$pull`, no listed member still holds the id |
| Store.PullKeepsAbsent | backend/app/routes/repo.py:222-226 | pulls never add the id to a user that did not hold it |
| Tree.Stored | backend/app/routes/repo.py:366 | `directory.dict()` keeps the request's names and shape, and gives every file its name and URL with no `added_at` |
| Tree.StoredUnstamped | backend/app/routes/repo.py:366-375 | no file at any depth of a stored request has an upload time |
| Tree.UnstampedFiles | backend/app/routes/repo.py:483-501 | so every file the flattened list reads from such a tree lacks `added_at` |
| Tree.Names | backend/app/routes/repo.py:370-372 | the names of a directory list, position by position |
| Tree.FirstNamed | backend/app/routes/repo.py:575-582 | the root-level lookup finds nothing exactly when no root directory has the name; otherwise it finds the first directory of the list with that name, as the loop's `break` does |
| Tree.Find | backend/app/routes/repo.py:345-352 | a directory found by the search carries the searched name |
| Tree.FindIsFirstInPreOrder | backend/app/routes/repo.py:345-352 | the recursive search returns exactly the first directory with the name in the pre-order listing, where siblings come in order and each subtree precedes the next sibling |
| Tree.FindNoneIffAbsent | backend/app/routes/repo.py:345-352 | the search returns None if and only if no directory at any depth has the name |
| Tree.CollectAllFiles | backend/app/routes/repo.py:483-501 | the flattened list is the root files followed by every directory's files in pre-order, and its length is the total file count at every depth |
| Tree.FilesOfIsPreOrderFiles | backend/app/routes/repo.py:491-499 | recursive collection reads the same files as reading each directory of the pre-order listing in turn |
| Tree.FlattenedMembership | backend/app/routes/repo.py:491-499 | a file is in the flattened list exactly when some directory at some depth holds it |
| Tree.EditFirst | backend/app/routes/repo.py:356-367 | editing the found directory in place: the search then finds the edited directory, nothing changes when the search fails, and root names and length are kept; listing every directory's own name, files and subdirectory count in pre-order, only the first entry with the name changes (one more file, or one more subdirectory), the new subtree's entries come right after that directory's subtree, and every other directory keeps its place, files and subdirectory count |
| Tree.EditFirstFiles | backend/app/routes/repo.py:429-470 | an in-place edit inserts exactly its own files at one point of the flattened list and keeps every other file in order |
| Tree.EditFirstNames | backend/app/routes/repo.py:355-375 | an in-place edit inserts exactly the new subtree's names at one point of the pre-order name listing and renames nothing |
| S3.ObjectUrlInjective | backend/app/utils/s3.py:29 | under one configuration, two keys have the same URL if and only if they are equal |
| S3.KeysDetermineNames | backend/app/utils/s3.py:28-29 | each folder's key determines the file name, and the three folders never share a key |
| S3.GetRepoFileUrl | backend/app/utils/s3.py:35-40 | the URL of a repository document is the public URL of its `Repo_Documents/` key |
| S3.UploadRepoFile | backend/app/utils/s3.py:26-32 | an upload stores the bytes under the document key, leaves every other key alone, and returns the same URL the lookup gives |
| S3.DeleteRepoFile | backend/app/utils/s3.py:43-47 | a delete removes exactly the document key and keeps every other object |
| S3.DeleteUndoesUpload | backend/app/utils/s3.py:28-45 | deleting by file name removes exactly what uploading that name added |
| S3.EqualNamesShareObject | backend/app/utils/s3.py:28 | keys ignore the repository, so a second upload of an equal name overwrites the first object |
| S3.UploadGroupFile | backend/app/utils/s3.py:50-56 | a group upload stores the bytes under the `Group_Documents/` key and returns its URL |
| S3.DeleteGroupFile | backend/app/utils/s3.py:70-74 | a group delete removes exactly that key |
| S3.GroupFilesView | backend/app/utils/s3.py:59-67 | one entry per stored file, in order, with the name unchanged and the URL rebuilt from it |
| S3.GroupFilesViewOfUploads | backend/app/utils/s3.py:59-67 | entries recorded from uploads are listed exactly as stored |
| S3.Stem | backend/app/utils/s3.py:93 | the stem is the longest dot-free prefix of the file name |
| S3.UploadProfilePicture | backend/app/utils/s3.py:78-84 | a profile upload stores under `profile_pictures/{email}` and returns that object's URL |
| S3.UpdateProfilePictureAsWritten | backend/app/utils/s3.py:87-98 | the update stores under `profile_pictures/{email}` but returns the URL of `profile_pictures/{email}&{stem}` |
| S3.UpdatedUrlMissesStoredObject | backend/app/utils/s3.py:90-95 | the URL the update returns never equals the URL of the object it stored |
| S3.UpdatedUrlExample | backend/app/utils/s3.py:90-95 | a concrete case: "a@x" uploading "me.png" gets a URL ending in `a@x&me` |
| S3.UpdateProfilePicture | backend/app/utils/s3.py:87-98 | the corrected update returns a URL of an object it stored, namely the one the profile lookup gives, and keeps other objects |
| S3.DeleteProfilePicture | backend/app/utils/s3.py:109-116 | the picture object is deleted only when the user has a profile picture URL; nothing else is touched |
| Auth.ExpiryDelta | backend/app/routes/auth.py:30 | a missing or zero delta falls back to 15 minutes; any other delta is used as given |
| Auth.CreateAccessToken | backend/app/routes/auth.py:28-33 | the token claims are the input claims with `exp` set to now plus the delta and nothing else changed |
| Auth.TokenLifetime | backend/app/routes/auth.py:28-33 | without a delta a token lives 15 minutes, with a nonzero delta exactly that long, and a zero delta behaves like none |
| Auth.Login | backend/app/routes/auth.py:82-100 | an unknown user or a wrong password gives 400; otherwise the only claims are `id` and an expiry 30 minutes ahead |
| Auth.DenyToken | backend/app/routes/auth.py:131-132 | the new list keeps every token already on it, holds the logged-out token, and gains no other token |
| Auth.VerifyJwtToken | backend/app/routes/auth.py:150-152 | the check fails with 401 exactly when the token is deny-listed |
| Auth.Logout | backend/app/routes/auth.py:139-147 | an empty token gives 400; any other token joins the list and nothing else does |
| Auth.GetCurrentUser | backend/app/routes/auth.py:104-123 | a deny-listed token is refused before decoding; success needs a decodable token whose `id` names a stored user, and any other failure is the 401 credentials error |
| Auth.LiveTokenAccepted | backend/app/routes/auth.py:104-123 | a token that was never logged out and decodes to a stored user's id is accepted as that user |
| Auth.LogoutIsPermanent | backend/app/routes/auth.py:128-136 | across any run of logouts the list only grows, and every nonempty token logged out is refused afterwards |
| Users.SplitKnown | backend/app/crud/user.py:43-49 | every requested address lands on exactly one side by registration, with order and repeats kept |
| Users.CheckMembersExist | backend/app/crud/user.py:39-50 | the valid list starts with the caller's address, followed by the known requested addresses; the unknown ones form the other list |
| Users.ClassifiedByRegistration | backend/app/crud/user.py:43-49 | a requested address is on the valid side if and only if it is registered, and never on both sides |
| Users.RemoveAllKeepsOrder | backend/app/crud/user.py:29-30 | a `$pull` keeps the surviving members in their stored order |
| Users.PullFromGroups | backend/app/crud/user.py:29 | after the `update_many` pull no group lists the value; every other address keeps its count and its order, and every other field of every group is unchanged |
| Users.PullFromRepos | backend/app/crud/user.py:30 | after the pull no repository lists the value; every other address keeps its count and its order, and every other field is unchanged |
| Users.DeleteUserAsWritten | backend/app/crud/user.py:22-35 | a missing account gives 404; otherwise the account goes, the id is pulled from group members, repositories are untouched, and the picture goes only if set |
| Users.DeleteUserAsWrittenKeepsMembership | backend/app/crud/user.py:29-30 | after the deletion as written, the deleted address is still a member wherever it was |
| Users.DeleteUser | backend/app/crud/user.py:22-35 | the corrected deletion removes the account, pulls the address from every group and every repository, and deletes the picture; messages and notifications stay |
| Users.DeleteUserKeepsOthers | backend/app/crud/user.py:29-30 | the corrected deletion keeps every other member of every group and repository |
| Membership.PartitionFrom | backend/app/routes/group.py:36-49 | the create loop puts each first-seen known address in the valid list and each first-seen unknown one in the missing list, each without repeats; every occurrence lands in exactly one list |
| Membership.PartitionIsSplitOfDedup | backend/app/routes/group.py:36-49 | the create loop equals `check_members_exist`'s split applied to the request with repeats and seen addresses removed |
| Membership.SplitNew | backend/app/routes/group.py:106-117 | the update loop skips existing members and sorts the rest by registration, keeping order: each address not yet a member occurs in exactly one of the two lists, as many times as it was requested |
| Membership.PlanMembers | backend/app/routes/group.py:106-128 | an unknown new address aborts the update, carrying every unknown new address in request order, repeats included; with nothing new the list is unchanged; otherwise the list is the repeat-free union |
| RepoRoutes.AddDirectory | backend/app/routes/repo.py:332-383 | a non-owner gets 404, a missing parent 404, a same-named sibling 400; otherwise the request, stored as it came, is appended last under the found parent or at the root; under a parent, every other directory keeps its files and subdirectory count and the new subtree follows the parent's subtree in pre-order |
| RepoRoutes.AddDirectoryFiles | backend/app/routes/repo.py:355-375 | a successful insert adds the new subtree's files as one block and keeps every other file in order |
| RepoRoutes.AddDirectoryNames | backend/app/routes/repo.py:355-375 | likewise for the pre-order name listing |
| RepoRoutes.AddFile | backend/app/routes/repo.py:394-479 | the owner check comes first, then the size limit, then the parent lookup, then the duplicate check among files only; on success the object is stored and one entry is appended to exactly one list; under a parent, every other directory keeps its files and subdirectory count |
| RepoRoutes.AddFileInsertsOnce | backend/app/routes/repo.py:429-470 | a successful upload inserts exactly its own entry at one point of the flattened file list |
| RepoRoutes.DeleteDirectory | backend/app/routes/repo.py:567-590 | only root-level directories match; a miss gives 404; a hit pulls the first root directory with the name, every copy of it, keeps every other directory, and changes nothing else in the store |
| RepoRoutes.DeleteDirectoryUndoesAdd | backend/app/routes/repo.py:567-590 | deleting a directory just added at the root restores the directory list |
| RepoRoutes.FirstFile | backend/app/routes/repo.py:615-618 | the file lookup fails exactly when no file of the list has the name; otherwise it finds the first file with that name, as the loop's `break` does |
| RepoRoutes.PullFileAt | backend/app/routes/repo.py:624-627 | the positional pull changes only directories with the parent's name, and only their files |
| RepoRoutes.PullFileAtFirst | backend/app/routes/repo.py:624-627 | the first root directory with the name loses the file |
| RepoRoutes.PullFileAtBefore | backend/app/routes/repo.py:624-627 | directories before it are untouched |
| RepoRoutes.DeleteFile | backend/app/routes/repo.py:594-646 | the parent is looked up among root directories only; a missing parent or file gives 404; otherwise the first entry with the name is pulled from the root files or from the first root directory with the parent's name, its object is deleted, and nothing else in the store changes |
| RepoRoutes.DeleteFileUndoesAdd | backend/app/routes/repo.py:594-646 | deleting a file just uploaded to the root restores the repository and removes its object |
| RepoRoutes.CountDocuments | backend/app/routes/repo.py:545-563 | 404 for a missing repository, 403 for a non-member; otherwise the count is the number of root files plus root directories |
| RepoRoutes.CountAfterAdds | backend/app/routes/repo.py:545-563 | a root-level add raises the count by one; a nested add leaves it unchanged |
| RepoRoutes.GetRepo | backend/app/routes/repo.py:520-542 | 404 for a missing repository, 403 for a non-member, otherwise the stored document |
| RepoRoutes.MemberOf | backend/app/routes/repo.py:506 | the repositories listing the caller, in collection order |
| RepoRoutes.FilesOfRepos | backend/app/routes/repo.py:509-511 | a file is in the pool exactly when one of the repositories holds it |
| RepoRoutes.RecentFiles | backend/app/routes/repo.py:504-517 | a pool file without `added_at` makes the view fail with 500; otherwise min(5, pool size) files from the pool, newest first, none older than a file left out |
| RepoRoutes.NewestOf | backend/app/routes/repo.py:514-517 | the sort fails exactly when some file lacks `added_at`; otherwise it takes the newest min(5, n) files, newest first |
| RepoRoutes.DirectoryFileBreaksRecent | backend/app/routes/repo.py:366-514 | once a directory whose request carries a file is added, the recent-files view fails with 500 for every member of the repository |
| RepoRoutes.RecentFilesFromMemberRepos | backend/app/routes/repo.py:506-511 | every recent file belongs to a repository that lists the caller |
| RepoRoutes.RecentShowsSmallPool | backend/app/routes/repo.py:514-517 | when the chosen repositories hold at most five files and the view succeeds, it lists all of them, as a permutation |
| RepoRoutes.Pin | backend/app/routes/repo.py:84-108 | a missing repository gives 404; a repository already pinned, or 5 already pinned, gives 400; otherwise the id is pushed |
| RepoRoutes.Unpin | backend/app/routes/repo.py:111-131 | 404 for a missing repository, 400 if it is not pinned, otherwise the id is pulled |
| RepoRoutes.PinKeepsLimit | backend/app/routes/repo.py:93-104 | pinning keeps the pinned list repeat-free and at most 5 long |
| RepoRoutes.UnpinUndoesPin | backend/app/routes/repo.py:120-126 | unpinning what was just pinned restores the pinned list |
| RepoRoutes.InsertRepo | backend/app/routes/repo.py:52-66 | the new document is stored; the users are the owner's `owned_repos` push followed by a `member_repos` push for each member address, so the owner and every member user list it; groups, blobs, messages and notifications stay |
| Store.OwnerThenMembersListed | backend/app/routes/repo.py:59-66 | the member pushes never undo the owner's push, and every member's push lands (used for repositories and groups) |
| Store.OwnerThenMembersUnlisted | backend/app/routes/repo.py:215-228 | after a deletion the owner no longer lists the document, and profiles and the unrelated lists are kept |
| RepoRoutes.CreateRepoAsWritten | backend/app/routes/repo.py:19-81 | a same-named repository of the owner gives 400; otherwise the stored members are `check_members_exist`'s valid list, repeats included, the document has the name, owner and creation time and no files or directories, and the store is exactly `InsertRepo` of it |
| RepoRoutes.CreateRepoStoresRepeats | backend/app/routes/repo.py:33-50 | a registered address requested twice is stored twice as written and once when corrected |
| RepoRoutes.CreateRepo | backend/app/routes/repo.py:19-81 | the corrected create stores the creator first, then each first-seen registered address, without repeats; the document has the name, owner and creation time and no files or directories, and the store is exactly `InsertRepo` of it |
| RepoRoutes.UpdateRepo | backend/app/routes/repo.py:155-199 | 404 and 403 first; an unknown new address returns every unknown new address in request order, repeats included, and writes nothing, not even the name; otherwise the name and union of members are written; for the owner with every new address registered, the answer is "No changes made" exactly when the name and the member set would stay the same |
| RepoRoutes.UpdateRepoTwiceRefused | backend/app/routes/repo.py:155-199 | repeating a successful update is refused with "No changes made" |
| RepoRoutes.DeleteRepo | backend/app/routes/repo.py:203-231 | 404 and 403 first; then the document goes, the owner's `owned_repos` and the members' `member_repos` are pulled, profiles and pins are kept, the owner no longer lists it, and nothing else in the store changes |
| RepoRoutes.DeleteRepoClearsMembers | backend/app/routes/repo.py:221-226 | after a delete no member still lists the repository |
| RepoRoutes.RemoveMember | backend/app/routes/repo.py:235-269 | 404, 403, self-removal 400 and non-member 400, in that order; otherwise every occurrence is pulled, the user's back-reference goes, and nothing else in the store changes |
| RepoRoutes.AddMember | backend/app/routes/repo.py:272-308 | 404, 403, already-a-member 400 and unknown-user 404, in that order; otherwise the address is pushed with its back-reference, and nothing else in the store changes |
| RepoRoutes.RemoveMemberUndoesAdd | backend/app/routes/repo.py:235-308 | removing a member just added restores the member list |
| RepoRoutes.DocsScenario | backend/app/routes/repo.py:332-646 | create, add "docs", upload "a.txt" into it, a second upload refused with 400, delete "docs": no file is left in the tree |
| GroupRoutes.CreateGroup | backend/app/routes/group.py:19-87 | a same-named group of the admin gives 400; otherwise the creator comes first, then each first-seen registered address, without repeats; unknown and repeated addresses are reported, and every repeat of the creator's own address counts as a duplicate; the admin's `owned_groups` gains the group, every member's `member_groups` push follows it, and nothing else changes |
| GroupRoutes.CreateGroupIsCheckOfDedup | backend/app/routes/group.py:36-55 | the stored members equal the creator plus `check_members_exist`'s split of the request with repeats removed |
| GroupRoutes.CreateGroupBackReferences | backend/app/routes/group.py:69-73 | when the caller owns no group of that name, creation succeeds and the creator and every registered requested address list the new group in `member_groups` |
| GroupRoutes.UpdateGroup | backend/app/routes/group.py:92-135 | 404, then 403 for a non-admin; an unknown new address returns every unknown new address in request order, repeats included, and writes nothing; otherwise the name and the union of members are written; for the admin with every new address registered, the answer is "No changes made" exactly when the name and the member set would stay the same |
| GroupRoutes.UpdateGroupTwiceRefused | backend/app/routes/group.py:92-135 | repeating a successful update is refused with "No changes made" |
| GroupRoutes.DeleteGroup | backend/app/routes/group.py:139-162 | 404, then 403 for a non-admin; otherwise the group goes, `member_groups` is pulled from every user and no user lists it afterwards; profiles, the other lists and the rest of the store are kept |
| GroupRoutes.RemoveMember | backend/app/routes/group.py:165-201 | 404, 403, non-member 404 and self-removal 400, in that order; otherwise the stored list is the old one with every occurrence of the address pulled, the others keeping their order and count, the member's back-reference is pulled, and nothing else changes |
| GroupRoutes.AddMember | backend/app/routes/group.py:204-241 | 404, 403, already-a-member 400 and unknown-user 404, in that order; otherwise the list is the repeat-free union with the address, its back-reference is pushed, and nothing else changes |
| GroupRoutes.AddThenRemoveMember | backend/app/routes/group.py:186-226 | on a repeat-free list an add appends the address last, and removing it restores the group |
| GroupRoutes.LeaveGroup | backend/app/routes/group.py:289-325 | 404, non-member 403 and admin 403, in that order; otherwise only the caller's address leaves, the back-reference is pulled, a "group" notice from "System" is created, and nothing else changes |
| GroupRoutes.LeaveAnnouncesToRemaining | backend/app/routes/group.py:305-323 | the departure is announced to the remaining members and never to the one who left |
| GroupRoutes.MemberGate | backend/app/routes/group.py:244-254 | 404 for a missing group, 403 for a non-member, otherwise the stored group |
| GroupRoutes.GetGroupMembers | backend/app/routes/group.py:268-286 | members only; the stored member list, which contains the caller |
| GroupRoutes.GetGroupFiles | backend/app/routes/group.py:396-409 | members only; one entry per sent file, in order, at its group-folder URL |
| GroupRoutes.UploadFile | backend/app/routes/group.py:357-393 | the membership gate, then the content type check with the allowed list in the message, then the size limit; on success the object is stored and the entry appended |
| GroupRoutes.UploadThenList | backend/app/routes/group.py:357-409 | after an upload the listing ends with the new file at the URL of the stored object |
| GroupRoutes.MembershipInvariant | backend/app/routes/group.py:165-312 | add, remove, update and leave keep a group's member list repeat-free and containing the admin |
| Notify.ForGroupMembers | backend/app/utils/notification.py:8-30 | one unread "group" record per member other than the sender, in member order, appended after the existing ones; an empty list inserts nothing |
| Notify.ForGroupMembersReceivers | backend/app/utils/notification.py:11-26 | an address receives a record if and only if it is a member other than the sender |
| Notify.ForNewMember | backend/app/utils/notification.py:33-45 | one unread "personal" record from "System" to the new member |
| Notify.NormId | backend/app/utils/notification.py:52-62 | an absent or empty id is stored as null, any other id unchanged |
| Notify.Announce | backend/app/utils/notification.py:73-82 | one line "Notification for {member}: {content}" per member, in order |
| Notify.Create | backend/app/utils/notification.py:49-82 | a record with the same group id, content and type means no insert and no broadcast; otherwise one record without `read` is appended and the audience is told, the group taking precedence over the repository |
| Notify.CreateIdempotent | backend/app/utils/notification.py:51-58 | receiver, repository, sender and time are outside the duplicate key, so a second call with the same key changes nothing |
| Notify.NotifyOtherGroupMembers | backend/app/utils/notification.py:84-90 | at most one record is added, after the existing ones |
| Notify.NotifyOnce | backend/app/utils/notification.py:84-90 | the per-member loop amounts to a single `create_notification` when another member exists, and to nothing otherwise |
| Notify.NotifyAfterFirst | backend/app/utils/notification.py:84-90 | once the key is present, further iterations are no-ops |
| Inbox.IdText | backend/app/routes/notifications.py:40-42 | the text form of an id is a nonempty run of digits |
| Inbox.IdTextRoundTrip | backend/app/routes/notifications.py:42 | parsing the text of an id, as `ObjectId(notification_id)` does, gives the id back |
| Inbox.IdTextInjective | backend/app/routes/notifications.py:42 | two ids have the same text if and only if they are the same id |
| Inbox.View | backend/app/routes/notifications.py:11-31 | the response keeps time, receiver and content, maps an absent or empty group id to None, reads a missing `read` as false, and has no id field, since the response model has none |
| Common.MapPermutes | backend/app/routes/notifications.py:26-33 | rendering a permutation of records gives a permutation of the rendered list |
| Inbox.Listing | backend/app/routes/notifications.py:20-34 | the listing is newest first, and holds the view of each record passing the filter, as many times as such records occur |
| Inbox.GetNotifications | backend/app/routes/notifications.py:11-34 | the intended listing holds the records addressed to the caller or about one of the caller's groups, each as often as it occurs, newest first |
| Inbox.GetNotificationsAsWritten | backend/app/routes/notifications.py:20-25 | the query as written lists exactly the records addressed to the caller, each as often as it occurs, newest first |
| Inbox.GroupNoticeHiddenAsWritten | backend/app/routes/notifications.py:20-25 | a group notice without a receiver, about one of the caller's groups, appears in the intended listing and not in the one as written |
| Inbox.MarkRead | backend/app/routes/notifications.py:39-44 | only a record with that id can change, and only its `read` flag; the caller is not consulted |
| Inbox.MarkReadByText | backend/app/routes/notifications.py:39-44 | a path text that is not an id gives 500; otherwise the same length, and each record either kept or marked read |
| Inbox.MarkReadByIdText | backend/app/routes/notifications.py:42 | the text of an id marks exactly what marking that id marks |
| Inbox.MarkReadHits | backend/app/routes/notifications.py:42 | when a record carries the id, one such record is marked read |
| Inbox.MarkReadIdempotent | backend/app/routes/notifications.py:42 | marking twice is marking once |
| Inbox.MarkReadNumbered | backend/app/routes/notifications.py:42 | in a positionally numbered collection exactly the record with the id is marked |
| Messages.OfGroup | backend/app/routes/messages.py:92 | the messages of one group, each as often as it is stored, and nothing of another group |
| Messages.OfGroupAppend | backend/app/routes/messages.py:42-92 | a new message joins its own group's history at the end and no other group's |
| Messages.GetGroupMessages | backend/app/routes/messages.py:80-100 | 404 then 403; otherwise min(100, group size) of the group's messages, a sub-multiset of them, oldest first, none newer than a message left out |
| Messages.Connect | backend/app/routes/messages.py:23-35 | a missing group or a non-member gets a denial text and code 1003 and is never registered; a member's connection is registered |
| Messages.ReceiveFrame | backend/app/routes/messages.py:38-49 | a frame stores one message, records the new-message notice through the notification service, broadcasts that service's lines and then "{email} in group {id}: {data}", and changes nothing else |
| Messages.LaterFramesAddNoNotice | backend/app/routes/messages.py:44-49 | only a sender's first frame in a group adds a notification; a later frame broadcasts only its chat line |
| Messages.RemoveFirst | backend/app/routes/messages.py:51 | deregistering drops one occurrence of the connection |
| Messages.Disconnect | backend/app/routes/messages.py:50-52 | the connection is deregistered, then "{email} left group {id}." is broadcast |
| Messages.SessionRestoresConnections | backend/app/routes/messages.py:35-52 | after connect, any frames and a disconnect, the connections are as before, every frame is stored, and the departure line is last |
| Messages.ReceivedMessageInHistory | backend/app/routes/messages.py:42-92 | below 100 messages, a message just received appears in the history |

## Left out

- I/O and concurrency: the database driver, boto3, the WebSocket transport and interleaving of requests are not modelled. A broadcast is a line appended to one output log.
- Time: `datetime.utcnow()` is an integer parameter `now`. Token expiry is counted in minutes.
- Message time: `models/messages.py` declares `timestamp: datetime = datetime.utcnow()`. That default is computed once, when the module is imported, so every message the program stores gets the same time. The model stamps each message with the `now` of its own request.
- Identifiers: `ObjectId`s are plain strings for users, groups and repositories. A notification's id is its position in the collection.
- Configuration: `MAX_FILE_SIZE` is the 10 MB default. The allowed content types are a parameter. The bucket and region are a `Config` value.
- Size check: the byte length of the upload stands for `len(await file.read())`.
- Crypto: JWT encoding and decoding are not modelled. `GetCurrentUser` takes the decoder as a function parameter. Password verification is a parameter of `Login`.
- Registration and profile routes: `register_user`, `get_user`, `update_user_profile`, `update_user_picture` and `update_password` are field-update CRUD. Only the S3 helpers they call and the account deletion are modelled.
- Read-only listing routes: `get_all_repos`, `get_pinned_repos` and `get_all_groups` are not modelled.
- Group details: `get_group` is modelled as its gate, `GroupRoutes.MemberGate`. The response fields are the stored ones.
- Database wrappers: the insert wrappers in the crud modules cannot fail here, since an insert always succeeds. So the "Failed to create group" and "Failed to delete group" branches never fire.
- `RepoRoutes.RecentFiles`: the repository collection's natural order is the order of a sequence parameter. Ties in `added_at` keep collection order, as Python's stable sort does.
- `RepoRoutes.RecentFiles`: the files are returned with their upload time; the response model keeps only `filename` and `url`, so the caller does not see it.
- `Inbox.IdText`: a notification id is a natural number written in decimal, not a 24-digit hexadecimal `ObjectId`; `IdLike` accepts the decimal numerals in its place.
- `RepoRoutes.AddFile`: only the repository owner may add a file. The code filters by `owner_id`, so it is followed here. A looser "any member may add" reading of the route is not modelled.
- `RepoRoutes.UpdateRepo`, `GroupRoutes.UpdateGroup`: an update that changes nothing gives "No changes made", including the empty `$set`. The driver's `modified_count == 0` is read as "the document is unchanged".
- Duplicate-free unions: `SetUnion` is stated up to membership and freedom from repeats. The iteration order of a Python `set` is not modelled. `GroupRoutes.AddThenRemoveMember` fixes one concrete order: the new address last.
- `Notify.Create`: the record it creates has no `read` field, following the code. It appears as unread in the listing.
- `Notify.Create`: a group or repository id naming no stored document gives an empty audience here. The code inserts the record and then raises `TypeError` on `None["members"]`, a 500 after the write. Every route in this model passes the id of a document it has just read, so the case is not reached from them.
- `Notify.NotifyOtherGroupMembers`: a group id naming no stored group gives no record here. The code raises `TypeError` before any write. Its callers pass a group they have just read.
- `Tree.Stored`: a request with `subdirectories` or `files` sent as an explicit null is read as an empty list. The code would store the null and later fail when it iterates it.
- Broken calls, modelled with their intended meaning:
  - `update_group` and `delete_group` in `routes/group.py` shadow the crud helpers they call.
  - `leave_group` calls `create_notification` without importing it and without a `type`. It is modelled with type "group".
  - `leave_group` builds its notice with an f-string that nests double quotes, which only Python 3.12 and later accept. The text is modelled as `LeftNotice`.
  - `routes/messages.py` calls `insert_message` with three arguments against a one-argument signature, and calls `create_notification` without a `type` and with the user document as sender. It is modelled with the e-mail as sender and type "group".
- HTTP exceptions: the crud modules and `routes/messages.py` import `HTTPException` from `http.client`. That class is not FastAPI's, and calling it with `status_code=` and `detail=` raises `TypeError`, so the program actually answers 500 at each of those raises. The model gives the status and detail the code passes, which is what was intended.
- Python's `repr`: `GroupRoutes.UploadFile`'s message prints the allowed list with single quotes. Python switches to double quotes for a string containing one, which is not modelled.
- User back-references: the "update one user by e-mail" writes touch every user document carrying that address. Registration keeps addresses unique.

## Findings

| source | as written | input that shows it | evidently intended | confidence | as-written member | corrected member |
|---|---|---|---|---|---|---|
| backend/app/routes/repo.py:33-50 | `create_repo` stores `check_members_exist`'s valid list, so a repeated address is stored as many times as requested | members `[b, b]` with `b` registered: stored `[me, b, b]` | each member stored once, as `create_group` does | not executed | RepoRoutes.CreateRepoAsWritten, RepoRoutes.CreateRepoStoresRepeats | RepoRoutes.CreateRepo |
| backend/app/crud/user.py:29-30 | account deletion pulls the user's id from `members`, which hold e-mail addresses, and targets a `repos` collection while repositories live in `repositories` | any user who is a member of a group or repository stays listed after deleting the account | pull the e-mail address from groups and repositories | not executed | Users.DeleteUserAsWritten, Users.DeleteUserAsWrittenKeepsMembership | Users.DeleteUser |
| backend/app/utils/s3.py:90-95 | the profile-picture update stores under `profile_pictures/{email}` but returns a URL for `profile_pictures/{email}&{stem}` | "a@x" uploading "me.png": the URL names `a@x&me`, which holds nothing | return the URL of the stored object | not executed | S3.UpdateProfilePictureAsWritten, S3.UpdatedUrlMissesStoredObject | S3.UpdateProfilePicture |
| backend/app/routes/notifications.py:20-25 | notifications store `group_id` as an `ObjectId` while `member_groups` holds strings, so the `$in` clause never matches | a group notice with no receiver about a group the caller belongs to | list the caller's group notices | not executed | Inbox.GetNotificationsAsWritten, Inbox.GroupNoticeHiddenAsWritten | Inbox.GetNotifications |

=== FILE: auth.dfy ===
/** Access tokens and the logout deny-list. The signed token is modelled by
    its claims; signing and signature checking are foreign code, so decoding is
    a parameter that either yields the claims or fails. Times are whole minutes. */
module Auth {
  import opened Common
  import opened Store

  const DefaultExpiryMinutes := 15
  const AccessTokenExpireMinutes := 30

  const DeniedDetail := "You are not authorized to perform this action! Please log in again."
  const CredentialsDetail := "Could not validate credentials"

  /** A claim value: a text (such as the user id) or the `exp` instant. */
  datatype Claim = Text(text: string) | Expiry(at: int)

  type Claims = map<string, Claim>

  /** `expires_delta or timedelta(minutes=15)`: both a missing and a zero delta are falsy. */
  function ExpiryDelta(delta: Option<int>): (d: int)
    ensures delta.Some? && delta.value != 0 ==> d == delta.value
    ensures delta.None? || delta.value == 0 ==> d == DefaultExpiryMinutes
  {
    if delta.Some? && delta.value != 0 then delta.value else DefaultExpiryMinutes
  }

  /** `create_access_token`: a copy of `data` with `exp` set (or overwritten) to `now` plus the delta. */
  function CreateAccessToken(data: Claims, delta: Option<int>, now: int): (r: Claims)
    ensures r.Keys == data.Keys + {"exp"}
    ensures forall k | k in data && k != "exp" :: r[k] == data[k]
    ensures r["exp"] == Expiry(now + ExpiryDelta(delta))
  {
    data["exp" := Expiry(now + ExpiryDelta(delta))]
  }

  /** Without a delta a token lives 15 minutes; with a nonzero delta, exactly that long. */
  lemma TokenLifetime(data: Claims, delta: int, now: int)
    ensures CreateAccessToken(data, None, now)["exp"] == Expiry(now + 15)
    ensures delta != 0 ==> CreateAccessToken(data, Some(delta), now)["exp"] == Expiry(now + delta)
    ensures CreateAccessToken(data, Some(0), now) == CreateAccessToken(data, None, now)
  {
  }

  /** `login_user`. `found` is the user whose username matched, if any; `passwordOk`
      checks a plain password against the stored hash. */
  function Login(found: Option<User>, password: string, passwordOk: (string, string) -> bool, now: int): (r: Result<Claims>)
    ensures r.Err? <==> found.None? || !passwordOk(password, found.value.password)
    ensures r.Err? ==> r.error == HttpError(400, "Incorrect Email/Username or Password")
    ensures r.Ok? ==> r.value.Keys == {"id", "exp"}
    ensures r.Ok? ==> r.value["id"] == Text(found.value.id) && r.value["exp"] == Expiry(now + 30)
  {
    if found.None? || !passwordOk(password, found.value.password) then
      Fail(400, "Incorrect Email/Username or Password")
    else
      Ok(CreateAccessToken(map["id" := Text(found.value.id)], Some(AccessTokenExpireMinutes), now))
  }

  // ---------------------------------------------------------------------------
  // The deny-list.

  /** `is_token_blacklisted`. */
  predicate IsDenied(deny: set<string>, token: string) {
    token in deny
  }

  /** `blacklist_token`. */
  function DenyToken(deny: set<string>, token: string): (r: set<string>)
    ensures deny <= r && token in r
    ensures r - deny <= {token}
  {
    deny + {token}
  }

  /** `verify_jwt_token`: fails with 401 exactly when the token has been logged out. */
  function VerifyJwtToken(deny: set<string>, token: string): (r: Result<()>)
    ensures r.Err? <==> IsDenied(deny, token)
    ensures r.Err? ==> r.error == HttpError(401, DeniedDetail)
  {
    if IsDenied(deny, token) then Fail(401, DeniedDetail) else Ok(())
  }

  /** `logout_user`: an empty token is refused; any other token joins the deny-list. */
  function Logout(deny: set<string>, token: string): (r: Result<set<string>>)
    ensures r.Err? <==> token == ""
    ensures r.Err? ==> r.error == HttpError(400, "No token provided")
    ensures r.Ok? ==> deny <= r.value && IsDenied(r.value, token)
    ensures r.Ok? ==> r.value - deny <= {token}
  {
    if token == "" then Fail(400, "No token provided") else Ok(DenyToken(deny, token))
  }

  /** `get_current_user`. The deny-list comes first, so a logged-out token is refused with the
      deny-list detail even when it would still decode. `decode` yields `None` for a bad signature
      or an expired token. */
  function GetCurrentUser(deny: set<string>, users: map<UserId, User>, token: string,
                          decode: string -> Option<Claims>): (r: Result<User>)
    ensures IsDenied(deny, token) ==> r == Fail(401, DeniedDetail)
    ensures r.Ok? ==> !IsDenied(deny, token) && decode(token).Some?
    ensures r.Ok? ==> "id" in decode(token).value && decode(token).value["id"].Text?
    ensures r.Ok? ==> decode(token).value["id"].text in users && r.value == users[decode(token).value["id"].text]
    ensures !IsDenied(deny, token) && r.Err? ==> r.error == HttpError(401, CredentialsDetail)
  {
    var _ :- VerifyJwtToken(deny, token);
    match decode(token)
    case None => Fail(401, CredentialsDetail)
    case Some(payload) =>
      if "id" !in payload || !payload["id"].Text? then Fail(401, CredentialsDetail)
      else if payload["id"].text !in users then Fail(401, CredentialsDetail)
      else Ok(users[payload["id"].text])
  }

  /** A token that decodes to the id of a stored user, and was never logged out, is accepted. */
  lemma LiveTokenAccepted(deny: set<string>, users: map<UserId, User>, token: string,
                          decode: string -> Option<Claims>, id: UserId)
    requires !IsDenied(deny, token) && id in users
    requires decode(token).Some? && "id" in decode(token).value && decode(token).value["id"] == Text(id)
    ensures GetCurrentUser(deny, users, token, decode) == Ok(users[id])
  {
  }

  /** A sequence of logouts, in order; refused (empty) tokens leave the list as it was. */
  function LogoutAll(deny: set<string>, tokens: seq<string>): (r: set<string>)
    decreases |tokens|
  {
    if |tokens| == 0 then deny
    else
      var next := match Logout(deny, tokens[0]) case Ok(d) => d case Err(_) => deny;
      LogoutAll(next, tokens[1..])
  }

  /** No operation removes an entry: after any run of logouts the earlier list is still
      contained, and every nonempty token that was logged out is refused by `get_current_user`. */
  lemma {:induction false} LogoutIsPermanent(deny: set<string>, tokens: seq<string>, users: map<UserId, User>,
                                             decode: string -> Option<Claims>)
    ensures deny <= LogoutAll(deny, tokens)
    ensures forall t | t in tokens && t != "" ::
              GetCurrentUser(LogoutAll(deny, tokens), users, t, decode) == Fail(401, DeniedDetail)
    decreases |tokens|
  {
    if |tokens| > 0 {
      var next := match Logout(deny, tokens[0]) case Ok(d) => d case Err(_) => deny;
      LogoutIsPermanent(next, tokens[1..], users, decode);
      forall t | t in tokens && t != ""
        ensures IsDenied(LogoutAll(deny, tokens), t)
      {
        if t != tokens[0] {
          assert t in tokens[1..];
        }
      }
    }
  }
}

=== FILE: common.dfy ===
/** Shared vocabulary of the backend model: optional values, the HTTP-style
    error every route raises, and the list operations the document store
    applies to array fields ($push, $pull, and Python's list(set(...))). */
module Common {

  datatype Option<T> = None | Some(value: T) {
    function GetOr(default: T): T {
      match this
      case Some(v) => v
      case None => default
    }
  }

  /** An `HTTPException(status_code, detail)` raised by a route. */
  datatype HttpError = HttpError(status: nat, detail: string)

  datatype Result<T> = Ok(value: T) | Err(error: HttpError) {
    predicate IsFailure() { Err? }

    function PropagateFailure<U>(): Result<U>
      requires Err?
    {
      Err(error)
    }

    function Extract(): T
      requires Ok?
    {
      value
    }
  }

  function Fail<T>(status: nat, detail: string): (r: Result<T>)
    ensures r.Err? && r.error == HttpError(status, detail)
  {
    Err(HttpError(status, detail))
  }

  /** Python truthiness of an optional string: `None` and `""` are both false. */
  predicate Truthy(o: Option<string>) {
    o.Some? && o.value != ""
  }

  /** No element occurs twice. */
  predicate NoDup<T(==)>(s: seq<T>) {
    forall i, j | 0 <= i < j < |s| :: s[i] != s[j]
  }

  /** `$pull` with a value, or `[y for y in s if y != x]`: drop every occurrence of `x`. */
  function RemoveAll<T(==,!new)>(s: seq<T>, x: T): (r: seq<T>)
    ensures x !in r
    ensures forall y :: y in r <==> y in s && y != x
    ensures |r| <= |s|
    ensures multiset(r) == multiset(s)[x := 0]
  {
    if |s| == 0 then []
    else
      assert s == [s[0]] + s[1..];
      var rest := RemoveAll(s[1..], x);
      if s[0] == x then rest else [s[0]] + rest
  }

  /** A sub-multiset of the same size is the whole multiset. */
  lemma SameSizeSubMultiset<T>(a: multiset<T>, b: multiset<T>)
    requires a <= b && |a| == |b|
    ensures a == b
  {
    assert |b - a| == |b| - |a|;
  }

  /** `[f(x) for x in s]`. */
  function MapSeq<T, U>(s: seq<T>, f: T -> U): (r: seq<U>)
    ensures |r| == |s|
    ensures forall i | 0 <= i < |s| :: r[i] == f(s[i])
  {
    if |s| == 0 then [] else [f(s[0])] + MapSeq(s[1..], f)
  }

  lemma MapAppend<T, U>(a: seq<T>, b: seq<T>, f: T -> U)
    ensures MapSeq(a + b, f) == MapSeq(a, f) + MapSeq(b, f)
  {
    var l, r := MapSeq(a + b, f), MapSeq(a, f) + MapSeq(b, f);
    assert |l| == |r|;
    forall i | 0 <= i < |l| ensures l[i] == r[i] {
      if i < |a| { assert (a + b)[i] == a[i]; } else { assert (a + b)[i] == b[i - |a|]; }
    }
  }

  /** Dropping one matched element from two permutations leaves permutations. */
  lemma DropMatched<T>(a: seq<T>, b: seq<T>, k: nat)
    requires |a| > 0 && k < |b| && b[k] == a[0] && multiset(a) == multiset(b)
    ensures multiset(a[1..]) == multiset(b[..k] + b[k + 1..])
  {
    assert a == [a[0]] + a[1..];
    assert b == b[..k] + [a[0]] + b[k + 1..];
    CancelOne(a[0], a[1..], b[..k], b[k + 1..]);
  }

  /** Taking one `x` off both sides of a multiset equation. */
  lemma CancelOne<T>(x: T, tail: seq<T>, pre: seq<T>, post: seq<T>)
    requires multiset([x] + tail) == multiset(pre + [x] + post)
    ensures multiset(tail) == multiset(pre + post)
  {
    calc {
      multiset{x} + multiset(tail);
      multiset([x] + tail);
      multiset(pre + [x] + post);
      multiset(pre) + multiset{x} + multiset(post);
      multiset{x} + multiset(pre + post);
    }
    assert multiset(tail) == multiset{x} + multiset(tail) - multiset{x};
    assert multiset(pre + post) == multiset{x} + multiset(pre + post) - multiset{x};
  }

  lemma MapSplit<T, U>(pre: seq<T>, x: T, post: seq<T>, f: T -> U)
    ensures multiset(MapSeq(pre + [x] + post, f)) == multiset(MapSeq(pre + post, f)) + multiset{f(x)}
  {
    var p, q := MapSeq(pre, f), MapSeq(post, f);
    assert pre + [x] + post == pre + ([x] + post);
    MapAppend(pre, [x] + post, f);
    MapAppend([x], post, f);
    MapAppend(pre, post, f);
    assert MapSeq(pre + [x] + post, f) == p + ([f(x)] + q);
  }

  lemma IndexOf<T>(b: seq<T>, x: T) returns (k: nat)
    requires x in multiset(b)
    ensures k < |b| && b[k] == x
  {
    assert x in b;
    k :| 0 <= k < |b| && b[k] == x;
  }

  /** The inductive step of `MapPermutes`: `a`'s head `x` sits between `pre` and `post` in `b`. */
  lemma MapStep<T, U>(a: seq<T>, b: seq<T>, x: T, tail: seq<T>, pre: seq<T>, post: seq<T>, f: T -> U)
    requires a == [x] + tail && b == pre + [x] + post
    requires multiset(MapSeq(tail, f)) == multiset(MapSeq(pre + post, f))
    ensures multiset(MapSeq(a, f)) == multiset(MapSeq(b, f))
  {
    MapAppend([x], tail, f);
    assert MapSeq([x], f) == [f(x)];
    assert multiset(MapSeq(a, f)) == multiset{f(x)} + multiset(MapSeq(tail, f));
    MapSplit(pre, x, post, f);
  }

  /** Mapping a permutation gives a permutation of the mapped list: each image is listed as
      many times as the elements it comes from. */
  lemma {:induction false} MapPermutes<T, U>(a: seq<T>, b: seq<T>, f: T -> U)
    requires multiset(a) == multiset(b)
    ensures multiset(MapSeq(a, f)) == multiset(MapSeq(b, f))
    decreases |a|
  {
    if |a| == 0 {
      assert |b| == |multiset(b)| == 0;
    } else {
      assert a[0] in multiset(b) by { assert a[0] in multiset(a); }
      var k := IndexOf(b, a[0]);
      DropMatched(a, b, k);
      MapPermutes(a[1..], b[..k] + b[k + 1..], f);
      assert a == [a[0]] + a[1..];
      assert b == b[..k] + [a[0]] + b[k + 1..];
      MapStep(a, b, a[0], a[1..], b[..k], b[k + 1..], f);
    }
  }

  /** Removing commutes with concatenation: the survivors keep their relative order. */
  lemma {:induction false} RemoveAllAppend<T(!new)>(a: seq<T>, b: seq<T>, x: T)
    ensures RemoveAll(a + b, x) == RemoveAll(a, x) + RemoveAll(b, x)
  {
    if |a| == 0 {
      assert a + b == b;
    } else {
      assert (a + b)[1..] == a[1..] + b;
      RemoveAllAppend(a[1..], b, x);
    }
  }

  /** Removing an absent element changes nothing. */
  lemma {:induction false} RemoveAllAbsent<T(!new)>(s: seq<T>, x: T)
    requires x !in s
    ensures RemoveAll(s, x) == s
  {
    if |s| > 0 {
      assert s[0] != x;
      RemoveAllAbsent(s[1..], x);
      assert s == [s[0]] + s[1..];
    }
  }

  /** The elements of `s` in order of first occurrence, each once. */
  function Dedup<T(==,!new)>(s: seq<T>): (r: seq<T>)
    ensures NoDup(r)
    ensures forall y :: y in r <==> y in s
  {
    DedupFrom(s, {})
  }

  /** Walk `s` keeping an element only when it is not in `seen` and has not been kept yet. */
  function DedupFrom<T(==,!new)>(s: seq<T>, seen: set<T>): (r: seq<T>)
    ensures NoDup(r)
    ensures forall y :: y in r <==> y in s && y !in seen
    decreases |s|
  {
    if |s| == 0 then []
    else if s[0] in seen then DedupFrom(s[1..], seen)
    else
      var rest := DedupFrom(s[1..], seen + {s[0]});
      assert s[0] !in rest;
      [s[0]] + rest
  }

  /** Python's `list(set(a + b))`. The order of a Python set is unspecified; the model
      keeps the first occurrence of every element, which is one of the orders it may yield. */
  function SetUnion<T(==,!new)>(a: seq<T>, b: seq<T>): (r: seq<T>)
    ensures NoDup(r)
    ensures forall y :: y in r <==> y in a || y in b
  {
    Dedup(a + b)
  }

  /** `s[:n]`. */
  function Take<T>(s: seq<T>, n: nat): (r: seq<T>)
    ensures |r| == if n < |s| then n else |s|
    ensures forall i | 0 <= i < |r| :: r[i] == s[i]
  {
    if n < |s| then s[..n] else s
  }

  /** Inserting `x` at offset `q` of the middle part of `u + v + w` is inserting it at offset `|u| + q` of the whole. */
  lemma SpliceInMiddle<T>(u: seq<T>, v: seq<T>, w: seq<T>, q: nat, x: seq<T>)
    requires q <= |v|
    ensures u + (v[..q] + x + v[q..]) + w == (u + v + w)[..|u| + q] + x + (u + v + w)[|u| + q..]
  {
    var all := u + v + w;
    assert all[..|u| + q] == u + v[..q];
    assert all[|u| + q..] == v[q..] + w;
  }

  /** Concatenation regrouped. */
  lemma Regroup<T>(x: seq<T>, y: seq<T>, z: seq<T>, w: seq<T>)
    ensures x + (y + z) + w == x + y + z + w
  {
  }

  /** Inserting `x` between the two parts of a sequence. */
  lemma InsertBetween<T>(before: seq<T>, after: seq<T>, a: seq<T>, b: seq<T>, x: seq<T>)
    requires before == a + b && after == a + x + b
    ensures |a| <= |before|
    ensures after == before[..|a|] + x + before[|a|..]
  {
    assert before[..|a|] == a;
    assert before[|a|..] == b;
  }

  /** Inserting `x` at offset `q` of the second part of `u + v` is inserting it at offset `|u| + q` of the whole. */
  lemma SpliceInSuffix<T>(u: seq<T>, v: seq<T>, q: nat, x: seq<T>)
    requires q <= |v|
    ensures u + (v[..q] + x + v[q..]) == (u + v)[..|u| + q] + x + (u + v)[|u| + q..]
  {
    var all := u + v;
    assert all[..|u| + q] == u + v[..q];
    assert all[|u| + q..] == v[q..];
  }

  /** Replacing `a[k]` by `t` and inserting `x` after the next `size` elements of `a`, seen
      from `pre + a + post`. */
  lemma ShiftSplice<T>(before: seq<T>, after: seq<T>, pre: seq<T>, a: seq<T>, a': seq<T>, post: seq<T>,
                       k: nat, k': nat, size: nat, t: T, x: seq<T>)
    requires k + 1 + size <= |a| && a' == a[..k] + [t] + a[k + 1..k + 1 + size] + x + a[k + 1 + size..]
    requires before == pre + a + post && after == pre + a' + post && k' == |pre| + k
    ensures after == before[..k'] + [t] + before[k' + 1..k' + 1 + size] + x + before[k' + 1 + size..]
  {
    assert before[..k'] == pre + a[..k];
    assert before[k' + 1..k' + 1 + size] == a[k + 1..k + 1 + size];
    assert before[k' + 1 + size..] == a[k + 1 + size..] + post;
  }


  /** Replacing the head `l` by `t` and inserting `x` after the next `|s|` elements. */
  lemma HeadSplice<T>(l: T, s: seq<T>, rest: seq<T>, t: T, x: seq<T>)
    ensures [t] + (s + x) + rest == ([l] + s + rest)[..0] + [t] + ([l] + s + rest)[1..1 + |s|] + x + ([l] + s + rest)[1 + |s|..]
  {
    var all := [l] + s + rest;
    assert all[..0] == [];
    assert all[1..1 + |s|] == s;
    assert all[1 + |s|..] == rest;
  }

  /** A splice of `x` at `q` inside the middle part `v` is a splice at `p` of the whole. */
  lemma InsertedAt<T>(before: seq<T>, after: seq<T>, pre: seq<T>, v: seq<T>, w: seq<T>, post: seq<T>, q: nat, p: nat, x: seq<T>)
    requires q <= |v| && w == v[..q] + x + v[q..]
    requires before == pre + v + post && after == pre + w + post && p == |pre| + q
    ensures p <= |before| && after == before[..p] + x + before[p..]
  {
    assert before[..p] == pre + v[..q];
    assert before[p..] == v[q..] + post;
  }
}

=== FILE: group_routes.dfy ===
/** The group routes: creation with a duplicate-free member list, the admin's
    update, delete, add and remove, leaving, the member-only reads, and file
    upload. */
module GroupRoutes {
  import opened Common
  import opened Store
  import opened Users
  import opened Membership
  import Notify
  import S3

  const NotMemberDetail := "You are not a member of this group"

  predicate AdminOf(st: Store, me: User, gid: GroupId) {
    gid in st.groups && st.groups[gid].adminId == me.id
  }

  predicate OwnsNamed(groups: map<GroupId, Group>, me: User, name: string) {
    exists k | k in groups :: groups[k].name == name && groups[k].adminId == me.id
  }

  // ---------------------------------------------------------------------------
  // `create_group`

  datatype Created = Created(st: Store, id: GroupId, nonExistent: seq<Email>, duplicates: seq<Email>)

  function CreateGroup(st: Store, me: User, newId: GroupId, name: string, requested: seq<Email>, now: int): (r: Result<Created>)
    requires newId !in st.groups
    ensures r.Err? <==> OwnsNamed(st.groups, me, name)
    ensures r.Err? ==> r.error == HttpError(400, "You already have a group with this name")
    ensures r.Ok? ==> r.value.id == newId && newId in r.value.st.groups
                      && var g := r.value.st.groups[newId];
                         g.adminId == me.id && g.name == name && g.sentFiles == []
                         && |g.members| >= 1 && g.members[0] == me.email && NoDup(g.members)
                         && (forall e :: e in g.members <==> e == me.email || (e in requested && e in Registered(st.users)))
                         && (forall e :: e in r.value.nonExistent <==> e in requested && e != me.email && e !in Registered(st.users))
                         && multiset(g.members[1..]) + multiset(r.value.nonExistent) + multiset(r.value.duplicates) == multiset(requested)
                         && multiset(r.value.duplicates)[me.email] == multiset(requested)[me.email]
    ensures r.Ok? ==> r.value.st.groups == st.groups[newId := r.value.st.groups[newId]]
                      && r.value.st.repos == st.repos && r.value.st.users.Keys == st.users.Keys
    ensures r.Ok? ==> r.value.st == st.(groups := r.value.st.groups, users := r.value.st.users)
                      && r.value.st.users == PushToEach(UpdateUsers(st.users, ById(me.id), OwnedGroups, Push(newId)),
                                                        r.value.st.groups[newId].members, MemberGroups, newId)
    ensures r.Ok? ==> forall id | id in st.users && st.users[id].id == me.id :: newId in Refs(r.value.st.users[id], OwnedGroups)
  {
    if OwnsNamed(st.groups, me, name) then Fail(400, "You already have a group with this name")
    else
      var part := PartitionFrom(requested, {me.email}, Registered(st.users));
      var members := [me.email] + part.valid;
      assert members[1..] == part.valid;
      NoDupCons(me.email, part.valid);
      var group := Group(name, me.id, members, [], now);
      var owned := UpdateUsers(st.users, ById(me.id), OwnedGroups, Push(newId));
      var users := PushToEach(owned, members, MemberGroups, newId);
      OwnerThenMembersListedAll(st.users, me.id, members, newId, OwnedGroups, MemberGroups);
      Ok(Created(st.(groups := st.groups[newId := group], users := users),
                 newId, part.missing, part.duplicates))
  }

  /** The stored members after the creator are exactly `check_members_exist`'s valid addresses
      for the request with repeats (and the creator) taken out; the unknown ones likewise. */
  lemma CreateGroupIsCheckOfDedup(st: Store, me: User, newId: GroupId, name: string, requested: seq<Email>, now: int)
    requires newId !in st.groups
    requires CreateGroup(st, me, newId, name, requested, now).Ok?
    ensures var c := CreateGroup(st, me, newId, name, requested, now).value;
            var split := SplitKnown(DedupFrom(requested, {me.email}), Registered(st.users));
            c.st.groups[newId].members == [me.email] + split.0 && c.nonExistent == split.1
  {
    PartitionIsSplitOfDedup(requested, {me.email}, Registered(st.users));
  }

  /** Creating a group succeeds when the caller owns no group of that name, and then the creator
      and every registered address of the request list the new group among `member_groups`. */
  lemma CreateGroupBackReferences(st: Store, me: User, newId: GroupId, name: string, requested: seq<Email>, now: int, id: UserId)
    requires newId !in st.groups && !OwnsNamed(st.groups, me, name)
    requires id in st.users && (st.users[id].email == me.email || st.users[id].email in requested)
    ensures var c := CreateGroup(st, me, newId, name, requested, now);
            c.Ok? && id in c.value.st.users && newId in c.value.st.users[id].memberGroups
  {
    var members := CreateGroup(st, me, newId, name, requested, now).value.st.groups[newId].members;
    assert st.users[id].email in Registered(st.users);
    assert st.users[id].email in members;
    NewGroupListed(st.users, me, newId, members, id);
  }

  lemma NewGroupListed(users: map<UserId, User>, me: User, newId: GroupId, members: seq<Email>, id: UserId)
    requires id in users && users[id].email in members
    ensures newId in PushToEach(UpdateUsers(users, ById(me.id), OwnedGroups, Push(newId)), members, MemberGroups, newId)[id].memberGroups
  {
    var owned := UpdateUsers(users, ById(me.id), OwnedGroups, Push(newId));
    assert owned[id].email == users[id].email;
    PushToEachLists(owned, members, MemberGroups, newId, id);
  }

  // ---------------------------------------------------------------------------
  // The admin's changes.

  /** `update_group` as intended: the same rules as the repository update. */
  function UpdateGroup(st: Store, me: User, gid: GroupId, newName: Option<string>, requested: Option<seq<Email>>): (r: Result<(Store, seq<Email>)>)
    ensures gid !in st.groups ==> r == Fail(404, "Group not found")
    ensures gid in st.groups && st.groups[gid].adminId != me.id ==> r == Fail(403, "Only the group admin can update the group")
    ensures r.Ok? && |r.value.1| > 0 ==>
              r.value.0 == st && requested.Some?
              && forall e | e in r.value.1 :: e in requested.value && e !in Registered(st.users)
    ensures r.Ok? && |r.value.1| > 0 ==>
              gid in st.groups && requested.Some?
              && r.value.1 == SplitNew(requested.value, st.groups[gid].members, Registered(st.users)).1
    ensures r.Ok? && |r.value.1| == 0 ==>
              gid in st.groups && gid in r.value.0.groups
              && r.value.0 == st.(groups := st.groups[gid := r.value.0.groups[gid]])
              && var before := st.groups[gid];
                 var after := r.value.0.groups[gid];
                 after != before
                 && after == before.(name := after.name, members := after.members)
                 && after.name == (if Truthy(newName) then newName.value else before.name)
                 && forall e :: e in after.members <==> e in before.members || (requested.Some? && e in requested.value)
    ensures AdminOf(st, me, gid) && requested.Some?
            && (exists e | e in requested.value :: e !in st.groups[gid].members && e !in Registered(st.users)) ==>
              r.Ok? && |r.value.1| > 0
    ensures AdminOf(st, me, gid)
            && (requested.Some? ==> forall e | e in requested.value :: e in st.groups[gid].members || e in Registered(st.users)) ==>
              (r.Err? <==> (!Truthy(newName) || newName.value == st.groups[gid].name)
                           && (requested.None? || forall e | e in requested.value :: e in st.groups[gid].members))
              && (r.Err? ==> r == Fail(404, "No changes made"))
              && (r.Ok? ==> |r.value.1| == 0)
  {
    if gid !in st.groups then Fail(404, "Group not found")
    else
      var group := st.groups[gid];
      if group.adminId != me.id then Fail(403, "Only the group admin can update the group")
      else
        match PlanMembers(group.members, requested, Registered(st.users))
        case Abort(missing) => Ok((st, missing))
        case Members(members) =>
          var updated := group.(name := if Truthy(newName) then newName.value else group.name, members := members);
          assert members != group.members <==> requested.Some? && exists e | e in requested.value :: e !in group.members;
          if updated == group then Fail(404, "No changes made")
          else Ok((st.(groups := st.groups[gid := updated]), []))
  }

  /** Sending the same update again changes nothing: the first one already stored the name and
      every requested member, so the second is refused. */
  lemma UpdateGroupTwiceRefused(st: Store, me: User, gid: GroupId, newName: Option<string>, requested: Option<seq<Email>>)
    requires UpdateGroup(st, me, gid, newName, requested).Ok? && |UpdateGroup(st, me, gid, newName, requested).value.1| == 0
    ensures UpdateGroup(UpdateGroup(st, me, gid, newName, requested).value.0, me, gid, newName, requested)
            == Fail(404, "No changes made")
  {
    var after := UpdateGroup(st, me, gid, newName, requested).value.0;
    assert after.groups[gid].adminId == me.id;
  }

  /** `delete_group` as intended: the document goes and no user lists the group any more. */
  function DeleteGroup(st: Store, me: User, gid: GroupId): (r: Result<Store>)
    ensures gid !in st.groups ==> r == Fail(404, "Group not found")
    ensures gid in st.groups && st.groups[gid].adminId != me.id ==> r == Fail(403, "Only the admin can delete the group")
    ensures r.Ok? <==> AdminOf(st, me, gid)
    ensures r.Ok? ==> r.value.groups == st.groups - {gid} && r.value.repos == st.repos
    ensures r.Ok? ==> r.value.users.Keys == st.users.Keys
                      && forall id | id in r.value.users :: gid !in r.value.users[id].memberGroups
    ensures r.Ok? ==> r.value == st.(groups := st.groups - {gid}, users := r.value.users)
                      && r.value.users == UpdateUsers(st.users, Everyone, MemberGroups, Pull(gid))
                      && forall id, l: RefList | id in st.users && l != MemberGroups ::
                           Profile(r.value.users[id]) == Profile(st.users[id])
                           && Refs(r.value.users[id], l) == Refs(st.users[id], l)
  {
    if gid !in st.groups then Fail(404, "Group not found")
    else if st.groups[gid].adminId != me.id then Fail(403, "Only the admin can delete the group")
    else
      var users := UpdateUsers(st.users, Everyone, MemberGroups, Pull(gid));
      assert forall id | id in users :: users[id] == ChangeRefs(st.users[id], MemberGroups, Pull(gid));
      Ok(st.(groups := st.groups - {gid}, users := users))
  }

  /** `remove_member_from_group`. */
  function RemoveMember(st: Store, me: User, gid: GroupId, email: Email): (r: Result<Store>)
    ensures gid !in st.groups ==> r == Fail(404, "Group not found")
    ensures gid in st.groups && st.groups[gid].adminId != me.id ==>
              r == Fail(403, "Only the admin can remove members from the group")
    ensures AdminOf(st, me, gid) && email !in st.groups[gid].members ==> r == Fail(404, "Member not found in the group")
    ensures AdminOf(st, me, gid) && email in st.groups[gid].members && email == me.email ==>
              r == Fail(400, "Admin cannot remove themselves from the group")
    ensures r.Ok? <==> AdminOf(st, me, gid) && email in st.groups[gid].members && email != me.email
    ensures r.Ok? ==> gid in st.groups && gid in r.value.groups
                      && var before := st.groups[gid].members;
                         var after := r.value.groups[gid].members;
                      r.value.groups == st.groups[gid := st.groups[gid].(members := after)]
                      && email !in after && (forall e :: e in after <==> e in before && e != email)
                      && multiset(after) == multiset(before)[email := 0]
                      && after == RemoveAll(before, email)
    ensures r.Ok? ==> r.value.users == UpdateUsers(st.users, ByEmail(email), MemberGroups, Pull(gid))
    ensures r.Ok? ==> r.value == st.(groups := r.value.groups, users := r.value.users)
  {
    if gid !in st.groups then Fail(404, "Group not found")
    else
      var group := st.groups[gid];
      if group.adminId != me.id then Fail(403, "Only the admin can remove members from the group")
      else if email !in group.members then Fail(404, "Member not found in the group")
      else if email == me.email then Fail(400, "Admin cannot remove themselves from the group")
      else
        Ok(st.(groups := st.groups[gid := group.(members := RemoveAll(group.members, email))],
               users := UpdateUsers(st.users, ByEmail(email), MemberGroups, Pull(gid))))
  }

  /** `add_member_to_group`: the new list is `list(set(members + [email]))`. */
  function AddMember(st: Store, me: User, gid: GroupId, email: Email): (r: Result<Store>)
    ensures gid !in st.groups ==> r == Fail(404, "Group not found")
    ensures gid in st.groups && st.groups[gid].adminId != me.id ==> r == Fail(403, "Only the admin can add members to the group")
    ensures AdminOf(st, me, gid) && email in st.groups[gid].members ==> r == Fail(400, "Member already exists in the group")
    ensures AdminOf(st, me, gid) && email !in st.groups[gid].members && email !in Registered(st.users) ==>
              r == Fail(404, "There is no user with this email")
    ensures r.Ok? <==> AdminOf(st, me, gid) && email !in st.groups[gid].members && email in Registered(st.users)
    ensures r.Ok? ==> gid in st.groups && gid in r.value.groups
                      && var after := r.value.groups[gid].members;
                      r.value.groups == st.groups[gid := st.groups[gid].(members := after)]
                      && NoDup(after) && forall e :: e in after <==> e in st.groups[gid].members || e == email
    ensures r.Ok? ==> r.value.users == UpdateUsers(st.users, ByEmail(email), MemberGroups, Push(gid))
    ensures r.Ok? ==> r.value == st.(groups := r.value.groups, users := r.value.users)
  {
    if gid !in st.groups then Fail(404, "Group not found")
    else
      var group := st.groups[gid];
      if group.adminId != me.id then Fail(403, "Only the admin can add members to the group")
      else if email in group.members then Fail(400, "Member already exists in the group")
      else if email !in Registered(st.users) then Fail(404, "There is no user with this email")
      else
        Ok(st.(groups := st.groups[gid := group.(members := SetUnion(group.members, [email]))],
               users := UpdateUsers(st.users, ByEmail(email), MemberGroups, Push(gid))))
  }

  /** Walking a list without repeats, none of which was seen before, keeps all of it. */
  lemma {:induction false} DedupFromKeepsDistinct(s: seq<Email>, seen: set<Email>)
    requires NoDup(s) && forall x | x in s :: x !in seen
    ensures DedupFrom(s, seen) == s
    decreases |s|
  {
    if |s| > 0 {
      var tail := s[1..];
      assert s[0] in s;
      assert NoDup(tail) by {
        forall i, j | 0 <= i < j < |tail| ensures tail[i] != tail[j] {
          assert tail[i] == s[i + 1] && tail[j] == s[j + 1];
        }
      }
      assert forall x | x in tail :: x !in seen + {s[0]} by {
        forall x | x in tail ensures x !in seen + {s[0]} {
          var k :| 0 <= k < |tail| && tail[k] == x;
          assert s[k + 1] == x;
        }
      }
      DedupFromKeepsDistinct(tail, seen + {s[0]});
      assert DedupFrom(s, seen) == [s[0]] + DedupFrom(tail, seen + {s[0]});
      assert s == [s[0]] + tail;
    }
  }

  /** On a member list without repeats the union appends the new address last; removing that
      address again gives the original list back. */
  lemma AddThenRemoveMember(st: Store, me: User, gid: GroupId, email: Email)
    requires AddMember(st, me, gid, email).Ok? && email != me.email
    requires NoDup(st.groups[gid].members)
    ensures AddMember(st, me, gid, email).value.groups[gid].members == st.groups[gid].members + [email]
    ensures var added := AddMember(st, me, gid, email).value;
            var removed := RemoveMember(added, me, gid, email);
            removed.Ok? && removed.value.groups[gid] == st.groups[gid]
  {
    var ms := st.groups[gid].members;
    UnionWithFresh(ms, email);
    RemoveAppended(ms, email);
  }

  lemma UnionWithFresh(ms: seq<Email>, email: Email)
    requires NoDup(ms) && email !in ms
    ensures SetUnion(ms, [email]) == ms + [email]
  {
    var both := ms + [email];
    assert NoDup(both) by {
      forall i, j | 0 <= i < j < |both| ensures both[i] != both[j] {
        if j == |ms| { assert both[i] in ms; }
      }
    }
    DedupFromKeepsDistinct(both, {});
  }

  lemma RemoveAppended(ms: seq<Email>, email: Email)
    requires email !in ms
    ensures RemoveAll(ms + [email], email) == ms
  {
    RemoveAllAppend(ms, [email], email);
    RemoveAllAbsent(ms, email);
    assert RemoveAll([email], email) == [];
  }

  // ---------------------------------------------------------------------------
  // Leaving.

  /** `leave_group` as intended: the caller's address leaves the members, the group leaves the
      caller's `member_groups`, then a "group" notification from "System" announces it to the
      members who remain. */
  function LeaveGroup(st: Store, me: User, gid: GroupId, now: int): (r: Result<(Store, seq<string>)>)
    ensures gid !in st.groups ==> r == Fail(404, "Group not found")
    ensures gid in st.groups && me.email !in st.groups[gid].members ==> r == Fail(403, NotMemberDetail)
    ensures gid in st.groups && me.email in st.groups[gid].members && st.groups[gid].adminId == me.id ==>
              r == Fail(403, "Admin cannot leave the group. Please delete the group instead")
    ensures r.Ok? <==> gid in st.groups && me.email in st.groups[gid].members && st.groups[gid].adminId != me.id
    ensures r.Ok? ==> gid in st.groups && gid in r.value.0.groups
                      && var before := st.groups[gid];
                         var after := r.value.0.groups[gid];
                      r.value.0.groups == st.groups[gid := after]
                      && after == before.(members := RemoveAll(before.members, me.email))
                      && r.value.0.users == UpdateUsers(st.users, ByEmail(me.email), MemberGroups, Pull(gid))
                      && r.value.0.repos == st.repos && r.value.0.messages == st.messages
                      && r.value.0 == st.(groups := r.value.0.groups, users := r.value.0.users,
                                          notifications := r.value.0.notifications)
    ensures r.Ok? ==> var content := LeftNotice(me, st.groups[gid].name);
                      var sent := Notify.Create(st.notifications, r.value.0.groups, st.repos, "System", content, "group",
                                                Some(gid), None, None, now);
                      r.value.0.notifications == sent.notes && r.value.1 == sent.lines
                      && Notify.HasKey(r.value.0.notifications, Some(gid), content, "group")
  {
    if gid !in st.groups then Fail(404, "Group not found")
    else
      var group := st.groups[gid];
      if me.email !in group.members then Fail(403, NotMemberDetail)
      else if group.adminId == me.id then Fail(403, "Admin cannot leave the group. Please delete the group instead")
      else
        var groups := st.groups[gid := group.(members := RemoveAll(group.members, me.email))];
        var sent := Notify.Create(st.notifications, groups, st.repos, "System", LeftNotice(me, group.name), "group",
                                  Some(gid), None, None, now);
        Ok((st.(groups := groups, users := UpdateUsers(st.users, ByEmail(me.email), MemberGroups, Pull(gid)),
                notifications := sent.notes), sent.lines))
  }

  /** The notice `leave_group` sends: "<first name> <last name> has left the <group name> group". */
  function LeftNotice(me: User, groupName: string): string {
    me.firstname + " " + me.lastname + " has left the " + groupName + " group"
  }

  /** The announcement goes to the members who remain, never to the one who left. */
  lemma LeaveAnnouncesToRemaining(st: Store, me: User, gid: GroupId, now: int)
    requires LeaveGroup(st, me, gid, now).Ok?
    requires gid != "" && !Notify.HasKey(st.notifications, Some(gid), LeftNotice(me, st.groups[gid].name), "group")
    ensures var lines := LeaveGroup(st, me, gid, now).value.1;
            var remaining := RemoveAll(st.groups[gid].members, me.email);
            lines == Notify.Announce(remaining, LeftNotice(me, st.groups[gid].name)) && me.email !in remaining
  {
    var group := st.groups[gid];
    var groups := st.groups[gid := group.(members := RemoveAll(group.members, me.email))];
    assert Notify.Audience(groups, st.repos, Some(gid), None) == RemoveAll(group.members, me.email);
  }

  // ---------------------------------------------------------------------------
  // Reads and uploads, for members only.

  /** The gate shared by `get_group`, `get_group_members`, `get_group_files` and `upload_file`. */
  function MemberGate(st: Store, me: User, gid: GroupId): (r: Result<Group>)
    ensures gid !in st.groups ==> r == Fail(404, "Group not found")
    ensures gid in st.groups && me.email !in st.groups[gid].members ==> r == Fail(403, NotMemberDetail)
    ensures r.Ok? <==> gid in st.groups && me.email in st.groups[gid].members
    ensures r.Ok? ==> r.value == st.groups[gid]
  {
    if gid !in st.groups then Fail(404, "Group not found")
    else if me.email !in st.groups[gid].members then Fail(403, NotMemberDetail)
    else Ok(st.groups[gid])
  }

  function GetGroupMembers(st: Store, me: User, gid: GroupId): (r: Result<seq<Email>>)
    ensures r.Ok? <==> gid in st.groups && me.email in st.groups[gid].members
    ensures r.Err? ==> r.error == MemberGate(st, me, gid).error
    ensures r.Ok? ==> r.value == st.groups[gid].members && me.email in r.value
  {
    var g :- MemberGate(st, me, gid);
    Ok(g.members)
  }

  /** `get_group_files`: every sent file with its object URL, in the order sent. */
  function GetGroupFiles(st: Store, me: User, gid: GroupId, cfg: S3.Config): (r: Result<seq<SentFile>>)
    ensures r.Ok? <==> gid in st.groups && me.email in st.groups[gid].members
    ensures r.Err? ==> r.error == MemberGate(st, me, gid).error
    ensures r.Ok? ==> var sent := st.groups[gid].sentFiles;
                      |r.value| == |sent|
                      && forall i | 0 <= i < |sent| ::
                           r.value[i] == SentFile(sent[i].filename, S3.ObjectUrl(cfg, S3.GroupKey(sent[i].filename)))
  {
    var g :- MemberGate(st, me, gid);
    Ok(S3.GroupFilesView(cfg, g.sentFiles))
  }

  /** Python's `str` of a list of strings: `['a', 'b']`. */
  function PyList(xs: seq<string>): string {
    "[" + PyItems(xs) + "]"
  }

  function PyItems(xs: seq<string>): string {
    if |xs| == 0 then ""
    else if |xs| == 1 then "'" + xs[0] + "'"
    else "'" + xs[0] + "', " + PyItems(xs[1..])
  }

  function TypeDetail(contentType: string, allowed: seq<string>): string {
    "File type '" + contentType + "' not allowed. Allowed types: " + PyList(allowed)
  }

  /** `upload_file`: members only; the content type must be one of the allowed types and the
      size within the limit; the bytes go to the group folder and the entry is appended. */
  function UploadFile(st: Store, me: User, gid: GroupId, filename: string, contentType: string, content: seq<byte>,
                      allowed: seq<string>, cfg: S3.Config): (r: Result<Store>)
    ensures MemberGate(st, me, gid).Err? ==> r.Err? && r.error == MemberGate(st, me, gid).error
    ensures MemberGate(st, me, gid).Ok? && contentType !in allowed ==> r == Fail(400, TypeDetail(contentType, allowed))
    ensures MemberGate(st, me, gid).Ok? && contentType in allowed && |content| > S3.MaxFileSize ==> r == Fail(400, S3.SizeDetail)
    ensures r.Ok? <==> MemberGate(st, me, gid).Ok? && contentType in allowed && |content| <= S3.MaxFileSize
    ensures r.Ok? ==> var up := S3.UploadGroupFile(st.blobs, cfg, filename, content);
                      r.value == st.(groups := st.groups[gid := st.groups[gid].(sentFiles := st.groups[gid].sentFiles + [SentFile(filename, up.1)])],
                                     blobs := up.0)
  {
    var g :- MemberGate(st, me, gid);
    if contentType !in allowed then Fail(400, TypeDetail(contentType, allowed))
    else if |content| > S3.MaxFileSize then Fail(400, S3.SizeDetail)
    else
      var up := S3.UploadGroupFile(st.blobs, cfg, filename, content);
      Ok(st.(groups := st.groups[gid := g.(sentFiles := g.sentFiles + [SentFile(filename, up.1)])], blobs := up.0))
  }

  /** After an upload the file listing ends with the new file, at the URL of the object stored. */
  lemma UploadThenList(st: Store, me: User, gid: GroupId, filename: string, contentType: string, content: seq<byte>,
                       allowed: seq<string>, cfg: S3.Config)
    requires UploadFile(st, me, gid, filename, contentType, content, allowed, cfg).Ok?
    ensures var after := UploadFile(st, me, gid, filename, contentType, content, allowed, cfg).value;
            var listed := GetGroupFiles(after, me, gid, cfg);
            listed.Ok? && |listed.value| == |st.groups[gid].sentFiles| + 1
            && listed.value[|listed.value| - 1] == SentFile(filename, S3.ObjectUrl(cfg, S3.GroupKey(filename)))
            && S3.GroupKey(filename) in after.blobs && after.blobs[S3.GroupKey(filename)] == content
  {
  }

  // ---------------------------------------------------------------------------
  // The membership invariant.

  /** A group's member list has no repeats and holds its admin's address. */
  predicate WellFormed(g: Group, adminEmail: Email) {
    NoDup(g.members) && adminEmail in g.members
  }

  /** Every admin change and leaving keeps the invariant: the admin can neither remove nor
      leave, and additions go through a set union. */
  lemma MembershipInvariant(st: Store, me: User, gid: GroupId, email: Email, other: User,
                            newName: Option<string>, requested: Option<seq<Email>>, now: int)
    requires AdminOf(st, me, gid) && WellFormed(st.groups[gid], me.email)
    requires other.email != me.email
    ensures var r := AddMember(st, me, gid, email); r.Ok? ==> WellFormed(r.value.groups[gid], me.email)
    ensures var r := RemoveMember(st, me, gid, email); r.Ok? ==> WellFormed(r.value.groups[gid], me.email)
    ensures var r := UpdateGroup(st, me, gid, newName, requested);
            r.Ok? && |r.value.1| == 0 ==> WellFormed(r.value.0.groups[gid], me.email)
    ensures var r := LeaveGroup(st, other, gid, now); r.Ok? ==> WellFormed(r.value.0.groups[gid], me.email)
  {
    var before := st.groups[gid].members;
    var u := UpdateGroup(st, me, gid, newName, requested);
    if u.Ok? && |u.value.1| == 0 {
      match PlanMembers(before, requested, Registered(st.users))
      case Abort(_) =>
      case Members(ms) =>
    }
    var l := LeaveGroup(st, other, gid, now);
    if l.Ok? {
      RemoveAllKeepsDistinct(before, other.email);
    }
    var rm := RemoveMember(st, me, gid, email);
    if rm.Ok? {
      RemoveAllKeepsDistinct(before, email);
    }
  }

  /** Removing every occurrence of a value keeps a list free of repeats. */
  lemma {:induction false} RemoveAllKeepsDistinct(s: seq<Email>, x: Email)
    requires NoDup(s)
    ensures NoDup(RemoveAll(s, x))
  {
    var r := RemoveAll(s, x);
    forall i, j | 0 <= i < j < |r| ensures r[i] != r[j] {
      if r[i] == r[j] {
        TwoPlacesTwoCopies(r, i, j);
        assert multiset(s)[r[i]] >= 2;
        DistinctCountsOnce(s, r[i]);
      }
    }
  }

  /** A value at two places of a list occurs there at least twice. */
  lemma TwoPlacesTwoCopies<T>(r: seq<T>, i: nat, j: nat)
    requires i < j < |r| && r[i] == r[j]
    ensures multiset(r)[r[i]] >= 2
  {
    assert r == r[..i] + [r[i]] + r[i + 1..j] + [r[j]] + r[j + 1..];
  }

  lemma {:induction false} DistinctCountsOnce(s: seq<Email>, x: Email)
    requires NoDup(s)
    ensures multiset(s)[x] <= 1
    decreases |s|
  {
    if |s| > 0 {
      assert s == [s[0]] + s[1..];
      assert NoDup(s[1..]) by {
        forall i, j | 0 <= i < j < |s[1..]| ensures s[1..][i] != s[1..][j] {
          assert s[1..][i] == s[i + 1] && s[1..][j] == s[j + 1];
        }
      }
      DistinctCountsOnce(s[1..], x);
      if s[0] == x {
        assert x !in s[1..] by {
          forall k | 0 <= k < |s[1..]| ensures s[1..][k] != x {
            assert s[1..][k] == s[k + 1];
          }
        }
      }
    }
  }
}

=== FILE: inbox.dfy ===
/** The notification routes: the caller's listing, newest first, in its
    response shape, and marking one notification as read. */
module Inbox {
  import opened Common
  import opened Store
  import opened Sorting
  import Notify

  // ---------------------------------------------------------------------------
  // Ids as text. A notification id is a natural number here; its text form is the decimal
  // numeral, standing in for the hexadecimal form `ObjectId` parses.

  function Digit(d: nat): (c: char)
    requires d < 10
    ensures '0' <= c <= '9'
  {
    (('0' as int) + d) as char
  }

  /** `str(_id)`: the id written out. */
  function IdText(n: nat): (s: string)
    ensures |s| >= 1
    ensures forall i | 0 <= i < |s| :: '0' <= s[i] <= '9'
    decreases n
  {
    if n < 10 then [Digit(n)] else IdText(n / 10) + [Digit(n % 10)]
  }

  /** Reading a decimal text back. */
  function ParseDecimal(s: string): nat
    requires forall i | 0 <= i < |s| :: '0' <= s[i] <= '9'
    decreases |s|
  {
    if |s| == 0 then 0
    else ParseDecimal(s[..|s| - 1]) * 10 + ((s[|s| - 1] as int) - ('0' as int))
  }

  /** The text of an id determines the id, so distinct notifications have distinct texts. */
  lemma {:induction false} IdTextRoundTrip(n: nat)
    ensures ParseDecimal(IdText(n)) == n
    decreases n
  {
    if n >= 10 {
      var s := IdText(n);
      assert s[..|s| - 1] == IdText(n / 10);
      IdTextRoundTrip(n / 10);
    }
  }

  lemma IdTextInjective(a: nat, b: nat)
    ensures IdText(a) == IdText(b) <==> a == b
  {
    if IdText(a) == IdText(b) {
      IdTextRoundTrip(a);
      IdTextRoundTrip(b);
    }
  }

  // ---------------------------------------------------------------------------
  // The listing.

  /** A listed notification in the response model's shape: no `_id` (the model has no such field,
      so it is filtered out), absent group and repository ids as `None`, and a missing `read` as
      false. */
  datatype NotificationView = NotificationView(
    groupId: Option<string>,
    repoId: Option<string>,
    sender: string,
    receiver: Option<Email>,
    content: string,
    kind: string,
    read: bool,
    timestamp: int)

  function View(n: Notification): (v: NotificationView)
    ensures v.timestamp == n.timestamp && v.receiver == n.receiver && v.content == n.content
    ensures v.read <==> n.read == Some(true)
    ensures v.groupId.Some? <==> Truthy(n.groupId)
  {
    NotificationView(Notify.NormId(n.groupId), Notify.NormId(n.repoId), n.sender, n.receiver,
                     n.content, n.kind, n.read.GetOr(false), n.timestamp)
  }

  function ViewAll(notes: seq<Notification>): (r: seq<NotificationView>)
    ensures |r| == |notes|
    ensures forall i | 0 <= i < |r| :: r[i] == View(notes[i])
  {
    MapSeq(notes, View)
  }

  /** The listing filter: addressed to the caller, or about a group the caller belongs to. */
  predicate Visible(n: Notification, email: Email, memberGroups: seq<GroupId>) {
    n.receiver == Some(email) || (n.groupId.Some? && n.groupId.value in memberGroups)
  }

  /** The filter the query performs as written: notifications store their group id as an
      `ObjectId` while `member_groups` holds strings, so `$in` never matches and only the
      receiver clause selects anything. */
  predicate VisibleAsWritten(n: Notification, email: Email) {
    n.receiver == Some(email)
  }

  /** The notifications passing the filter, in collection order. */
  function Select(notes: seq<Notification>, keep: Notification -> bool): (r: seq<Notification>)
    ensures forall n :: n in r <==> n in notes && keep(n)
    ensures forall n :: multiset(r)[n] == if keep(n) then multiset(notes)[n] else 0
  {
    if |notes| == 0 then []
    else
      var rest := Select(notes[1..], keep);
      assert notes == [notes[0]] + notes[1..];
      if keep(notes[0]) then [notes[0]] + rest else rest
  }

  function NegTimestamp(n: Notification): int { -n.timestamp }

  /** The query: filter, newest first (a stable sort on the negated timestamp), then render. */
  function Listing(notes: seq<Notification>, keep: Notification -> bool): (r: seq<NotificationView>)
    ensures forall i, j | 0 <= i < j < |r| :: r[i].timestamp >= r[j].timestamp
    ensures forall i | 0 <= i < |r| :: exists n | n in notes :: keep(n) && r[i] == View(n)
    ensures forall n | n in notes && keep(n) :: View(n) in r
    ensures multiset(r) == multiset(ViewAll(Select(notes, keep)))
  {
    var chosen := Select(notes, keep);
    var sorted := SortBy(chosen, NegTimestamp);
    NewestFirst(sorted);
    SameElements(chosen, sorted);
    MapPermutes(sorted, chosen, View);
    ViewAll(sorted)
  }

  lemma NewestFirst(sorted: seq<Notification>)
    requires SortedBy(sorted, NegTimestamp)
    ensures forall i, j | 0 <= i < j < |sorted| :: ViewAll(sorted)[i].timestamp >= ViewAll(sorted)[j].timestamp
  {
    var r := ViewAll(sorted);
    forall i, j | 0 <= i < j < |r| ensures r[i].timestamp >= r[j].timestamp {
      assert NegTimestamp(sorted[i]) <= NegTimestamp(sorted[j]);
    }
  }

  lemma SameElements(chosen: seq<Notification>, sorted: seq<Notification>)
    requires multiset(sorted) == multiset(chosen)
    ensures forall i | 0 <= i < |sorted| :: sorted[i] in chosen && ViewAll(sorted)[i] == View(sorted[i])
    ensures forall n | n in chosen :: View(n) in ViewAll(sorted)
  {
    var r := ViewAll(sorted);
    forall i | 0 <= i < |sorted| ensures sorted[i] in chosen {
      assert sorted[i] in multiset(sorted);
    }
    forall n | n in chosen ensures View(n) in r {
      assert n in multiset(chosen);
      var k :| 0 <= k < |sorted| && sorted[k] == n;
      assert r[k] == View(n);
    }
  }

  /** `get_notifications` with the filter the code intends: the caller's notifications, newest first. */
  function GetNotifications(notes: seq<Notification>, me: User): (r: seq<NotificationView>)
    ensures forall i, j | 0 <= i < j < |r| :: r[i].timestamp >= r[j].timestamp
    ensures forall i | 0 <= i < |r| :: exists n | n in notes :: Visible(n, me.email, me.memberGroups) && r[i] == View(n)
    ensures forall n | n in notes && Visible(n, me.email, me.memberGroups) :: View(n) in r
    ensures multiset(r) == multiset(ViewAll(Select(notes, n => Visible(n, me.email, me.memberGroups))))
  {
    Listing(notes, n => Visible(n, me.email, me.memberGroups))
  }

  /** `get_notifications` as written: only notifications addressed to the caller by e-mail. */
  function GetNotificationsAsWritten(notes: seq<Notification>, me: User): (r: seq<NotificationView>)
    ensures forall i, j | 0 <= i < j < |r| :: r[i].timestamp >= r[j].timestamp
    ensures forall i | 0 <= i < |r| :: exists n | n in notes :: VisibleAsWritten(n, me.email) && r[i] == View(n)
    ensures forall n | n in notes && VisibleAsWritten(n, me.email) :: View(n) in r
    ensures multiset(r) == multiset(ViewAll(Select(notes, n => VisibleAsWritten(n, me.email))))
  {
    Listing(notes, n => VisibleAsWritten(n, me.email))
  }

  /** A group notice with no receiver, about a group the caller belongs to, is listed by the
      intended query and never by the query as written. */
  lemma GroupNoticeHiddenAsWritten(notes: seq<Notification>, me: User, n: Notification)
    requires n in notes && n.receiver.None? && n.groupId.Some? && n.groupId.value in me.memberGroups
    ensures View(n) in GetNotifications(notes, me)
    ensures View(n) !in GetNotificationsAsWritten(notes, me)
  {
    assert Visible(n, me.email, me.memberGroups);
    var r := GetNotificationsAsWritten(notes, me);
    forall i | 0 <= i < |r| ensures r[i].receiver == Some(me.email) {
      var m :| m in notes && VisibleAsWritten(m, me.email) && r[i] == View(m);
    }
    assert View(n).receiver.None?;
  }

  // ---------------------------------------------------------------------------
  // `mark_notification_as_read`

  /** Sets `read` on the first record carrying the id; the caller is not consulted. */
  function MarkRead(notes: seq<Notification>, id: nat): (r: seq<Notification>)
    ensures |r| == |notes|
    ensures forall i | 0 <= i < |r| :: r[i].id == notes[i].id
    ensures forall i | 0 <= i < |r| && notes[i].id != id :: r[i] == notes[i]
    ensures forall i | 0 <= i < |r| :: r[i] == notes[i] || r[i] == notes[i].(read := Some(true))
  {
    if |notes| == 0 then []
    else if notes[0].id == id then [notes[0].(read := Some(true))] + notes[1..]
    else [notes[0]] + MarkRead(notes[1..], id)
  }

  /** When some record carries the id, one of them is marked read. */
  lemma {:induction false} MarkReadHits(notes: seq<Notification>, id: nat, i: nat)
    requires i < |notes| && notes[i].id == id
    ensures exists k | 0 <= k < |notes| :: notes[k].id == id && MarkRead(notes, id)[k] == notes[k].(read := Some(true))
  {
    if notes[0].id != id {
      MarkReadHits(notes[1..], id, i - 1);
      var k :| 0 <= k < |notes[1..]| && notes[1..][k].id == id && MarkRead(notes[1..], id)[k] == notes[1..][k].(read := Some(true));
      assert MarkRead(notes, id)[k + 1] == notes[k + 1].(read := Some(true));
    }
  }

  /** Marking twice is marking once. */
  lemma {:induction false} MarkReadIdempotent(notes: seq<Notification>, id: nat)
    ensures MarkRead(MarkRead(notes, id), id) == MarkRead(notes, id)
  {
    if |notes| > 0 && notes[0].id != id {
      MarkReadIdempotent(notes[1..], id);
      assert MarkRead(notes, id)[1..] == MarkRead(notes[1..], id);
    }
  }

  /** In a collection numbered by position, the record at the id's position is the one marked. */
  lemma MarkReadNumbered(notes: seq<Notification>, id: nat)
    requires Notify.Numbered(notes) && id < |notes|
    ensures MarkRead(notes, id)[id].read == Some(true)
    ensures forall i | 0 <= i < |notes| && i != id :: MarkRead(notes, id)[i] == notes[i]
  {
    var r := MarkRead(notes, id);
    MarkReadHits(notes, id, id);
    var k :| 0 <= k < |notes| && notes[k].id == id && r[k] == notes[k].(read := Some(true));
    assert notes[k].id == k;
  }

  /** A well-formed id text: what `ObjectId(...)` accepts. */
  predicate IdLike(text: string) {
    |text| > 0 && forall i | 0 <= i < |text| :: '0' <= text[i] <= '9'
  }

  /** The route: the path text is parsed into an id, and a text that is not one makes `ObjectId`
      raise, which the route does not catch (a 500). The caller is never consulted. */
  function MarkReadByText(notes: seq<Notification>, text: string): (r: Result<seq<Notification>>)
    ensures r.Err? <==> !IdLike(text)
    ensures r.Err? ==> r == Fail(500, "Internal Server Error")
    ensures r.Ok? ==> |r.value| == |notes|
                      && forall i | 0 <= i < |notes| :: r.value[i] == notes[i] || r.value[i] == notes[i].(read := Some(true))
  {
    if IdLike(text) then Ok(MarkRead(notes, ParseDecimal(text))) else Fail(500, "Internal Server Error")
  }

  /** The text of an id addresses exactly that id's record. */
  lemma MarkReadByIdText(notes: seq<Notification>, id: nat)
    ensures MarkReadByText(notes, IdText(id)) == Ok(MarkRead(notes, id))
  {
    IdTextRoundTrip(id);
  }
}

=== FILE: membership.dfy ===
/** The member-list rules shared by groups and repositories: sorting the
    addresses of a create request (first occurrence only, creator excluded),
    and picking the addresses an update would add. */
module Membership {
  import opened Common
  import opened Store
  import opened Users

  /** The create loop: an address already seen is a duplicate; otherwise it is remembered and
      goes to `valid` when it has an account, to `missing` when it has none. */
  datatype Sorted = Sorted(valid: seq<Email>, missing: seq<Email>, duplicates: seq<Email>)

  function PartitionFrom(requested: seq<Email>, seen: set<Email>, known: set<Email>): (r: Sorted)
    ensures NoDup(r.valid) && NoDup(r.missing)
    ensures forall e :: e in r.valid <==> e in requested && e !in seen && e in known
    ensures forall e :: e in r.missing <==> e in requested && e !in seen && e !in known
    ensures multiset(r.valid) + multiset(r.missing) + multiset(r.duplicates) == multiset(requested)
    decreases |requested|
  {
    if |requested| == 0 then Sorted([], [], [])
    else
      var e := requested[0];
      assert requested == [e] + requested[1..];
      if e in seen then
        var rest := PartitionFrom(requested[1..], seen, known);
        Sorted(rest.valid, rest.missing, [e] + rest.duplicates)
      else
        var rest := PartitionFrom(requested[1..], seen + {e}, known);
        if e in known then
          NoDupCons(e, rest.valid);
          Sorted([e] + rest.valid, rest.missing, rest.duplicates)
        else
          NoDupCons(e, rest.missing);
          Sorted(rest.valid, [e] + rest.missing, rest.duplicates)
  }

  lemma NoDupCons(e: Email, s: seq<Email>)
    requires NoDup(s) && e !in s
    ensures NoDup([e] + s)
  {
    var t := [e] + s;
    forall i, j | 0 <= i < j < |t| ensures t[i] != t[j] {
      assert t[j] == s[j - 1];
      if i > 0 { assert t[i] == s[i - 1]; }
    }
  }

  /** The create loop sorts exactly the first occurrences: it is `check_members_exist` (the
      account test, order kept) applied to the request with repeats and seen addresses dropped. */
  lemma {:induction false} PartitionIsSplitOfDedup(requested: seq<Email>, seen: set<Email>, known: set<Email>)
    ensures var r := PartitionFrom(requested, seen, known);
            (r.valid, r.missing) == SplitKnown(DedupFrom(requested, seen), known)
    decreases |requested|
  {
    if |requested| > 0 {
      var e := requested[0];
      if e in seen {
        PartitionIsSplitOfDedup(requested[1..], seen, known);
      } else {
        PartitionIsSplitOfDedup(requested[1..], seen + {e}, known);
        var d := DedupFrom(requested, seen);
        assert d == [e] + DedupFrom(requested[1..], seen + {e});
        assert d[0] == e && d[1..] == DedupFrom(requested[1..], seen + {e});
      }
    }
  }

  /** The update loop: addresses already in the list are skipped; the rest are sorted by
      whether they have an account, repeats included. */
  function SplitNew(requested: seq<Email>, existing: seq<Email>, known: set<Email>): (r: (seq<Email>, seq<Email>))
    ensures forall e :: e in r.0 <==> e in requested && e !in existing && e in known
    ensures forall e :: e in r.1 <==> e in requested && e !in existing && e !in known
    ensures IsSubseq(r.0, requested) && IsSubseq(r.1, requested)
    ensures forall e :: multiset(r.0)[e] == if e in existing || e !in known then 0 else multiset(requested)[e]
    ensures forall e :: multiset(r.1)[e] == if e in existing || e in known then 0 else multiset(requested)[e]
    decreases |requested|
  {
    if |requested| == 0 then ([], [])
    else
      var e := requested[0];
      var rest := SplitNew(requested[1..], existing, known);
      assert requested == [e] + requested[1..];
      if e in existing then rest
      else if e in known then
        var v := [e] + rest.0;
        assert v[1..] == rest.0;
        (v, rest.1)
      else
        var m := [e] + rest.1;
        assert m[1..] == rest.1;
        (rest.0, m)
  }

  /** What an update of the member list does: with no addresses requested nothing changes; an
      unknown address stops the whole update (`Abort`, carrying the unknown addresses); otherwise the
      new list (`Members`) is the old one united with the valid addresses. */
  datatype Plan = Abort(missing: seq<Email>) | Members(members: seq<Email>)

  function PlanMembers(existing: seq<Email>, requested: Option<seq<Email>>, known: set<Email>): (r: Plan)
    ensures r.Abort? <==> requested.Some? && exists e | e in requested.value :: e !in existing && e !in known
    ensures r.Abort? ==> |r.missing| > 0 && forall e | e in r.missing :: e in requested.value && e !in known
    ensures r.Abort? ==> r.missing == SplitNew(requested.value, existing, known).1
    ensures r.Members? && (requested.None? || forall e | e in requested.value :: e in existing) ==> r.members == existing
    ensures r.Members? && requested.Some? && (exists e | e in requested.value :: e !in existing) ==>
              NoDup(r.members) && forall e :: e in r.members <==> e in existing || e in requested.value
  {
    if requested.None? || |requested.value| == 0 then Members(existing)
    else
      var split := SplitNew(requested.value, existing, known);
      if |split.1| > 0 then
        assert split.1[0] in split.1;
        Abort(split.1)
      else if |split.0| > 0 then
        assert split.0[0] in split.0;
        Members(SetUnion(existing, split.0))
      else
        assert split.0 == [] && split.1 == [];
        Members(existing)
  }
}

=== FILE: messages.dfy ===
/** Group chat: the message-history query and the live endpoint's admission
    gate, stored messages, notifications and broadcast lines. The transport is
    abstract: a live connection is an entry in a list, and every broadcast is a
    line appended to one output log. */
module Messages {
  import opened Common
  import opened Store
  import opened Sorting
  import Notify

  const HistoryLimit := 100
  const UnsupportedData := 1003

  /** The filter behind `find({"group_id": gid})`: the group's messages in collection order. */
  function GroupOnly(msgs: seq<Message>, gid: GroupId): seq<Message>
  {
    if |msgs| == 0 then []
    else (if msgs[0].groupId == gid then [msgs[0]] else []) + GroupOnly(msgs[1..], gid)
  }

  lemma {:induction false} GroupOnlyCounts(msgs: seq<Message>, gid: GroupId)
    ensures forall m :: multiset(GroupOnly(msgs, gid))[m] == if m.groupId == gid then multiset(msgs)[m] else 0
    ensures |GroupOnly(msgs, gid)| <= |msgs|
  {
    if |msgs| > 0 {
      GroupOnlyCounts(msgs[1..], gid);
      assert msgs == [msgs[0]] + msgs[1..];
    }
  }

  lemma {:induction false} GroupOnlyAppend(msgs: seq<Message>, m: Message, gid: GroupId)
    ensures GroupOnly(msgs + [m], gid) == GroupOnly(msgs, gid) + (if m.groupId == gid then [m] else [])
    decreases |msgs|
  {
    if |msgs| == 0 {
      assert [m][1..] == [];
    } else {
      assert (msgs + [m])[1..] == msgs[1..] + [m];
      GroupOnlyAppend(msgs[1..], m, gid);
    }
  }

  /** The messages of one group, in collection order: each group message as often as it is
      stored, and nothing of another group. */
  function OfGroup(msgs: seq<Message>, gid: GroupId): (r: seq<Message>)
    ensures forall m :: m in r <==> m in msgs && m.groupId == gid
    ensures forall m :: multiset(r)[m] == if m.groupId == gid then multiset(msgs)[m] else 0
    ensures |r| <= |msgs|
  {
    GroupOnlyCounts(msgs, gid);
    GroupOnly(msgs, gid)
  }

  lemma OfGroupAppend(msgs: seq<Message>, m: Message, gid: GroupId)
    ensures OfGroup(msgs + [m], gid) == OfGroup(msgs, gid) + (if m.groupId == gid then [m] else [])
  {
    GroupOnlyAppend(msgs, m, gid);
  }

  function Timestamp(m: Message): int { m.timestamp }

  /** `get_group_messages`: 404 for an unknown group, 403 for a non-member, otherwise the
      group's messages oldest first, at most 100 of them. With more than 100, the oldest 100. */
  function GetGroupMessages(st: Store, me: User, gid: GroupId): (r: Result<seq<Message>>)
    ensures gid !in st.groups ==> r == Fail(404, "Group not found")
    ensures gid in st.groups && me.email !in st.groups[gid].members ==> r == Fail(403, "You are not a member of this group")
    ensures r.Ok? <==> gid in st.groups && me.email in st.groups[gid].members
    ensures r.Ok? ==> SortedBy(r.value, Timestamp)
    ensures r.Ok? ==> |r.value| == if |OfGroup(st.messages, gid)| < HistoryLimit then |OfGroup(st.messages, gid)| else HistoryLimit
    ensures r.Ok? ==> forall m | m in r.value :: m in st.messages && m.groupId == gid
    ensures r.Ok? ==> multiset(r.value) <= multiset(OfGroup(st.messages, gid))
    ensures r.Ok? ==> forall m | m in multiset(OfGroup(st.messages, gid)) - multiset(r.value) ::
                        forall n | n in r.value :: n.timestamp <= m.timestamp
  {
    if gid !in st.groups then Fail(404, "Group not found")
    else if me.email !in st.groups[gid].members then Fail(403, "You are not a member of this group")
    else
      var mine := OfGroup(st.messages, gid);
      var r := SmallestK(mine, Timestamp, HistoryLimit);
      assert forall m | m in r :: m in mine by {
        forall m | m in r ensures m in mine {
          assert m in multiset(r);
        }
      }
      Ok(r)
  }

  // ---------------------------------------------------------------------------
  // The live endpoint.

  /** A registered live connection: whose it is and which group's page it serves. */
  datatype Conn = Conn(email: Email, groupId: GroupId)

  /** The store, the registered connections, and every line broadcast so far. */
  datatype Live = Live(st: Store, connections: seq<Conn>, broadcasts: seq<string>)

  /** Opening the socket: either the connection is registered, or a text is sent on that socket
      alone and it is closed with the given code. */
  datatype Admission = Admitted(live: Live) | Denied(text: string, code: nat)

  function Connect(live: Live, me: User, gid: GroupId): (r: Admission)
    ensures r.Denied? <==> gid !in live.st.groups || me.email !in live.st.groups[gid].members
    ensures gid !in live.st.groups ==> r == Denied("Group not found", UnsupportedData)
    ensures gid in live.st.groups && me.email !in live.st.groups[gid].members ==>
              r == Denied("Access denied: You're not a member of this group", UnsupportedData)
    ensures r.Admitted? ==> r.live == live.(connections := live.connections + [Conn(me.email, gid)])
  {
    if gid !in live.st.groups then Denied("Group not found", UnsupportedData)
    else if me.email !in live.st.groups[gid].members then Denied("Access denied: You're not a member of this group", UnsupportedData)
    else Admitted(live.(connections := live.connections + [Conn(me.email, gid)]))
  }

  function NewMessageNotice(email: Email, gid: GroupId): string {
    email + " sent a new message in group " + gid
  }

  function ChatLine(email: Email, gid: GroupId, data: string): string {
    email + " in group " + gid + ": " + data
  }

  function LeftLine(email: Email, gid: GroupId): string {
    email + " left group " + gid + "."
  }

  /** One received text frame: store the message, create the group notification (which
      broadcasts its own lines when it is new), then broadcast the chat line. */
  function ReceiveFrame(live: Live, me: User, gid: GroupId, data: string, now: int): (r: Live)
    ensures r.st.messages == live.st.messages + [Message(gid, me.email, data, now)]
    ensures r.connections == live.connections
    ensures |r.broadcasts| > |live.broadcasts| && r.broadcasts[..|live.broadcasts|] == live.broadcasts
    ensures r.broadcasts[|r.broadcasts| - 1] == ChatLine(me.email, gid, data)
    ensures r.st.users == live.st.users && r.st.groups == live.st.groups && r.st.repos == live.st.repos
    ensures var c := Notify.Create(live.st.notifications, live.st.groups, live.st.repos, me.email,
                                   NewMessageNotice(me.email, gid), "group", Some(gid), None, None, now);
            r.st.notifications == c.notes
            && r.broadcasts == live.broadcasts + c.lines + [ChatLine(me.email, gid, data)]
    ensures r.st == live.st.(messages := r.st.messages, notifications := r.st.notifications)
  {
    var st := live.st;
    var c := Notify.Create(st.notifications, st.groups, st.repos, me.email, NewMessageNotice(me.email, gid),
                           "group", Some(gid), None, None, now);
    var out := live.broadcasts + c.lines + [ChatLine(me.email, gid, data)];
    assert out[..|live.broadcasts|] == live.broadcasts;
    Live(st.(messages := st.messages + [Message(gid, me.email, data, now)], notifications := c.notes),
         live.connections, out)
  }

  /** The notice text depends only on sender and group, so only a sender's first frame in a group
      adds a notification; every later one adds none and broadcasts only the chat line. */
  lemma LaterFramesAddNoNotice(live: Live, me: User, gid: GroupId, first: string, second: string, now1: int, now2: int)
    ensures var once := ReceiveFrame(live, me, gid, first, now1);
            var twice := ReceiveFrame(once, me, gid, second, now2);
            twice.st.notifications == once.st.notifications
            && twice.broadcasts == once.broadcasts + [ChatLine(me.email, gid, second)]
  {
    var st := live.st;
    var c := Notify.Create(st.notifications, st.groups, st.repos, me.email, NewMessageNotice(me.email, gid),
                           "group", Some(gid), None, None, now1);
    assert Notify.HasKey(c.notes, Some(gid), NewMessageNotice(me.email, gid), "group");
  }

  /** Drop the first occurrence of `x`. */
  function RemoveFirst<T(==)>(s: seq<T>, x: T): (r: seq<T>)
    ensures x in s ==> multiset(r) == multiset(s) - multiset{x}
    ensures x !in s ==> r == s
  {
    if |s| == 0 then []
    else if s[0] == x then
      assert s == [s[0]] + s[1..];
      s[1..]
    else
      assert s == [s[0]] + s[1..];
      [s[0]] + RemoveFirst(s[1..], x)
  }

  /** The client went away: deregister its connection, then broadcast that it left. */
  function Disconnect(live: Live, me: User, gid: GroupId): (r: Live)
    ensures Conn(me.email, gid) in live.connections ==>
              multiset(r.connections) == multiset(live.connections) - multiset{Conn(me.email, gid)}
    ensures r.broadcasts == live.broadcasts + [LeftLine(me.email, gid)]
    ensures r.st == live.st
  {
    live.(connections := RemoveFirst(live.connections, Conn(me.email, gid)),
          broadcasts := live.broadcasts + [LeftLine(me.email, gid)])
  }

  /** The frames of one session, in order. */
  function ReceiveAll(live: Live, me: User, gid: GroupId, frames: seq<(string, int)>): (r: Live)
    ensures r.connections == live.connections
    decreases |frames|
  {
    if |frames| == 0 then live
    else ReceiveAll(ReceiveFrame(live, me, gid, frames[0].0, frames[0].1), me, gid, frames[1..])
  }

  /** A whole session: admitted, any frames, then a disconnect. The set of registered connections
      is back to what it was, the store has gained exactly the session's messages, and the last
      line broadcast is the departure. */
  lemma {:induction false} SessionRestoresConnections(live: Live, me: User, gid: GroupId, frames: seq<(string, int)>)
    requires gid in live.st.groups && me.email in live.st.groups[gid].members
    ensures var a := Connect(live, me, gid);
            a.Admitted?
            && var done := Disconnect(ReceiveAll(a.live, me, gid, frames), me, gid);
            multiset(done.connections) == multiset(live.connections)
            && |done.st.messages| == |live.st.messages| + |frames|
            && done.broadcasts[|done.broadcasts| - 1] == LeftLine(me.email, gid)
  {
    var a := Connect(live, me, gid);
    var mid := ReceiveAll(a.live, me, gid, frames);
    assert Conn(me.email, gid) in mid.connections by {
      assert mid.connections == live.connections + [Conn(me.email, gid)];
    }
    ReceiveAllCount(a.live, me, gid, frames);
  }

  lemma {:induction false} ReceiveAllCount(live: Live, me: User, gid: GroupId, frames: seq<(string, int)>)
    ensures |ReceiveAll(live, me, gid, frames).st.messages| == |live.st.messages| + |frames|
    decreases |frames|
  {
    if |frames| > 0 {
      ReceiveAllCount(ReceiveFrame(live, me, gid, frames[0].0, frames[0].1), me, gid, frames[1..]);
    }
  }

  /** While a group has fewer than 100 messages, a message just received is in its history. */
  lemma ReceivedMessageInHistory(live: Live, me: User, gid: GroupId, data: string, now: int)
    requires gid in live.st.groups && me.email in live.st.groups[gid].members
    requires |OfGroup(live.st.messages, gid)| < HistoryLimit
    ensures var h := GetGroupMessages(ReceiveFrame(live, me, gid, data, now).st, me, gid);
            h.Ok? && Message(gid, me.email, data, now) in h.value
  {
    var after := ReceiveFrame(live, me, gid, data, now).st;
    var m := Message(gid, me.email, data, now);
    OfGroupAppend(live.st.messages, m, gid);
    var mine := OfGroup(after.messages, gid);
    var h := GetGroupMessages(after, me, gid);
    assert h.Ok? && |h.value| == |mine|;
    SameSizeSubMultiset(multiset(h.value), multiset(mine));
    assert m in multiset(mine);
  }
}

=== FILE: notify.dfy ===
/** The notification store: bulk fan-out to group members, personal notices,
    and the deduplicating single insert that also broadcasts one line per member.
    A notification's `_id` is its position in the collection. */
module Notify {
  import opened Common
  import opened Store

  /** Every record's id is its position, so ids are unique. */
  predicate Numbered(notes: seq<Notification>) {
    forall i | 0 <= i < |notes| :: notes[i].id == i
  }

  /** What a call leaves behind: the collection and the lines broadcast to live connections. */
  datatype Sent = Sent(notes: seq<Notification>, lines: seq<string>)

  // ---------------------------------------------------------------------------
  // `create_notification_for_group_members`

  /** The records of one fan-out, numbered from `next`. */
  function GroupRecords(members: seq<Email>, content: string, gid: GroupId, sender: Email, now: int, next: nat): (r: seq<Notification>)
    ensures |r| == |RemoveAll(members, sender)|
    ensures forall i | 0 <= i < |r| ::
              r[i] == Notification(next + i, Some(gid), None, sender, Some(RemoveAll(members, sender)[i]), content, "group", Some(false), now)
    decreases |members|
  {
    if |members| == 0 then []
    else if members[0] == sender then
      assert RemoveAll(members, sender) == RemoveAll(members[1..], sender);
      GroupRecords(members[1..], content, gid, sender, now, next)
    else
      var keep := RemoveAll(members, sender);
      var tail := RemoveAll(members[1..], sender);
      assert keep == [members[0]] + tail;
      assert forall i | 1 <= i < |keep| :: keep[i] == tail[i - 1];
      var rest := GroupRecords(members[1..], content, gid, sender, now, next + 1);
      [Notification(next, Some(gid), None, sender, Some(members[0]), content, "group", Some(false), now)] + rest
  }

  /** `create_notification_for_group_members`: one unread "group" record per member other than
      the sender, in member order, appended after the existing ones. */
  function ForGroupMembers(notes: seq<Notification>, members: seq<Email>, content: string, gid: GroupId,
                           sender: Email, now: int): (r: seq<Notification>)
    ensures |r| == |notes| + |RemoveAll(members, sender)|
    ensures r[..|notes|] == notes
    ensures forall i | |notes| <= i < |r| ::
              r[i].receiver == Some(RemoveAll(members, sender)[i - |notes|]) && r[i].sender == sender
              && r[i].groupId == Some(gid) && r[i].kind == "group" && r[i].read == Some(false)
              && r[i].content == content
    ensures forall i | |notes| <= i < |r| :: r[i].receiver != Some(sender)
    ensures Numbered(notes) ==> Numbered(r)
  {
    var added := GroupRecords(members, content, gid, sender, now, |notes|);
    var r := notes + added;
    assert forall i | |notes| <= i < |r| :: r[i] == added[i - |notes|];
    var keep := RemoveAll(members, sender);
    assert forall k | 0 <= k < |keep| :: keep[k] != sender by {
      forall k | 0 <= k < |keep| ensures keep[k] != sender {
        assert keep[k] in keep;
      }
    }
    r
  }

  /** Every member other than the sender gets exactly as many records as it occurs in the list,
      and nobody else gets one. */
  lemma ForGroupMembersReceivers(notes: seq<Notification>, members: seq<Email>, content: string, gid: GroupId,
                                 sender: Email, now: int, e: Email)
    ensures var r := ForGroupMembers(notes, members, content, gid, sender, now);
            (e in members && e != sender) <==> (exists i | |notes| <= i < |r| :: r[i].receiver == Some(e))
  {
    var r := ForGroupMembers(notes, members, content, gid, sender, now);
    var keep := RemoveAll(members, sender);
    if e in members && e != sender {
      assert e in keep;
      var k :| 0 <= k < |keep| && keep[k] == e;
      assert r[|notes| + k].receiver == Some(e);
    }
    if exists i | |notes| <= i < |r| :: r[i].receiver == Some(e) {
      var i :| |notes| <= i < |r| && r[i].receiver == Some(e);
      assert keep[i - |notes|] in keep;
    }
  }

  // ---------------------------------------------------------------------------
  // `create_personal_notification`

  function ForNewMember(notes: seq<Notification>, receiver: Email, content: string, gid: GroupId, now: int): (r: seq<Notification>)
    ensures |r| == |notes| + 1 && r[..|notes|] == notes
    ensures r[|notes|].sender == "System" && r[|notes|].kind == "personal" && r[|notes|].read == Some(false)
    ensures r[|notes|].receiver == Some(receiver) && r[|notes|].groupId == Some(gid) && r[|notes|].content == content
    ensures Numbered(notes) ==> Numbered(r)
  {
    notes + [Notification(|notes|, Some(gid), None, "System", Some(receiver), content, "personal", Some(false), now)]
  }

  // ---------------------------------------------------------------------------
  // `create_notification`

  /** `ObjectId(x) if x else None`: an absent or empty id is stored as null. */
  function NormId(o: Option<string>): (r: Option<string>)
    ensures r.Some? <==> Truthy(o)
    ensures r.Some? ==> r == o
  {
    if Truthy(o) then o else None
  }

  /** The duplicate filter: group id (null matching null or missing), content and type. */
  predicate SameKey(n: Notification, gid: Option<GroupId>, content: string, kind: string) {
    n.groupId == NormId(gid) && n.content == content && n.kind == kind
  }

  predicate HasKey(notes: seq<Notification>, gid: Option<GroupId>, content: string, kind: string) {
    exists i | 0 <= i < |notes| :: SameKey(notes[i], gid, content, kind)
  }

  /** `"Notification for {member}: {content}"` for each member, in order. */
  function Announce(members: seq<Email>, content: string): (r: seq<string>)
    ensures |r| == |members|
    ensures forall i | 0 <= i < |r| :: r[i] == "Notification for " + members[i] + ": " + content
  {
    if |members| == 0 then []
    else ["Notification for " + members[0] + ": " + content] + Announce(members[1..], content)
  }

  /** Who hears about a new notification: the group's members when a group id is given,
      otherwise the repository's members when a repository id is given, otherwise nobody.
      A missing document yields nobody. */
  function Audience(groups: map<GroupId, Group>, repos: map<RepoId, Repo>, gid: Option<GroupId>, rid: Option<RepoId>): seq<Email> {
    if Truthy(gid) then (if gid.value in groups then groups[gid.value].members else [])
    else if Truthy(rid) then (if rid.value in repos then repos[rid.value].members else [])
    else []
  }

  /** `create_notification`. */
  function Create(notes: seq<Notification>, groups: map<GroupId, Group>, repos: map<RepoId, Repo>,
                  sender: string, content: string, kind: string, gid: Option<GroupId>, rid: Option<RepoId>,
                  receiver: Option<Email>, now: int): (r: Sent)
    ensures HasKey(notes, gid, content, kind) ==> r == Sent(notes, [])
    ensures !HasKey(notes, gid, content, kind) ==>
              |r.notes| == |notes| + 1 && r.notes[..|notes|] == notes
              && r.notes[|notes|] == Notification(|notes|, NormId(gid), NormId(rid), sender, receiver, content, kind, None, now)
    ensures !HasKey(notes, gid, content, kind) ==> r.lines == Announce(Audience(groups, repos, gid, rid), content)
    ensures HasKey(r.notes, gid, content, kind)
    ensures Numbered(notes) ==> Numbered(r.notes)
  {
    if HasKey(notes, gid, content, kind) then Sent(notes, [])
    else
      var n := Notification(|notes|, NormId(gid), NormId(rid), sender, receiver, content, kind, None, now);
      var r := notes + [n];
      assert SameKey(r[|notes|], gid, content, kind);
      Sent(r, Announce(Audience(groups, repos, gid, rid), content))
  }

  /** Receiver, repository id, sender and time are not part of the duplicate key: once a call with
      some group id, content and type has run, another one with the same three changes nothing
      and broadcasts nothing. */
  lemma CreateIdempotent(notes: seq<Notification>, groups: map<GroupId, Group>, repos: map<RepoId, Repo>,
                         content: string, kind: string, gid: Option<GroupId>,
                         sender1: string, rid1: Option<RepoId>, receiver1: Option<Email>, now1: int,
                         sender2: string, rid2: Option<RepoId>, receiver2: Option<Email>, now2: int)
    ensures var first := Create(notes, groups, repos, sender1, content, kind, gid, rid1, receiver1, now1);
            Create(first.notes, groups, repos, sender2, content, kind, gid, rid2, receiver2, now2) == Sent(first.notes, [])
  {
  }

  // ---------------------------------------------------------------------------
  // `notify_other_group_members`

  /** One `create_notification` per member other than `newMember`, all with the same arguments;
      the lines of the calls are concatenated. */
  function NotifyEach(s: Sent, groups: map<GroupId, Group>, repos: map<RepoId, Repo>, members: seq<Email>,
                      gid: GroupId, newMember: Email, content: string, now: int): (r: Sent)
    decreases |members|
  {
    if |members| == 0 then s
    else if members[0] == newMember then NotifyEach(s, groups, repos, members[1..], gid, newMember, content, now)
    else
      var c := Create(s.notes, groups, repos, "System", content, "group", Some(gid), None, None, now);
      NotifyEach(Sent(c.notes, s.lines + c.lines), groups, repos, members[1..], gid, newMember, content, now)
  }

  /** `notify_other_group_members`. A missing group notifies nobody. */
  function NotifyOtherGroupMembers(notes: seq<Notification>, groups: map<GroupId, Group>, repos: map<RepoId, Repo>,
                                   gid: GroupId, newMember: Email, content: string, now: int): (r: Sent)
    ensures Numbered(notes) ==> Numbered(r.notes)
    ensures |notes| <= |r.notes| <= |notes| + 1 && r.notes[..|notes|] == notes
  {
    if gid !in groups then Sent(notes, [])
    else
      var members := groups[gid].members;
      NotifyOnce(notes, groups, repos, members, gid, newMember, content, now);
      NotifyEach(Sent(notes, []), groups, repos, members, gid, newMember, content, now)
  }

  /** Whatever the number of other members, the loop amounts to at most one `create_notification`:
      the first call inserts (unless the key is already there) and every later one is a duplicate. */
  lemma {:induction false} NotifyOnce(notes: seq<Notification>, groups: map<GroupId, Group>, repos: map<RepoId, Repo>,
                                      members: seq<Email>, gid: GroupId, newMember: Email, content: string, now: int)
    ensures NotifyEach(Sent(notes, []), groups, repos, members, gid, newMember, content, now)
         == if exists m | m in members :: m != newMember
            then Create(notes, groups, repos, "System", content, "group", Some(gid), None, None, now)
            else Sent(notes, [])
    decreases |members|
  {
    if |members| > 0 {
      if members[0] == newMember {
        NotifyOnce(notes, groups, repos, members[1..], gid, newMember, content, now);
        if exists m | m in members :: m != newMember {
          var m :| m in members && m != newMember;
          assert m in members[1..];
        }
        if exists m | m in members[1..] :: m != newMember {
          var m :| m in members[1..] && m != newMember;
          assert m in members;
        }
      } else {
        var c := Create(notes, groups, repos, "System", content, "group", Some(gid), None, None, now);
        assert members[0] in members;
        assert Sent(c.notes, [] + c.lines) == c;
        NotifyAfterFirst(c, groups, repos, members[1..], gid, newMember, content, now);
      }
    }
  }

  /** Once the key is present every further call of the loop is a no-op. */
  lemma {:induction false} NotifyAfterFirst(s: Sent, groups: map<GroupId, Group>, repos: map<RepoId, Repo>,
                                            members: seq<Email>, gid: GroupId, newMember: Email, content: string, now: int)
    requires HasKey(s.notes, Some(gid), content, "group")
    ensures NotifyEach(s, groups, repos, members, gid, newMember, content, now) == s
    decreases |members|
  {
    if |members| > 0 {
      if members[0] != newMember {
        assert s.lines + [] == s.lines;
      }
      NotifyAfterFirst(s, groups, repos, members[1..], gid, newMember, content, now);
    }
  }
}

=== FILE: repo_routes.dfy ===
/** The repository routes: creation and membership, pinning, the directory
    tree edits (add and delete directories and files), counting, and the
    recently-added-files view. Every tree edit first looks the repository up
    together with the caller as its owner. */
module RepoRoutes {
  import opened Common
  import opened Store
  import opened Tree
  import opened Sorting
  import opened Users
  import opened Membership
  import S3

  const PinLimit := 5
  const RecentLimit := 5

  const OwnerDetail := "Repository not found or you don't have permission"

  /** `find_one({"_id": rid, "owner_id": me.id})` finds the repository. */
  predicate Owns(st: Store, me: User, rid: RepoId) {
    rid in st.repos && st.repos[rid].ownerId == me.id
  }

  /** `st2` differs from `st` at most in repository `rid` and in the blob store. */
  predicate RepoEdit(st: Store, st2: Store, rid: RepoId) {
    rid in st.repos && rid in st2.repos && st2 == st.(repos := st.repos[rid := st2.repos[rid]], blobs := st2.blobs)
  }

  /** Some directory of the list has the name. */
  predicate DirNamed(ds: seq<Directory>, name: string) {
    exists d | d in ds :: d.name == name
  }

  /** Some file of the list has the name. */
  predicate FileNamed(fs: seq<File>, filename: string) {
    exists f | f in fs :: f.filename == filename
  }

  // ---------------------------------------------------------------------------
  // `add_directory`

  function AddDirectory(st: Store, me: User, rid: RepoId, parent: Option<string>, req: DirectoryCreate): (r: Result<Store>)
    ensures !Owns(st, me, rid) ==> r == Fail(404, OwnerDetail)
    ensures Owns(st, me, rid) && Truthy(parent) && Find(st.repos[rid].directories, parent.value).None? ==>
              r == Fail(404, "Parent directory not found")
    ensures Owns(st, me, rid) && Truthy(parent) && Find(st.repos[rid].directories, parent.value).Some?
            && DirNamed(Find(st.repos[rid].directories, parent.value).value.subdirectories, req.name) ==>
              r == Fail(400, "Directory already exists")
    ensures Owns(st, me, rid) && !Truthy(parent) && DirNamed(st.repos[rid].directories, req.name) ==>
              r == Fail(400, "Directory already exists")
    ensures r.Ok? ==> RepoEdit(st, r.value, rid) && r.value.blobs == st.blobs
    ensures r.Ok? ==> var before := st.repos[rid];
                      var after := r.value.repos[rid];
                      after == before.(directories := after.directories)
    ensures r.Ok? && Truthy(parent) ==>
              var found := Find(st.repos[rid].directories, parent.value);
              found.Some?
              && Find(r.value.repos[rid].directories, parent.value)
                 == Some(found.value.(subdirectories := found.value.subdirectories + [Stored(req)]))
              && EditedInPlace(st.repos[rid].directories, r.value.repos[rid].directories, parent.value, AppendDirectory(Stored(req)))
    ensures r.Ok? && !Truthy(parent) ==> r.value.repos[rid].directories == st.repos[rid].directories + [Stored(req)]
  {
    var dir := Stored(req);
    if !Owns(st, me, rid) then Fail(404, OwnerDetail)
    else
      var repo := st.repos[rid];
      if Truthy(parent) then
        var found := Find(repo.directories, parent.value);
        if found.None? then Fail(404, "Parent directory not found")
        else if DirNamed(found.value.subdirectories, dir.name) then Fail(400, "Directory already exists")
        else
          Ok(st.(repos := st.repos[rid := repo.(directories := EditFirst(repo.directories, parent.value, AppendDirectory(dir)))]))
      else if DirNamed(repo.directories, dir.name) then Fail(400, "Directory already exists")
      else Ok(st.(repos := st.repos[rid := repo.(directories := repo.directories + [dir])]))
  }

  /** A successful directory insert adds the new directory's own files, as one block, at one
      point of the repository's flattened file list; every other file keeps its place. */
  lemma AddDirectoryFiles(st: Store, me: User, rid: RepoId, parent: Option<string>, req: DirectoryCreate) returns (p: nat)
    requires AddDirectory(st, me, rid, parent, req).Ok?
    ensures var before := st.repos[rid];
            var after := AddDirectory(st, me, rid, parent, req).value.repos[rid];
            var prior := CollectAllFiles(before.files, before.directories);
            p <= |prior|
            && CollectAllFiles(after.files, after.directories) == prior[..p] + FilesOf([Stored(req)]) + prior[p..]
  {
    var dir := Stored(req);
    var before := st.repos[rid];
    if Truthy(parent) {
      p := EditedForestFiles(before.files, before.directories, parent.value, AppendDirectory(dir));
    } else {
      p := AppendedRootFiles(before.files, before.directories, dir);
    }
  }

  lemma EditedForestFiles(fs: seq<File>, ds: seq<Directory>, name: string, e: Edit) returns (p: nat)
    requires Find(ds, name).Some?
    ensures p <= |fs + FilesOf(ds)|
    ensures fs + FilesOf(EditFirst(ds, name, e)) == (fs + FilesOf(ds))[..p] + AddedFiles(e) + (fs + FilesOf(ds))[p..]
  {
    var q := EditFirstFiles(ds, name, e);
    p := SplicedAfter(fs, FilesOf(ds), FilesOf(EditFirst(ds, name, e)), q, AddedFiles(e));
  }

  lemma SplicedAfter(fs: seq<File>, v: seq<File>, w: seq<File>, q: nat, x: seq<File>) returns (p: nat)
    requires q <= |v| && w == v[..q] + x + v[q..]
    ensures p <= |fs + v| && fs + w == (fs + v)[..p] + x + (fs + v)[p..]
  {
    SpliceInSuffix(fs, v, q, x);
    p := |fs| + q;
  }

  lemma AppendedRootFiles(fs: seq<File>, ds: seq<Directory>, dir: Directory) returns (p: nat)
    ensures p <= |fs + FilesOf(ds)|
    ensures fs + FilesOf(ds + [dir]) == (fs + FilesOf(ds))[..p] + FilesOf([dir]) + (fs + FilesOf(ds))[p..]
  {
    FilesOfAppend(ds, [dir]);
    var prior := fs + FilesOf(ds);
    p := |prior|;
    assert prior[..p] == prior && prior[p..] == [];
  }

  /** Likewise for the pre-order listing of directory names: the new subtree's names are
      inserted at one point and no other directory moves. */
  lemma AddDirectoryNames(st: Store, me: User, rid: RepoId, parent: Option<string>, req: DirectoryCreate) returns (p: nat)
    requires AddDirectory(st, me, rid, parent, req).Ok?
    ensures var before := Names(PreOrder(st.repos[rid].directories));
            var after := Names(PreOrder(AddDirectory(st, me, rid, parent, req).value.repos[rid].directories));
            p <= |before| && after == before[..p] + Names(PreOrder([Stored(req)])) + before[p..]
  {
    AddDirectoryShape(st, me, rid, parent, req);
    p := GraftedNames(st.repos[rid].directories, parent, Stored(req));
  }

  /** Where a successful directory insert puts the new directory. */
  lemma AddDirectoryShape(st: Store, me: User, rid: RepoId, parent: Option<string>, req: DirectoryCreate)
    requires AddDirectory(st, me, rid, parent, req).Ok?
    ensures rid in st.repos
    ensures AddDirectory(st, me, rid, parent, req).value.repos[rid].directories
            == Grafted(st.repos[rid].directories, parent, Stored(req))
  {
  }

  /** The forest after `dir` is added under the first directory named `parent`, or at the root. */
  function Grafted(ds: seq<Directory>, parent: Option<string>, dir: Directory): seq<Directory> {
    if Truthy(parent) then EditFirst(ds, parent.value, AppendDirectory(dir)) else ds + [dir]
  }

  lemma GraftedNames(ds: seq<Directory>, parent: Option<string>, dir: Directory) returns (p: nat)
    requires Truthy(parent) ==> Find(ds, parent.value).Some?
    ensures var before := Names(PreOrder(ds));
            p <= |before| && Names(PreOrder(Grafted(ds, parent, dir))) == before[..p] + Names(PreOrder([dir])) + before[p..]
  {
    if Truthy(parent) {
      p := EditFirstNames(ds, parent.value, AppendDirectory(dir));
    } else {
      PreOrderAppend(ds, [dir]);
      NamesAppend(PreOrder(ds), PreOrder([dir]));
      p := |Names(PreOrder(ds))|;
      var before := Names(PreOrder(ds));
      assert before[..p] == before && before[p..] == [];
    }
  }

  // ---------------------------------------------------------------------------
  // `add_file_to_repo`

  function AddFile(st: Store, me: User, rid: RepoId, parent: Option<string>, filename: string,
                   content: seq<byte>, cfg: S3.Config, now: int): (r: Result<Store>)
    ensures !Owns(st, me, rid) ==> r == Fail(404, OwnerDetail)
    ensures Owns(st, me, rid) && |content| > S3.MaxFileSize ==> r == Fail(400, S3.SizeDetail)
    ensures Owns(st, me, rid) && |content| <= S3.MaxFileSize && Truthy(parent) ==>
              var found := Find(st.repos[rid].directories, parent.value);
              (found.None? ==> r == Fail(404, "Parent directory not found"))
              && (found.Some? && FileNamed(found.value.files, filename) ==> r == Fail(400, "File already exists in the directory"))
              && (found.Some? && !FileNamed(found.value.files, filename) ==> r.Ok?)
    ensures Owns(st, me, rid) && |content| <= S3.MaxFileSize && !Truthy(parent) ==>
              (r.Ok? <==> !FileNamed(st.repos[rid].files, filename))
              && (r.Err? ==> r == Fail(400, "File already exists in the root directory"))
    ensures r.Ok? ==> RepoEdit(st, r.value, rid)
                      && r.value.blobs == S3.UploadRepoFile(st.blobs, cfg, filename, content).0
    ensures r.Ok? ==> var before := st.repos[rid];
                      var after := r.value.repos[rid];
                      after == before.(files := after.files, directories := after.directories)
    ensures r.Ok? && Truthy(parent) ==>
              var found := Find(st.repos[rid].directories, parent.value);
              var entry := File(filename, S3.GetRepoFileUrl(cfg, filename), Some(now));
              found.Some?
              && r.value.repos[rid].files == st.repos[rid].files
              && Find(r.value.repos[rid].directories, parent.value) == Some(found.value.(files := found.value.files + [entry]))
              && EditedInPlace(st.repos[rid].directories, r.value.repos[rid].directories, parent.value, AppendFile(entry))
    ensures r.Ok? && !Truthy(parent) ==>
              r.value.repos[rid].directories == st.repos[rid].directories
              && r.value.repos[rid].files == st.repos[rid].files + [File(filename, S3.GetRepoFileUrl(cfg, filename), Some(now))]
  {
    if !Owns(st, me, rid) then Fail(404, OwnerDetail)
    else if |content| > S3.MaxFileSize then Fail(400, S3.SizeDetail)
    else
      var repo := st.repos[rid];
      if Truthy(parent) then
        var found := Find(repo.directories, parent.value);
        if found.None? then Fail(404, "Parent directory not found")
        else if FileNamed(found.value.files, filename) then Fail(400, "File already exists in the directory")
        else
          var up := S3.UploadRepoFile(st.blobs, cfg, filename, content);
          var entry := File(filename, up.1, Some(now));
          Ok(st.(repos := st.repos[rid := repo.(directories := EditFirst(repo.directories, parent.value, AppendFile(entry)))],
                 blobs := up.0))
      else if FileNamed(repo.files, filename) then Fail(400, "File already exists in the root directory")
      else
        var up := S3.UploadRepoFile(st.blobs, cfg, filename, content);
        Ok(st.(repos := st.repos[rid := repo.(files := repo.files + [File(filename, up.1, Some(now))])], blobs := up.0))
  }

  /** A successful upload inserts exactly the new entry at one point of the flattened file list. */
  lemma AddFileInsertsOnce(st: Store, me: User, rid: RepoId, parent: Option<string>, filename: string,
                           content: seq<byte>, cfg: S3.Config, now: int) returns (p: nat)
    requires AddFile(st, me, rid, parent, filename, content, cfg, now).Ok?
    ensures var before := st.repos[rid];
            var after := AddFile(st, me, rid, parent, filename, content, cfg, now).value.repos[rid];
            var prior := CollectAllFiles(before.files, before.directories);
            p <= |prior|
            && CollectAllFiles(after.files, after.directories)
               == prior[..p] + [File(filename, S3.GetRepoFileUrl(cfg, filename), Some(now))] + prior[p..]
  {
    var entry := File(filename, S3.GetRepoFileUrl(cfg, filename), Some(now));
    AddFileShape(st, me, rid, parent, filename, content, cfg, now);
    p := PlacedFiles(st.repos[rid], parent, entry);
  }

  /** Where a successful upload puts the new entry. */
  lemma AddFileShape(st: Store, me: User, rid: RepoId, parent: Option<string>, filename: string,
                     content: seq<byte>, cfg: S3.Config, now: int)
    requires AddFile(st, me, rid, parent, filename, content, cfg, now).Ok?
    ensures rid in st.repos && (Truthy(parent) ==> Find(st.repos[rid].directories, parent.value).Some?)
    ensures AddFile(st, me, rid, parent, filename, content, cfg, now).value.repos[rid]
            == Placed(st.repos[rid], parent, File(filename, S3.GetRepoFileUrl(cfg, filename), Some(now)))
  {
  }

  /** The repository after `entry` is added to the first directory named `parent`, or at the root. */
  function Placed(repo: Repo, parent: Option<string>, entry: File): Repo {
    if Truthy(parent) then repo.(directories := EditFirst(repo.directories, parent.value, AppendFile(entry)))
    else repo.(files := repo.files + [entry])
  }

  lemma PlacedFiles(repo: Repo, parent: Option<string>, entry: File) returns (p: nat)
    requires Truthy(parent) ==> Find(repo.directories, parent.value).Some?
    ensures var prior := CollectAllFiles(repo.files, repo.directories);
            var after := Placed(repo, parent, entry);
            p <= |prior| && CollectAllFiles(after.files, after.directories) == prior[..p] + [entry] + prior[p..]
  {
    var fs := repo.files;
    if Truthy(parent) {
      assert Placed(repo, parent, entry).files == fs;
      assert Placed(repo, parent, entry).directories == EditFirst(repo.directories, parent.value, AppendFile(entry));
      p := EditedForestFiles(fs, repo.directories, parent.value, AppendFile(entry));
    } else {
      var rest := FilesOf(repo.directories);
      assert Placed(repo, parent, entry).files == fs + [entry];
      InsertBetween(fs + rest, fs + [entry] + rest, fs, rest, [entry]);
      p := |fs|;
    }
  }

  // ---------------------------------------------------------------------------
  // `delete_directory`

  function DeleteDirectory(st: Store, me: User, rid: RepoId, name: string): (r: Result<Store>)
    ensures !Owns(st, me, rid) ==> r == Fail(404, OwnerDetail)
    ensures Owns(st, me, rid) ==> (r.Ok? <==> DirNamed(st.repos[rid].directories, name))
    ensures Owns(st, me, rid) && r.Err? ==> r == Fail(404, "Directory not found in the repository")
    ensures r.Ok? ==> RepoEdit(st, r.value, rid) && r.value.blobs == st.blobs
    ensures r.Ok? ==> var before := st.repos[rid];
                      var after := r.value.repos[rid];
                      var gone := FirstNamed(before.directories, name).value;
                      after == before.(directories := after.directories)
                      && gone !in after.directories
                      && forall d | d in before.directories && d != gone :: d in after.directories
    ensures r.Ok? ==> var before := st.repos[rid];
                      var gone := FirstNamed(before.directories, name).value;
                      r.value.repos == st.repos[rid := before.(directories := RemoveAll(before.directories, gone))]
                      && r.value == st.(repos := r.value.repos)
  {
    if !Owns(st, me, rid) then Fail(404, OwnerDetail)
    else
      var repo := st.repos[rid];
      match FirstNamed(repo.directories, name)
      case None => Fail(404, "Directory not found in the repository")
      case Some(d) => Ok(st.(repos := st.repos[rid := repo.(directories := RemoveAll(repo.directories, d))]))
  }

  /** Adding a directory at the root and deleting it by name gives back the original directory list. */
  lemma DeleteDirectoryUndoesAdd(st: Store, me: User, rid: RepoId, req: DirectoryCreate)
    requires AddDirectory(st, me, rid, None, req).Ok?
    ensures var added := AddDirectory(st, me, rid, None, req).value;
            var deleted := DeleteDirectory(added, me, rid, req.name);
            deleted.Ok? && deleted.value.repos[rid] == st.repos[rid]
  {
    var dir := Stored(req);
    var ds := st.repos[rid].directories;
    assert dir !in ds;
    FirstNamedAppend(ds, [dir], dir.name);
    assert [dir][1..] == [];
    RemoveAllAppend(ds, [dir], dir);
    RemoveAllAbsent(ds, dir);
    assert RemoveAll([dir], dir) == [];
  }

  // ---------------------------------------------------------------------------
  // `delete_file`

  /** The first file with the name. */
  function FirstFile(fs: seq<File>, filename: string): (r: Option<File>)
    ensures r.None? <==> !FileNamed(fs, filename)
    ensures r.Some? ==> r.value in fs && r.value.filename == filename
    ensures r.Some? ==> exists i | 0 <= i < |fs| :: fs[i] == r.value && forall j | 0 <= j < i :: fs[j].filename != filename
  {
    if |fs| == 0 then None
    else if fs[0].filename == filename then Some(fs[0])
    else
      var rest := FirstFile(fs[1..], filename);
      assert forall f | f in fs :: f == fs[0] || f in fs[1..];
      if rest.Some? then
        var i :| 0 <= i < |fs[1..]| && fs[1..][i] == rest.value && forall j | 0 <= j < i :: fs[1..][j].filename != filename;
        assert fs[i + 1] == rest.value && forall j | 0 <= j < i + 1 :: fs[j].filename != filename;
        rest
      else rest
  }

  /** The positional update `directories.$.files`: `$pull` `f` from the first root directory named `name`. */
  function PullFileAt(ds: seq<Directory>, name: string, f: File): (r: seq<Directory>)
    ensures |r| == |ds|
    ensures forall i | 0 <= i < |ds| :: r[i] == ds[i] || (r[i] == ds[i].(files := RemoveAll(ds[i].files, f)) && ds[i].name == name)
  {
    if |ds| == 0 then []
    else if ds[0].name == name then [ds[0].(files := RemoveAll(ds[0].files, f))] + ds[1..]
    else [ds[0]] + PullFileAt(ds[1..], name, f)
  }

  /** Only the first directory with the name is touched: the lookup now finds it without the file. */
  lemma {:induction false} PullFileAtFirst(ds: seq<Directory>, name: string, f: File)
    requires FirstNamed(ds, name).Some?
    ensures FirstNamed(PullFileAt(ds, name, f), name)
            == Some(FirstNamed(ds, name).value.(files := RemoveAll(FirstNamed(ds, name).value.files, f)))
  {
    var r := PullFileAt(ds, name, f);
    if ds[0].name != name {
      PullFileAtFirst(ds[1..], name, f);
      assert r[1..] == PullFileAt(ds[1..], name, f);
    }
  }

  /** Every directory before the first one with the name is left as it was. */
  lemma {:induction false} PullFileAtBefore(ds: seq<Directory>, name: string, f: File, i: nat)
    requires i < |ds| && forall j | 0 <= j <= i :: ds[j].name != name
    ensures PullFileAt(ds, name, f)[i] == ds[i]
  {
    if i > 0 {
      PullFileAtBefore(ds[1..], name, f, i - 1);
    }
  }

  function DeleteFile(st: Store, me: User, rid: RepoId, filename: string, parent: Option<string>): (r: Result<Store>)
    ensures !Owns(st, me, rid) ==> r == Fail(404, OwnerDetail)
    ensures Owns(st, me, rid) && Truthy(parent) ==>
              var pd := FirstNamed(st.repos[rid].directories, parent.value);
              (pd.None? ==> r == Fail(404, "Parent directory not found"))
              && (pd.Some? ==> (r.Ok? <==> FileNamed(pd.value.files, filename)))
              && (pd.Some? && r.Err? ==> r == Fail(404, "File not found in the directory"))
    ensures Owns(st, me, rid) && !Truthy(parent) ==>
              (r.Ok? <==> FileNamed(st.repos[rid].files, filename))
              && (r.Err? ==> r == Fail(404, "File not found in the repository"))
    ensures r.Ok? ==> RepoEdit(st, r.value, rid) && r.value.blobs == S3.DeleteRepoFile(st.blobs, filename)
    ensures r.Ok? && !Truthy(parent) ==>
              var before := st.repos[rid];
              var gone := FirstFile(before.files, filename).value;
              r.value.repos[rid] == before.(files := RemoveAll(before.files, gone))
    ensures r.Ok? && Truthy(parent) ==>
              var before := st.repos[rid];
              var pd := FirstNamed(before.directories, parent.value).value;
              var gone := FirstFile(pd.files, filename).value;
              r.value.repos[rid].files == before.files
              && FirstNamed(r.value.repos[rid].directories, parent.value) == Some(pd.(files := RemoveAll(pd.files, gone)))
    ensures r.Ok? && Truthy(parent) ==>
              var before := st.repos[rid];
              var pd := FirstNamed(before.directories, parent.value).value;
              var gone := FirstFile(pd.files, filename).value;
              r.value.repos == st.repos[rid := before.(directories := PullFileAt(before.directories, parent.value, gone))]
              && r.value == st.(repos := r.value.repos, blobs := S3.DeleteRepoFile(st.blobs, filename))
  {
    if !Owns(st, me, rid) then Fail(404, OwnerDetail)
    else
      var repo := st.repos[rid];
      if Truthy(parent) then
        match FirstNamed(repo.directories, parent.value)
        case None => Fail(404, "Parent directory not found")
        case Some(pd) =>
          match FirstFile(pd.files, filename)
          case None => Fail(404, "File not found in the directory")
          case Some(f) =>
            PullFileAtFirst(repo.directories, parent.value, f);
            Ok(st.(repos := st.repos[rid := repo.(directories := PullFileAt(repo.directories, parent.value, f))],
                   blobs := S3.DeleteRepoFile(st.blobs, filename)))
      else
        match FirstFile(repo.files, filename)
        case None => Fail(404, "File not found in the repository")
        case Some(f) =>
          Ok(st.(repos := st.repos[rid := repo.(files := RemoveAll(repo.files, f))],
                 blobs := S3.DeleteRepoFile(st.blobs, filename)))
  }

  /** Uploading a file to the root and deleting it by name restores the repository, and the blob
      store loses exactly the object's key. */
  lemma DeleteFileUndoesAdd(st: Store, me: User, rid: RepoId, filename: string, content: seq<byte>, cfg: S3.Config, now: int)
    requires AddFile(st, me, rid, None, filename, content, cfg, now).Ok?
    ensures var added := AddFile(st, me, rid, None, filename, content, cfg, now).value;
            var deleted := DeleteFile(added, me, rid, filename, None);
            deleted.Ok? && deleted.value.repos[rid] == st.repos[rid]
            && deleted.value.blobs == st.blobs - {S3.RepoKey(filename)}
  {
    var fs := st.repos[rid].files;
    var entry := File(filename, S3.GetRepoFileUrl(cfg, filename), Some(now));
    assert entry !in fs;
    var added := AddFile(st, me, rid, None, filename, content, cfg, now).value;
    assert added.repos[rid].files == fs + [entry];
    assert FirstFile(fs + [entry], filename) == Some(entry) by {
      FirstFileAppend(fs, [entry], filename);
    }
    RemoveAllAppend(fs, [entry], entry);
    RemoveAllAbsent(fs, entry);
    assert RemoveAll([entry], entry) == [];
    S3.DeleteUndoesUpload(st.blobs, cfg, filename, content);
  }

  lemma {:induction false} FirstFileAppend(a: seq<File>, b: seq<File>, filename: string)
    requires !FileNamed(a, filename)
    ensures FirstFile(a + b, filename) == FirstFile(b, filename)
  {
    if |a| > 0 {
      assert a[0] in a;
      assert (a + b)[1..] == a[1..] + b;
      assert forall f | f in a[1..] :: f in a;
      FirstFileAppend(a[1..], b, filename);
    } else {
      assert a + b == b;
    }
  }

  // ---------------------------------------------------------------------------
  // Counting, reading, and the recent-files view.

  /** `count_repo_documents`: root files plus root directories; nested content is not counted. */
  function CountDocuments(st: Store, me: User, rid: RepoId): (r: Result<nat>)
    ensures rid !in st.repos ==> r == Fail(404, "Repository not found")
    ensures rid in st.repos && me.email !in st.repos[rid].members ==> r == Fail(403, "You are not a member of this repository")
    ensures r.Ok? <==> rid in st.repos && me.email in st.repos[rid].members
    ensures r.Ok? ==> r.value == |st.repos[rid].files| + |st.repos[rid].directories|
  {
    if rid !in st.repos then Fail(404, "Repository not found")
    else if me.email !in st.repos[rid].members then Fail(403, "You are not a member of this repository")
    else Ok(|st.repos[rid].files| + |st.repos[rid].directories|)
  }

  /** The count sees root entries only: a directory added at the root adds one, a file added
      inside a directory adds nothing, a file added at the root adds one. */
  lemma CountAfterAdds(st: Store, me: User, rid: RepoId, parent: Option<string>, req: DirectoryCreate,
                       filename: string, content: seq<byte>, cfg: S3.Config, now: int)
    requires rid in st.repos && me.email in st.repos[rid].members
    ensures var a := AddDirectory(st, me, rid, parent, req);
            a.Ok? ==> CountDocuments(a.value, me, rid).value
                      == CountDocuments(st, me, rid).value + (if Truthy(parent) then 0 else 1)
    ensures var a := AddFile(st, me, rid, parent, filename, content, cfg, now);
            a.Ok? ==> CountDocuments(a.value, me, rid).value
                      == CountDocuments(st, me, rid).value + (if Truthy(parent) then 0 else 1)
  {
  }

  /** `get_repo`: the stored document, for members only. */
  function GetRepo(st: Store, me: User, rid: RepoId): (r: Result<Repo>)
    ensures rid !in st.repos ==> r == Fail(404, "Repo not found")
    ensures rid in st.repos && me.email !in st.repos[rid].members ==> r == Fail(403, "You are not a member of this repo")
    ensures r.Ok? <==> rid in st.repos && me.email in st.repos[rid].members
    ensures r.Ok? ==> r.value == st.repos[rid]
  {
    if rid !in st.repos then Fail(404, "Repo not found")
    else if me.email !in st.repos[rid].members then Fail(403, "You are not a member of this repo")
    else Ok(st.repos[rid])
  }

  /** `collect_all_files` of one repository. */
  function RepoFiles(repo: Repo): seq<File> {
    CollectAllFiles(repo.files, repo.directories)
  }

  /** `find({"members": email})`: the repositories listing the address, in collection order. */
  function MemberOf(repos: seq<Repo>, email: Email): (r: seq<Repo>)
    ensures forall x :: x in r <==> x in repos && email in x.members
    ensures IsSubseq(r, repos)
  {
    if |repos| == 0 then []
    else
      var rest := MemberOf(repos[1..], email);
      assert repos == [repos[0]] + repos[1..];
      if email in repos[0].members then
        var r := [repos[0]] + rest;
        assert r[1..] == rest;
        r
      else rest
  }

  /** The files of several repositories, one repository after another. */
  function FilesOfRepos(repos: seq<Repo>): (r: seq<File>)
    ensures forall f :: f in r <==> exists x | x in repos :: f in RepoFiles(x)
  {
    if |repos| == 0 then []
    else
      var rest := FilesOfRepos(repos[1..]);
      assert forall x | x in repos :: x == repos[0] || x in repos[1..];
      assert forall x | x in repos[1..] :: x in repos;
      RepoFiles(repos[0]) + rest
  }

  /** The sort key `file["added_at"]`, negated so that ascending order is newest first. Only
      called on files that have the field. */
  function NegAddedAt(f: File): int {
    if f.addedAt.Some? then -f.addedAt.value else 0
  }

  /** The files the view chooses from: those of the first five repositories listing the caller. */
  function RecentPool(repos: seq<Repo>, me: User): seq<File> {
    FilesOfRepos(Take(MemberOf(repos, me.email), RecentLimit))
  }

  /** `get_recent_files` over the repositories collection in its natural order: from the first
      five repositories the caller belongs to, the five newest files, newest first. The sort
      reads `added_at` of every file it is given, so one file without the field raises
      `KeyError`, which the framework answers with a 500. */
  function RecentFiles(repos: seq<Repo>, me: User): (r: Result<seq<File>>)
    ensures r.Err? <==> exists f | f in RecentPool(repos, me) :: f.addedAt.None?
    ensures r.Err? ==> r == Fail(500, "Internal Server Error")
    ensures r.Ok? ==> |r.value| == (if |RecentPool(repos, me)| < RecentLimit then |RecentPool(repos, me)| else RecentLimit)
                      && multiset(r.value) <= multiset(RecentPool(repos, me))
                      && forall f | f in r.value :: f.addedAt.Some?
    ensures r.Ok? ==> forall f | f in multiset(RecentPool(repos, me)) - multiset(r.value) ::
                        forall g | g in r.value :: f.addedAt.Some? && f.addedAt.value <= g.addedAt.value
    ensures r.Ok? ==> forall i, j | 0 <= i < j < |r.value| :: r.value[i].addedAt.value >= r.value[j].addedAt.value
  {
    NewestOf(RecentPool(repos, me))
  }

  /** `sorted(pool, key=lambda file: file["added_at"], reverse=True)[:5]`. */
  function NewestOf(pool: seq<File>): (r: Result<seq<File>>)
    ensures r.Err? <==> exists f | f in pool :: f.addedAt.None?
    ensures r.Err? ==> r == Fail(500, "Internal Server Error")
    ensures r.Ok? ==> |r.value| == (if |pool| < RecentLimit then |pool| else RecentLimit)
                      && multiset(r.value) <= multiset(pool)
                      && forall f | f in r.value :: f.addedAt.Some?
    ensures r.Ok? ==> forall f | f in multiset(pool) - multiset(r.value) ::
                        forall g | g in r.value :: f.addedAt.Some? && f.addedAt.value <= g.addedAt.value
    ensures r.Ok? ==> forall i, j | 0 <= i < j < |r.value| :: r.value[i].addedAt.value >= r.value[j].addedAt.value
  {
    if exists f | f in pool :: f.addedAt.None? then Fail(500, "Internal Server Error")
    else
      var r := SmallestK(pool, NegAddedAt, RecentLimit);
      NewestOfStamped(pool, r);
      Ok(r)
  }

  /** Read back through the key, the newest-first choice among stamped files. */
  lemma NewestOfStamped(pool: seq<File>, r: seq<File>)
    requires forall f | f in pool :: f.addedAt.Some?
    requires multiset(r) <= multiset(pool) && SortedBy(r, NegAddedAt)
    requires forall x | x in multiset(pool) - multiset(r) :: forall y | y in r :: NegAddedAt(y) <= NegAddedAt(x)
    ensures forall f | f in r :: f.addedAt.Some?
    ensures forall f | f in multiset(pool) - multiset(r) ::
              forall g | g in r :: f.addedAt.Some? && f.addedAt.value <= g.addedAt.value
    ensures forall i, j | 0 <= i < j < |r| :: r[i].addedAt.value >= r[j].addedAt.value
  {
    assert forall f | f in r :: f in multiset(pool);
    assert forall f | f in multiset(pool) - multiset(r) :: f in pool;
  }

  /** Every file of the view belongs to a repository that lists the caller. */
  lemma RecentFilesFromMemberRepos(repos: seq<Repo>, me: User, f: File)
    requires RecentFiles(repos, me).Ok? && f in RecentFiles(repos, me).value
    ensures exists x | x in repos :: me.email in x.members && f in RepoFiles(x)
  {
    var r := RecentFiles(repos, me).value;
    assert f in multiset(r);
    assert f in RecentPool(repos, me);
    var mine := Take(MemberOf(repos, me.email), RecentLimit);
    var x :| x in mine && f in RepoFiles(x);
    assert x in MemberOf(repos, me.email);
  }

  /** With at most five files to choose from, all stamped, the view shows every one of them,
      each as often as it occurs. */
  lemma RecentShowsSmallPool(repos: seq<Repo>, me: User)
    requires |RecentPool(repos, me)| <= RecentLimit
    ensures RecentFiles(repos, me).Ok? ==> multiset(RecentFiles(repos, me).value) == multiset(RecentPool(repos, me))
  {
    var r := RecentFiles(repos, me);
    if r.Ok? {
      SameSizeSubMultiset(multiset(r.value), multiset(RecentPool(repos, me)));
    }
  }

  /** A directory added with a file in its request stores that file without `added_at`; from
      then on the view fails for every member of the repository. */
  lemma DirectoryFileBreaksRecent(st: Store, me: User, rid: RepoId, parent: Option<string>, req: DirectoryCreate)
    requires AddDirectory(st, me, rid, parent, req).Ok? && me.email in st.repos[rid].members && |req.files| > 0
    ensures RecentFiles([AddDirectory(st, me, rid, parent, req).value.repos[rid]], me) == Fail(500, "Internal Server Error")
  {
    var x := AddDirectory(st, me, rid, parent, req).value.repos[rid];
    var dir := Stored(req);
    var f := dir.files[0];
    assert f.addedAt.None?;
    var p := AddDirectoryFiles(st, me, rid, parent, req);
    var before := st.repos[rid];
    var prior := CollectAllFiles(before.files, before.directories);
    assert FilesOf([dir]) == dir.files + FilesOf(dir.subdirectories) + FilesOf([dir][1..]);
    assert f in FilesOf([dir]);
    assert RepoFiles(x) == prior[..p] + FilesOf([dir]) + prior[p..];
    assert f in RepoFiles(x);
    assert me.email in x.members;
    assert MemberOf([x], me.email) == [x] by {
      assert [x][1..] == [];
    }
    assert Take([x], RecentLimit) == [x];
    assert f in RecentPool([x], me);
  }

  // ---------------------------------------------------------------------------
  // Pinning.

  function Pin(st: Store, me: User, rid: RepoId): (r: Result<Store>)
    ensures rid !in st.repos ==> r == Fail(404, "Repo not found")
    ensures rid in st.repos && rid in me.pinnedRepos ==> r == Fail(400, "Repo already pinned")
    ensures rid in st.repos && rid !in me.pinnedRepos && |me.pinnedRepos| >= PinLimit ==>
              r == Fail(400, "You can only pin a maximum of 5 repos")
    ensures r.Ok? <==> rid in st.repos && rid !in me.pinnedRepos && |me.pinnedRepos| < PinLimit
    ensures r.Ok? ==> r.value == st.(users := UpdateUsers(st.users, ById(me.id), PinnedRepos, Push(rid)))
  {
    if rid !in st.repos then Fail(404, "Repo not found")
    else if rid in me.pinnedRepos then Fail(400, "Repo already pinned")
    else if |me.pinnedRepos| >= PinLimit then Fail(400, "You can only pin a maximum of 5 repos")
    else Ok(st.(users := UpdateUsers(st.users, ById(me.id), PinnedRepos, Push(rid))))
  }

  function Unpin(st: Store, me: User, rid: RepoId): (r: Result<Store>)
    ensures rid !in st.repos ==> r == Fail(404, "Repo not found")
    ensures rid in st.repos && rid !in me.pinnedRepos ==> r == Fail(400, "Repo not pinned")
    ensures r.Ok? <==> rid in st.repos && rid in me.pinnedRepos
    ensures r.Ok? ==> r.value == st.(users := UpdateUsers(st.users, ById(me.id), PinnedRepos, Pull(rid)))
  {
    if rid !in st.repos then Fail(404, "Repo not found")
    else if rid !in me.pinnedRepos then Fail(400, "Repo not pinned")
    else Ok(st.(users := UpdateUsers(st.users, ById(me.id), PinnedRepos, Pull(rid))))
  }

  /** For a caller whose stored document is the one the request saw, pinning keeps the pinned
      list free of repeats and at most five long, and appends the repository last. */
  lemma PinKeepsLimit(st: Store, me: User, rid: RepoId)
    requires me.id in st.users && st.users[me.id] == me
    requires NoDup(me.pinnedRepos) && |me.pinnedRepos| <= PinLimit
    requires Pin(st, me, rid).Ok?
    ensures var pinned := Pin(st, me, rid).value.users[me.id].pinnedRepos;
            pinned == me.pinnedRepos + [rid] && NoDup(pinned) && |pinned| <= PinLimit
  {
    var pinned := Pin(st, me, rid).value.users[me.id].pinnedRepos;
    assert pinned == me.pinnedRepos + [rid];
  }

  /** Unpinning what was just pinned gives back the caller's pinned list. */
  lemma UnpinUndoesPin(st: Store, me: User, rid: RepoId)
    requires me.id in st.users && st.users[me.id] == me
    requires Pin(st, me, rid).Ok?
    ensures var pinned := Pin(st, me, rid).value;
            var me2 := pinned.users[me.id];
            var unpinned := Unpin(pinned, me2, rid);
            unpinned.Ok? && unpinned.value.users[me.id].pinnedRepos == me.pinnedRepos
  {
    var me2 := Pin(st, me, rid).value.users[me.id];
    assert me2.pinnedRepos == me.pinnedRepos + [rid];
    assert me2.id == me.id;
    RemoveAllAppend(me.pinnedRepos, [rid], rid);
    RemoveAllAbsent(me.pinnedRepos, rid);
    assert RemoveAll([rid], rid) == [];
  }

  // ---------------------------------------------------------------------------
  // Creation and membership.

  /** What a successful create returns: the store, the new id, the unknown and the repeated addresses. */
  datatype Created = Created(st: Store, id: RepoId, nonExistent: seq<Email>, duplicates: seq<Email>)

  predicate OwnsNamed(repos: map<RepoId, Repo>, me: User, name: string) {
    exists k | k in repos :: repos[k].name == name && repos[k].ownerId == me.id
  }

  /** The writes shared by both versions of `create_repo`: the document, the owner's
      `owned_repos`, and `member_repos` of every stored member in list order. */
  function InsertRepo(st: Store, me: User, newId: RepoId, repo: Repo): (r: Store)
    ensures r == st.(repos := st.repos[newId := repo], users := r.users)
    ensures r.users == PushToEach(UpdateUsers(st.users, ById(me.id), OwnedRepos, Push(newId)), repo.members, MemberRepos, newId)
    ensures r.users.Keys == st.users.Keys
    ensures forall id | id in st.users && st.users[id].id == me.id :: newId in Refs(r.users[id], OwnedRepos)
    ensures forall id | id in st.users && st.users[id].email in repo.members :: newId in Refs(r.users[id], MemberRepos)
  {
    var users := PushToEach(UpdateUsers(st.users, ById(me.id), OwnedRepos, Push(newId)), repo.members, MemberRepos, newId);
    OwnerThenMembersListedAll(st.users, me.id, repo.members, newId, OwnedRepos, MemberRepos);
    st.(repos := st.repos[newId := repo], users := users)
  }


  /** `create_repo` as written: the repeats are collected for the response, but the stored
      member list is `check_members_exist`'s, which keeps every repeat. */
  function CreateRepoAsWritten(st: Store, me: User, newId: RepoId, name: string, requested: seq<Email>, now: int): (r: Result<Created>)
    requires newId !in st.repos
    ensures r.Err? <==> OwnsNamed(st.repos, me, name)
    ensures r.Err? ==> r.error == HttpError(400, "You already have a repository with this name")
    ensures r.Ok? ==> r.value.id == newId && newId in r.value.st.repos
                      && r.value.st.repos[newId].members == CheckMembersExist(requested, me, st.users).0
                      && r.value.nonExistent == CheckMembersExist(requested, me, st.users).1
    ensures r.Ok? ==> newId in r.value.st.repos
                      && r.value.st.repos[newId] == Repo(name, me.id, r.value.st.repos[newId].members, [], [], now)
                      && r.value.st == InsertRepo(st, me, newId, r.value.st.repos[newId])
    ensures r.Ok? ==> newId in r.value.st.repos
                      && var members := r.value.st.repos[newId].members;
                         |members| >= 1 && members[0] == me.email
                         && multiset(members[1..]) + multiset(r.value.nonExistent) == multiset(requested)
                         && forall e | e in members[1..] :: e in requested && e in Registered(st.users)
  {
    if OwnsNamed(st.repos, me, name) then Fail(400, "You already have a repository with this name")
    else
      var dups := PartitionFrom(requested, {me.email}, Registered(st.users)).duplicates;
      var split := CheckMembersExist(requested, me, st.users);
      var repo := Repo(name, me.id, split.0, [], [], now);
      Ok(Created(InsertRepo(st, me, newId, repo), newId, split.1, dups))
  }

  /** `create_repo` as evidently intended, the way `create_group` does it: the creator first,
      then every registered address at its first occurrence, never the creator twice. */
  function CreateRepo(st: Store, me: User, newId: RepoId, name: string, requested: seq<Email>, now: int): (r: Result<Created>)
    requires newId !in st.repos
    ensures r.Err? <==> OwnsNamed(st.repos, me, name)
    ensures r.Err? ==> r.error == HttpError(400, "You already have a repository with this name")
    ensures r.Ok? ==> r.value.id == newId && newId in r.value.st.repos
                      && r.value.st.repos[newId].members == [me.email] + PartitionFrom(requested, {me.email}, Registered(st.users)).valid
    ensures r.Ok? ==> newId in r.value.st.repos
                      && r.value.st.repos[newId] == Repo(name, me.id, r.value.st.repos[newId].members, [], [], now)
                      && r.value.st == InsertRepo(st, me, newId, r.value.st.repos[newId])
    ensures r.Ok? ==> newId in r.value.st.repos
                      && var members := r.value.st.repos[newId].members;
                         |members| >= 1 && members[0] == me.email && NoDup(members)
                         && (forall e :: e in members <==> e == me.email || (e in requested && e in Registered(st.users)))
                         && (forall e :: e in r.value.nonExistent <==> e in requested && e != me.email && e !in Registered(st.users))
                         && r.value.st.repos[newId].ownerId == me.id
                         && r.value.st.repos[newId].files == [] && r.value.st.repos[newId].directories == []
  {
    if OwnsNamed(st.repos, me, name) then Fail(400, "You already have a repository with this name")
    else
      var part := PartitionFrom(requested, {me.email}, Registered(st.users));
      var members := [me.email] + part.valid;
      assert members[1..] == part.valid;
      NoDupCons(me.email, part.valid);
      var repo := Repo(name, me.id, members, [], [], now);
      Ok(Created(InsertRepo(st, me, newId, repo), newId, part.missing, part.duplicates))
  }

  /** The repeat the code lets through: asking for a registered address twice stores it twice
      (and pushes the repository onto that user's `member_repos` twice), where the intended
      create stores it once. */
  lemma CreateRepoStoresRepeats(st: Store, me: User, newId: RepoId, name: string, b: Email, now: int)
    requires newId !in st.repos && !OwnsNamed(st.repos, me, name)
    requires b in Registered(st.users) && b != me.email
    ensures CreateRepoAsWritten(st, me, newId, name, [b, b], now).value.st.repos[newId].members == [me.email, b, b]
    ensures !NoDup(CreateRepoAsWritten(st, me, newId, name, [b, b], now).value.st.repos[newId].members)
    ensures CreateRepo(st, me, newId, name, [b, b], now).value.st.repos[newId].members == [me.email, b]
  {
    StoredAsWritten(st, me, newId, name, b, now);
    StoredOnce(st, me, newId, name, b, now);
    var stored := [me.email, b, b];
    assert stored[1] == stored[2];
  }

  lemma StoredAsWritten(st: Store, me: User, newId: RepoId, name: string, b: Email, now: int)
    requires newId !in st.repos && !OwnsNamed(st.repos, me, name)
    requires b in Registered(st.users)
    ensures CreateRepoAsWritten(st, me, newId, name, [b, b], now).value.st.repos[newId].members == [me.email, b, b]
  {
    RegisteredTwice(me, st.users, b);
  }

  lemma StoredOnce(st: Store, me: User, newId: RepoId, name: string, b: Email, now: int)
    requires newId !in st.repos && !OwnsNamed(st.repos, me, name)
    requires b in Registered(st.users) && b != me.email
    ensures CreateRepo(st, me, newId, name, [b, b], now).value.st.repos[newId].members == [me.email, b]
  {
    var known := Registered(st.users);
    FirstOccurrenceOnly(me.email, known, b);
    assert [me.email] + PartitionFrom([b, b], {me.email}, known).valid == [me.email, b];
  }

  lemma RegisteredTwice(me: User, users: map<UserId, User>, b: Email)
    requires b in Registered(users)
    ensures CheckMembersExist([b, b], me, users).0 == [me.email, b, b]
  {
    var known := Registered(users);
    assert [b, b][1..] == [b] && [b][1..] == [];
    assert SplitKnown([], known) == ([], []);
    assert [b] + [] == [b] && [b] + [b] == [b, b];
    assert SplitKnown([b], known) == ([b], []);
    assert SplitKnown([b, b], known) == ([b, b], []);
  }

  lemma FirstOccurrenceOnly(creator: Email, known: set<Email>, b: Email)
    requires b in known && b != creator
    ensures PartitionFrom([b, b], {creator}, known).valid == [b]
  {
    assert [b, b][1..] == [b] && [b][1..] == [];
    assert PartitionFrom([b], {creator, b}, known).valid == [];
    assert [b] + [] == [b];
  }

  /** `update_repo_details`: the owner may rename and add members. An unknown address ends the
      request before anything is written; a request that would change nothing is refused. */
  function UpdateRepo(st: Store, me: User, rid: RepoId, newName: Option<string>, requested: Option<seq<Email>>): (r: Result<(Store, seq<Email>)>)
    ensures rid !in st.repos ==> r == Fail(404, "Repo not found")
    ensures rid in st.repos && st.repos[rid].ownerId != me.id ==> r == Fail(403, "Only the repo admin can update the repo")
    ensures r.Ok? && |r.value.1| > 0 ==>
              r.value.0 == st && requested.Some?
              && forall e | e in r.value.1 :: e in requested.value && e !in Registered(st.users)
    ensures r.Ok? && |r.value.1| > 0 ==>
              rid in st.repos && requested.Some?
              && r.value.1 == SplitNew(requested.value, st.repos[rid].members, Registered(st.users)).1
    ensures r.Ok? && |r.value.1| == 0 ==>
              RepoEdit(st, r.value.0, rid) && r.value.0.blobs == st.blobs && r.value.0.repos[rid] != st.repos[rid]
              && var before := st.repos[rid];
                 var after := r.value.0.repos[rid];
                 after == before.(name := after.name, members := after.members)
                 && after.name == (if Truthy(newName) then newName.value else before.name)
                 && forall e :: e in after.members <==> e in before.members || (requested.Some? && e in requested.value)
    ensures rid in st.repos && st.repos[rid].ownerId == me.id && requested.Some?
            && (exists e | e in requested.value :: e !in st.repos[rid].members && e !in Registered(st.users)) ==>
              r.Ok? && |r.value.1| > 0
    ensures rid in st.repos && st.repos[rid].ownerId == me.id
            && (requested.Some? ==> forall e | e in requested.value :: e in st.repos[rid].members || e in Registered(st.users)) ==>
              (r.Err? <==> (!Truthy(newName) || newName.value == st.repos[rid].name)
                           && (requested.None? || forall e | e in requested.value :: e in st.repos[rid].members))
              && (r.Err? ==> r == Fail(404, "No changes made"))
              && (r.Ok? ==> |r.value.1| == 0)
  {
    if rid !in st.repos then Fail(404, "Repo not found")
    else
      var repo := st.repos[rid];
      if repo.ownerId != me.id then Fail(403, "Only the repo admin can update the repo")
      else
        match PlanMembers(repo.members, requested, Registered(st.users))
        case Abort(missing) => Ok((st, missing))
        case Members(members) =>
          var updated := repo.(name := if Truthy(newName) then newName.value else repo.name, members := members);
          assert members != repo.members <==> requested.Some? && exists e | e in requested.value :: e !in repo.members;
          if updated == repo then Fail(404, "No changes made")
          else Ok((st.(repos := st.repos[rid := updated]), []))
  }

  /** Sending the same update again changes nothing: the first one already stored the name and
      every requested member, so the second is refused. */
  lemma UpdateRepoTwiceRefused(st: Store, me: User, rid: RepoId, newName: Option<string>, requested: Option<seq<Email>>)
    requires UpdateRepo(st, me, rid, newName, requested).Ok? && |UpdateRepo(st, me, rid, newName, requested).value.1| == 0
    ensures UpdateRepo(UpdateRepo(st, me, rid, newName, requested).value.0, me, rid, newName, requested)
            == Fail(404, "No changes made")
  {
    var after := UpdateRepo(st, me, rid, newName, requested).value.0;
    assert after.repos[rid].ownerId == me.id;
  }

  /** `delete_repo`: the document goes, then the owner's `owned_repos` and every member's
      `member_repos` lose the id. */
  function DeleteRepo(st: Store, me: User, rid: RepoId): (r: Result<Store>)
    ensures rid !in st.repos ==> r == Fail(404, "Repo not found")
    ensures rid in st.repos && st.repos[rid].ownerId != me.id ==> r == Fail(403, "Only the repo admin can delete the repo")
    ensures r.Ok? <==> rid in st.repos && st.repos[rid].ownerId == me.id
    ensures r.Ok? ==> r.value.repos == st.repos - {rid} && r.value.groups == st.groups && r.value.blobs == st.blobs
    ensures r.Ok? ==> r.value.users.Keys == st.users.Keys
    ensures r.Ok? ==> r.value == st.(repos := st.repos - {rid}, users := r.value.users)
                      && r.value.users == PullFromEach(UpdateUsers(st.users, ById(me.id), OwnedRepos, Pull(rid)),
                                                       st.repos[rid].members, MemberRepos, rid)
    ensures r.Ok? ==> forall id | id in st.users ::
                        Profile(r.value.users[id]) == Profile(st.users[id])
                        && Refs(r.value.users[id], PinnedRepos) == Refs(st.users[id], PinnedRepos)
                        && (st.users[id].id == me.id ==> rid !in Refs(r.value.users[id], OwnedRepos))
  {
    if rid !in st.repos then Fail(404, "Repo not found")
    else if st.repos[rid].ownerId != me.id then Fail(403, "Only the repo admin can delete the repo")
    else
      var owned := UpdateUsers(st.users, ById(me.id), OwnedRepos, Pull(rid));
      var users := PullFromEach(owned, st.repos[rid].members, MemberRepos, rid);
      OwnerThenMembersUnlistedAll(st.users, me.id, st.repos[rid].members, rid, OwnedRepos, MemberRepos);
      Ok(st.(repos := st.repos - {rid}, users := users))
  }

  /** After a delete no member of the repository still lists it among `member_repos`. */
  lemma DeleteRepoClearsMembers(st: Store, me: User, rid: RepoId, id: UserId)
    requires DeleteRepo(st, me, rid).Ok?
    requires id in st.users && st.users[id].email in st.repos[rid].members
    ensures rid !in DeleteRepo(st, me, rid).value.users[id].memberRepos
  {
    var owned := UpdateUsers(st.users, ById(me.id), OwnedRepos, Pull(rid));
    var users := PullFromEach(owned, st.repos[rid].members, MemberRepos, rid);
    assert DeleteRepo(st, me, rid).value.users == users;
    assert Profile(owned[id]) == Profile(st.users[id]);
    PullFromEachClears(owned, st.repos[rid].members, MemberRepos, rid, id);
    assert users[id].memberRepos == Refs(users[id], MemberRepos);
  }

  function RemoveMember(st: Store, me: User, rid: RepoId, email: Email): (r: Result<Store>)
    ensures rid !in st.repos ==> r == Fail(404, "Repo not found")
    ensures rid in st.repos && st.repos[rid].ownerId != me.id ==> r == Fail(403, "Only the repo admin can remove members")
    ensures Owns(st, me, rid) && email == me.email ==> r == Fail(400, "You cannot remove yourself from the repo")
    ensures Owns(st, me, rid) && email != me.email && email !in st.repos[rid].members ==>
              r == Fail(400, "Member not found in the repo")
    ensures r.Ok? <==> Owns(st, me, rid) && email != me.email && email in st.repos[rid].members
    ensures r.Ok? ==> r.value.repos == st.repos[rid := st.repos[rid].(members := RemoveAll(st.repos[rid].members, email))]
    ensures r.Ok? ==> r.value.users == UpdateUsers(st.users, ByEmail(email), MemberRepos, Pull(rid))
    ensures r.Ok? ==> r.value == st.(repos := r.value.repos, users := r.value.users)
  {
    if rid !in st.repos then Fail(404, "Repo not found")
    else
      var repo := st.repos[rid];
      if repo.ownerId != me.id then Fail(403, "Only the repo admin can remove members")
      else if email == me.email then Fail(400, "You cannot remove yourself from the repo")
      else if email !in repo.members then Fail(400, "Member not found in the repo")
      else
        Ok(st.(repos := st.repos[rid := repo.(members := RemoveAll(repo.members, email))],
               users := UpdateUsers(st.users, ByEmail(email), MemberRepos, Pull(rid))))
  }

  function AddMember(st: Store, me: User, rid: RepoId, email: Email): (r: Result<Store>)
    ensures rid !in st.repos ==> r == Fail(404, "Repo not found")
    ensures rid in st.repos && st.repos[rid].ownerId != me.id ==> r == Fail(403, "Only the repo admin can add members")
    ensures Owns(st, me, rid) && email in st.repos[rid].members ==> r == Fail(400, "Member already exists in the repo")
    ensures Owns(st, me, rid) && email !in st.repos[rid].members && email !in Registered(st.users) ==>
              r == Fail(404, "Member not found")
    ensures r.Ok? <==> Owns(st, me, rid) && email !in st.repos[rid].members && email in Registered(st.users)
    ensures r.Ok? ==> r.value.repos == st.repos[rid := st.repos[rid].(members := st.repos[rid].members + [email])]
    ensures r.Ok? ==> r.value.users == UpdateUsers(st.users, ByEmail(email), MemberRepos, Push(rid))
    ensures r.Ok? ==> r.value == st.(repos := r.value.repos, users := r.value.users)
  {
    if rid !in st.repos then Fail(404, "Repo not found")
    else
      var repo := st.repos[rid];
      if repo.ownerId != me.id then Fail(403, "Only the repo admin can add members")
      else if email in repo.members then Fail(400, "Member already exists in the repo")
      else if email !in Registered(st.users) then Fail(404, "Member not found")
      else
        Ok(st.(repos := st.repos[rid := repo.(members := repo.members + [email])],
               users := UpdateUsers(st.users, ByEmail(email), MemberRepos, Push(rid))))
  }

  /** Removing a member just added gives back the repository's member list. */
  lemma RemoveMemberUndoesAdd(st: Store, me: User, rid: RepoId, email: Email)
    requires AddMember(st, me, rid, email).Ok? && email != me.email
    ensures var added := AddMember(st, me, rid, email).value;
            var removed := RemoveMember(added, me, rid, email);
            removed.Ok? && removed.value.repos[rid] == st.repos[rid]
  {
    var repo := st.repos[rid];
    var ms := repo.members;
    var added := AddMember(st, me, rid, email).value;
    assert added.repos[rid] == repo.(members := ms + [email]);
    var removed := RemoveMember(added, me, rid, email);
    assert removed.Ok?;
    assert removed.value.repos[rid] == repo.(members := RemoveAll(ms + [email], email));
    RemoveAllAppend(ms, [email], email);
    RemoveAllAbsent(ms, email);
    assert RemoveAll([email], email) == [];
  }

  // ---------------------------------------------------------------------------
  // A whole session on one repository.

  /** Create a repository, add "docs" at its root, upload "a.txt" into it, try the same upload
      again (refused as a conflict), delete "docs": the repository holds no file any more. */
  lemma DocsScenario(st: Store, me: User, newId: RepoId, content: seq<byte>, cfg: S3.Config, now: int)
    requires newId !in st.repos && !OwnsNamed(st.repos, me, "R") && |content| <= S3.MaxFileSize
    ensures var c := CreateRepo(st, me, newId, "R", [], now);
            c.Ok?
            && var s1 := AddDirectory(c.value.st, me, newId, None, DirectoryCreate("docs", [], []));
            s1.Ok?
            && var s2 := AddFile(s1.value, me, newId, Some("docs"), "a.txt", content, cfg, now);
            s2.Ok?
            && AddFile(s2.value, me, newId, Some("docs"), "a.txt", content, cfg, now) == Fail(400, "File already exists in the directory")
            && var s3 := DeleteDirectory(s2.value, me, newId, "docs");
            s3.Ok?
            && RepoFiles(s3.value.repos[newId]) == []
  {
    var docs := DirectoryCreate("docs", [], []);
    assert Stored(docs) == Directory("docs", [], []);
    var c := CreateRepo(st, me, newId, "R", [], now);
    var st0 := c.value.st;
    assert Owns(st0, me, newId);
    assert st0.repos[newId].directories == [] && st0.repos[newId].files == [];
    var s1 := AddDirectory(st0, me, newId, None, docs).value;
    assert s1.repos[newId].directories == [Directory("docs", [], [])];
    UploadTwiceThenDelete(s1, me, newId, content, cfg, now);
  }

  /** The second half of the session, from a repository holding only an empty "docs". */
  lemma UploadTwiceThenDelete(s1: Store, me: User, newId: RepoId, content: seq<byte>, cfg: S3.Config, now: int)
    requires Owns(s1, me, newId) && |content| <= S3.MaxFileSize
    requires s1.repos[newId].directories == [Directory("docs", [], [])] && s1.repos[newId].files == []
    ensures var s2 := AddFile(s1, me, newId, Some("docs"), "a.txt", content, cfg, now);
            s2.Ok?
            && AddFile(s2.value, me, newId, Some("docs"), "a.txt", content, cfg, now) == Fail(400, "File already exists in the directory")
            && var s3 := DeleteDirectory(s2.value, me, newId, "docs");
            s3.Ok?
            && RepoFiles(s3.value.repos[newId]) == []
  {
    var docs := Directory("docs", [], []);
    assert Find([docs], "docs") == Some(docs);
    var s2 := AddFile(s1, me, newId, Some("docs"), "a.txt", content, cfg, now).value;
    var entry := File("a.txt", S3.GetRepoFileUrl(cfg, "a.txt"), Some(now));
    var docs2 := docs.(files := [entry]);
    assert [docs][1..] == [];
    assert docs.files + [entry] == [entry];
    assert Apply(AppendFile(entry), docs) == docs2;
    assert EditFirst([docs], "docs", AppendFile(entry)) == [docs2];
    assert s2.repos[newId].directories == [docs2];
    assert Find([docs2], "docs") == Some(docs2);
    assert entry in docs2.files;
    assert FirstNamed([docs2], "docs") == Some(docs2);
    assert RemoveAll([docs2], docs2) == [] by {
      assert [docs2][1..] == [];
    }
    var s3 := DeleteDirectory(s2, me, newId, "docs").value;
    assert s3.repos[newId].files == [] && s3.repos[newId].directories == [];
  }
}

=== FILE: s3.dfy ===
/** Object keys and public URLs of the blob store. Every helper builds its key
    from a fixed folder prefix and the bare file name (or e-mail address); the
    store itself is a map from key to bytes. */
module S3 {
  import opened Common
  import opened Store

  type Blobs = map<string, seq<byte>>

  /** The bucket name and region read from the environment. */
  datatype Config = Config(bucket: string, region: string)

  const RepoFolder := "Repo_Documents/"
  const GroupFolder := "Group_Documents/"
  const ProfileFolder := "profile_pictures/"

  /** The upload limit of both file routes when no `MAX_FILE_SIZE` is configured: 10 MB. */
  const MaxFileSize := 10 * 1024 * 1024
  const SizeDetail := "File size exceeds the allowed limit of 10 MB"

  function RepoKey(filename: string): string { RepoFolder + filename }
  function GroupKey(filename: string): string { GroupFolder + filename }
  function ProfileKey(email: Email): string { ProfileFolder + email }

  /** `https://{bucket}.s3.{region}.amazonaws.com/{key}` */
  function UrlPrefix(cfg: Config): string {
    "https://" + cfg.bucket + ".s3." + cfg.region + ".amazonaws.com/"
  }

  function ObjectUrl(cfg: Config, key: string): string {
    UrlPrefix(cfg) + key
  }

  /** Distinct keys have distinct URLs under one configuration. */
  lemma ObjectUrlInjective(cfg: Config, k1: string, k2: string)
    ensures ObjectUrl(cfg, k1) == ObjectUrl(cfg, k2) <==> k1 == k2
  {
    if ObjectUrl(cfg, k1) == ObjectUrl(cfg, k2) {
      var n := |UrlPrefix(cfg)|;
      assert k1 == ObjectUrl(cfg, k1)[n..];
      assert k2 == ObjectUrl(cfg, k2)[n..];
    }
  }

  /** A key determines the file name it was built from, and the three folders never share a key. */
  lemma KeysDetermineNames(a: string, b: string)
    ensures RepoKey(a) == RepoKey(b) <==> a == b
    ensures GroupKey(a) == GroupKey(b) <==> a == b
    ensures ProfileKey(a) == ProfileKey(b) <==> a == b
    ensures RepoKey(a) != GroupKey(b) && RepoKey(a) != ProfileKey(b) && GroupKey(a) != ProfileKey(b)
  {
    if RepoKey(a) == RepoKey(b) {
      assert a == RepoKey(a)[|RepoFolder|..];
      assert b == RepoKey(b)[|RepoFolder|..];
    }
    if GroupKey(a) == GroupKey(b) {
      assert a == GroupKey(a)[|GroupFolder|..];
      assert b == GroupKey(b)[|GroupFolder|..];
    }
    if ProfileKey(a) == ProfileKey(b) {
      assert a == ProfileKey(a)[|ProfileFolder|..];
      assert b == ProfileKey(b)[|ProfileFolder|..];
    }
    assert RepoKey(a)[0] == 'R' && GroupKey(b)[0] == 'G' && ProfileKey(b)[0] == 'p';
    assert GroupKey(a)[0] == 'G';
  }

  // ---------------------------------------------------------------------------
  // Repository documents.

  /** `get_file_from_s3`: the URL of a repository document, computed without touching the store. */
  function GetRepoFileUrl(cfg: Config, filename: string): (url: string)
    ensures url == ObjectUrl(cfg, RepoKey(filename))
  {
    UrlPrefix(cfg) + RepoFolder + filename
  }

  /** `upload_file_to_s3`: store the bytes under the document's key and return its URL. */
  function UploadRepoFile(blobs: Blobs, cfg: Config, filename: string, content: seq<byte>): (r: (Blobs, string))
    ensures r.0.Keys == blobs.Keys + {RepoKey(filename)}
    ensures r.0[RepoKey(filename)] == content
    ensures forall k | k in blobs && k != RepoKey(filename) :: r.0[k] == blobs[k]
    ensures r.1 == GetRepoFileUrl(cfg, filename)
  {
    (blobs[RepoKey(filename) := content], ObjectUrl(cfg, RepoKey(filename)))
  }

  /** `delete_file_from_s3`: drop the document's key, whatever repository uploaded it. */
  function DeleteRepoFile(blobs: Blobs, filename: string): (r: Blobs)
    ensures r.Keys == blobs.Keys - {RepoKey(filename)}
    ensures forall k | k in r :: r[k] == blobs[k]
  {
    blobs - {RepoKey(filename)}
  }

  /** Deleting by file name removes exactly what uploading that file name added. */
  lemma DeleteUndoesUpload(blobs: Blobs, cfg: Config, filename: string, content: seq<byte>)
    ensures DeleteRepoFile(UploadRepoFile(blobs, cfg, filename, content).0, filename) == blobs - {RepoKey(filename)}
  {
  }

  /** Keys ignore the repository: a second upload of an equal file name, from any repository,
      overwrites the first one's bytes and returns the same URL. */
  lemma EqualNamesShareObject(blobs: Blobs, cfg: Config, filename: string, first: seq<byte>, second: seq<byte>)
    ensures UploadRepoFile(UploadRepoFile(blobs, cfg, filename, first).0, cfg, filename, second)
         == UploadRepoFile(blobs, cfg, filename, second)
  {
    var k := RepoKey(filename);
    assert blobs[k := first][k := second] == blobs[k := second];
  }

  // ---------------------------------------------------------------------------
  // Group documents.

  /** `upload_group_file_to_s3`. */
  function UploadGroupFile(blobs: Blobs, cfg: Config, filename: string, content: seq<byte>): (r: (Blobs, string))
    ensures r.0.Keys == blobs.Keys + {GroupKey(filename)}
    ensures r.0[GroupKey(filename)] == content
    ensures forall k | k in blobs && k != GroupKey(filename) :: r.0[k] == blobs[k]
    ensures r.1 == ObjectUrl(cfg, GroupKey(filename))
  {
    (blobs[GroupKey(filename) := content], UrlPrefix(cfg) + GroupFolder + filename)
  }

  /** `delete_group_file_from_s3`. */
  function DeleteGroupFile(blobs: Blobs, filename: string): (r: Blobs)
    ensures r.Keys == blobs.Keys - {GroupKey(filename)}
    ensures forall k | k in r :: r[k] == blobs[k]
  {
    blobs - {GroupKey(filename)}
  }

  /** `get_group_files_from_s3`: one `{filename, url}` per entry, in order, the URL rebuilt from the name. */
  function GroupFilesView(cfg: Config, files: seq<SentFile>): (r: seq<SentFile>)
    ensures |r| == |files|
    ensures forall i | 0 <= i < |r| :: r[i].filename == files[i].filename
    ensures forall i | 0 <= i < |r| :: r[i].url == ObjectUrl(cfg, GroupKey(files[i].filename))
  {
    if |files| == 0 then []
    else [SentFile(files[0].filename, ObjectUrl(cfg, GroupKey(files[0].filename)))] + GroupFilesView(cfg, files[1..])
  }

  /** Entries recorded from an upload are listed exactly as they were stored. */
  lemma GroupFilesViewOfUploads(cfg: Config, files: seq<SentFile>)
    requires forall f | f in files :: f.url == UploadGroupFile(map[], cfg, f.filename, []).1
    ensures GroupFilesView(cfg, files) == files
  {
    var r := GroupFilesView(cfg, files);
    assert forall i | 0 <= i < |files| :: files[i] in files;
  }

  // ---------------------------------------------------------------------------
  // Profile pictures.

  /** `file.filename.split(".")[0]`: the text before the first dot, or all of it. */
  function Stem(filename: string): (r: string)
    ensures '.' !in r
    ensures r <= filename
    ensures |r| < |filename| ==> filename[|r|] == '.'
  {
    if |filename| == 0 || filename[0] == '.' then ""
    else [filename[0]] + Stem(filename[1..])
  }

  /** `upload_profile_picture_to_s3`. */
  function UploadProfilePicture(blobs: Blobs, cfg: Config, email: Email, content: seq<byte>): (r: (Blobs, string))
    ensures r.0 == blobs[ProfileKey(email) := content]
    ensures r.1 == GetProfilePictureUrl(cfg, email)
  {
    (blobs[ProfileKey(email) := content], ObjectUrl(cfg, ProfileKey(email)))
  }

  /** `get_profile_picture_from_s3`. */
  function GetProfilePictureUrl(cfg: Config, email: Email): (url: string)
    ensures url == ObjectUrl(cfg, ProfileKey(email))
  {
    UrlPrefix(cfg) + ProfileFolder + email
  }

  /** `update_profile_picture_in_s3` as written: the bytes replace `profile_pictures/{email}`,
      but the URL returned names the key `profile_pictures/{email}&{stem}`. */
  function UpdateProfilePictureAsWritten(blobs: Blobs, cfg: Config, email: Email, filename: string, content: seq<byte>): (r: (Blobs, string))
    ensures r.0.Keys == blobs.Keys + {ProfileKey(email)} && r.0[ProfileKey(email)] == content
    ensures forall k | k in blobs && k != ProfileKey(email) :: r.0[k] == blobs[k]
    ensures r.1 == ObjectUrl(cfg, ProfileKey(email) + "&" + Stem(filename))
  {
    var cleared := blobs - {ProfileKey(email)};
    (cleared[ProfileKey(email) := content], UrlPrefix(cfg) + ProfileFolder + email + "&" + Stem(filename))
  }

  /** The URL the as-written update returns never addresses the object it stored. */
  lemma UpdatedUrlMissesStoredObject(blobs: Blobs, cfg: Config, email: Email, filename: string, content: seq<byte>)
    ensures UpdateProfilePictureAsWritten(blobs, cfg, email, filename, content).1 != GetProfilePictureUrl(cfg, email)
  {
    var url := UpdateProfilePictureAsWritten(blobs, cfg, email, filename, content).1;
    assert |url| > |GetProfilePictureUrl(cfg, email)|;
  }

  /** A concrete case: "a@x" uploading "me.png" gets back a URL for key "profile_pictures/a@x&me",
      which is not in the store after the call. */
  lemma UpdatedUrlExample(cfg: Config, content: seq<byte>)
    ensures var r := UpdateProfilePictureAsWritten(map[], cfg, "a@x", "me.png", content);
            r.1 == ObjectUrl(cfg, "profile_pictures/a@x&me") && "profile_pictures/a@x&me" !in r.0
  {
    assert Stem("me.png") == "me" by {
      assert "me.png"[0] == 'm' && "me.png"[1..] == "e.png";
      assert "e.png"[0] == 'e' && "e.png"[1..] == ".png";
      assert ".png"[0] == '.';
    }
    assert ProfileKey("a@x") == "profile_pictures/a@x";
  }

  /** `update_profile_picture_in_s3` with the URL it evidently means: the one of the object it stores. */
  function UpdateProfilePicture(blobs: Blobs, cfg: Config, email: Email, content: seq<byte>): (r: (Blobs, string))
    ensures exists k :: r.1 == ObjectUrl(cfg, k) && k in r.0 && r.0[k] == content
    ensures r.1 == GetProfilePictureUrl(cfg, email)
    ensures forall k | k in blobs && k != ProfileKey(email) :: k in r.0 && r.0[k] == blobs[k]
  {
    var cleared := blobs - {ProfileKey(email)};
    (cleared[ProfileKey(email) := content], ObjectUrl(cfg, ProfileKey(email)))
  }

  /** `delete_profile_picture_from_s3`: only a user whose `profile_picture_url` is set loses the object. */
  function DeleteProfilePicture(blobs: Blobs, user: User): (r: Blobs)
    ensures Truthy(user.profilePictureUrl) ==> r.Keys == blobs.Keys - {ProfileKey(user.email)}
    ensures !Truthy(user.profilePictureUrl) ==> r == blobs
    ensures forall k | k in r :: r[k] == blobs[k]
  {
    if Truthy(user.profilePictureUrl) then blobs - {ProfileKey(user.email)} else blobs
  }
}

=== FILE: sorting.dfy ===
/** Stable sorting by an integer key and "the first k after sorting".
    Python's `sorted(xs, key=k, reverse=True)` is stable, so it equals a stable
    ascending sort on the negated key; the model uses that one sort for both the
    ascending message history and the descending recent-files and notification views. */
module Sorting {
  import opened Common

  predicate SortedBy<T>(s: seq<T>, key: T -> int) {
    forall i, j | 0 <= i < j < |s| :: key(s[i]) <= key(s[j])
  }

  /** Place `x` before the first element whose key is not smaller, so that
      `x` stays ahead of elements with an equal key that came after it. */
  function Insert<T>(x: T, s: seq<T>, key: T -> int): (r: seq<T>)
    requires SortedBy(s, key)
    ensures SortedBy(r, key)
    ensures multiset(r) == multiset(s) + multiset{x}
    ensures |r| == |s| + 1
  {
    if |s| == 0 then [x]
    else if key(x) <= key(s[0]) then
      HeadIsLeast(s, key);
      ConsSorted(x, s, key);
      [x] + s
    else
      SortedTail(s, key);
      var rest := Insert(x, s[1..], key);
      assert s == [s[0]] + s[1..];
      HeadBelowInserted(s, x, rest, key);
      ConsSorted(s[0], rest, key);
      [s[0]] + rest
  }

  lemma SortedTail<T>(s: seq<T>, key: T -> int)
    requires |s| > 0 && SortedBy(s, key)
    ensures SortedBy(s[1..], key)
  {
    var t := s[1..];
    forall i, j | 0 <= i < j < |t| ensures key(t[i]) <= key(t[j]) {
      assert t[i] == s[i + 1] && t[j] == s[j + 1];
    }
  }

  lemma HeadIsLeast<T>(s: seq<T>, key: T -> int)
    requires |s| > 0 && SortedBy(s, key)
    ensures forall e | e in s :: key(s[0]) <= key(e)
  {
    forall e | e in s ensures key(s[0]) <= key(e) {
      var k :| 0 <= k < |s| && s[k] == e;
      if k > 0 { assert key(s[0]) <= key(s[k]); }
    }
  }

  /** Every element of the tail with `x` inserted has a key no smaller than the head's. */
  lemma HeadBelowInserted<T>(s: seq<T>, x: T, rest: seq<T>, key: T -> int)
    requires |s| > 0 && SortedBy(s, key) && key(s[0]) < key(x)
    requires multiset(rest) == multiset(s[1..]) + multiset{x}
    ensures forall e | e in rest :: key(s[0]) <= key(e)
  {
    HeadIsLeast(s, key);
    forall e | e in rest ensures key(s[0]) <= key(e) {
      assert e in multiset(rest);
      if e != x {
        assert e in multiset(s[1..]);
        assert e in s[1..];
        var k :| 0 <= k < |s[1..]| && s[1..][k] == e;
        assert s[k + 1] == e;
      }
    }
  }

  lemma ConsSorted<T>(h: T, rest: seq<T>, key: T -> int)
    requires SortedBy(rest, key) && forall e | e in rest :: key(h) <= key(e)
    ensures SortedBy([h] + rest, key)
  {
    var r := [h] + rest;
    forall i, j | 0 <= i < j < |r| ensures key(r[i]) <= key(r[j]) {
      assert r[j] == rest[j - 1];
      assert rest[j - 1] in rest;
      if i > 0 {
        assert r[i] == rest[i - 1];
      }
    }
  }

  /** Stable insertion sort, ascending by `key`. */
  function SortBy<T>(s: seq<T>, key: T -> int): (r: seq<T>)
    ensures SortedBy(r, key)
    ensures multiset(r) == multiset(s)
    ensures |r| == |s|
  {
    if |s| == 0 then []
    else
      assert s == [s[0]] + s[1..];
      Insert(s[0], SortBy(s[1..], key), key)
  }

  /** The first `k` elements of `s` after a stable ascending sort: the `k`
      smallest keys, everything left behind having a key at least as large. */
  function SmallestK<T>(s: seq<T>, key: T -> int, k: nat): (r: seq<T>)
    ensures SortedBy(r, key)
    ensures |r| == if k < |s| then k else |s|
    ensures multiset(r) <= multiset(s)
    ensures forall x | x in multiset(s) - multiset(r) :: forall y | y in r :: key(y) <= key(x)
  {
    var sorted := SortBy(s, key);
    var n := if k < |s| then k else |s|;
    SplitSorted(sorted, key, n);
    sorted[..n]
  }

  /** Cutting a sorted sequence: what is cut off is the multiset difference, and
      every key in it is at least every key kept. */
  lemma SplitSorted<T>(sorted: seq<T>, key: T -> int, n: nat)
    requires SortedBy(sorted, key)
    requires n <= |sorted|
    ensures multiset(sorted[..n]) <= multiset(sorted)
    ensures multiset(sorted) - multiset(sorted[..n]) == multiset(sorted[n..])
    ensures forall x | x in multiset(sorted) - multiset(sorted[..n]) ::
              forall y | y in sorted[..n] :: key(y) <= key(x)
  {
    var r := sorted[..n];
    assert sorted == r + sorted[n..];
    assert multiset(sorted) == multiset(r) + multiset(sorted[n..]);
    forall x | x in multiset(sorted[n..])
      ensures forall y | y in r :: key(y) <= key(x)
    {
      var j :| 0 <= j < |sorted[n..]| && sorted[n..][j] == x;
      assert sorted[n + j] == x;
      forall y | y in r
        ensures key(y) <= key(x)
      {
        var i :| 0 <= i < |r| && r[i] == y;
        assert sorted[i] == y;
      }
    }
  }
}

=== FILE: store.dfy ===
/** The documents the backend keeps in its collections, and the whole store
    as one immutable value. A route reads the store and, on success, returns
    the store it writes back; an error leaves the caller holding the old store. */
module Store {
  import opened Common
  import opened Tree

  type UserId = string
  type Email = string
  type GroupId = string
  type RepoId = string

  newtype byte = x: int | 0 <= x < 256

  /** A `users` document. Back-references to groups and repositories are ids. */
  datatype User = User(
    id: UserId,
    username: string,
    email: Email,
    firstname: string,
    lastname: string,
    password: string,
    profilePictureUrl: Option<string>,
    ownedGroups: seq<GroupId>,
    memberGroups: seq<GroupId>,
    ownedRepos: seq<RepoId>,
    memberRepos: seq<RepoId>,
    pinnedRepos: seq<RepoId>)

  /** A `repositories` document; `members` holds e-mail addresses. */
  datatype Repo = Repo(
    name: string,
    ownerId: UserId,
    members: seq<Email>,
    files: seq<File>,
    directories: seq<Directory>,
    createdAt: int)

  /** An entry of a group's `sended_files`. */
  datatype SentFile = SentFile(filename: string, url: string)

  /** A `groups` document; `members` holds e-mail addresses. */
  datatype Group = Group(
    name: string,
    adminId: UserId,
    members: seq<Email>,
    sentFiles: seq<SentFile>,
    createdAt: int)

  datatype Message = Message(groupId: GroupId, senderEmail: Email, content: string, timestamp: int)

  /** A `notifications` document. `read` is `None` when the document has no `read` field.
      `id` stands for the document's `_id`. */
  datatype Notification = Notification(
    id: nat,
    groupId: Option<GroupId>,
    repoId: Option<RepoId>,
    sender: string,
    receiver: Option<Email>,
    content: string,
    kind: string,
    read: Option<bool>,
    timestamp: int)

  datatype Store = Store(
    users: map<UserId, User>,
    groups: map<GroupId, Group>,
    repos: map<RepoId, Repo>,
    messages: seq<Message>,
    notifications: seq<Notification>,
    blobs: map<string, seq<byte>>)

  /** The e-mail addresses that have a user document: `find_one({"email": e})` succeeds. */
  function Registered(users: map<UserId, User>): set<Email> {
    set id | id in users :: users[id].email
  }

  // ---------------------------------------------------------------------------
  // Array-field updates on user documents.

  /** The id lists kept on a user document. */
  datatype RefList = OwnedGroups | MemberGroups | OwnedRepos | MemberRepos | PinnedRepos

  function Refs(u: User, l: RefList): seq<string> {
    match l
    case OwnedGroups => u.ownedGroups
    case MemberGroups => u.memberGroups
    case OwnedRepos => u.ownedRepos
    case MemberRepos => u.memberRepos
    case PinnedRepos => u.pinnedRepos
  }

  /** `$push` appends; `$pull` removes every occurrence. */
  datatype ListOp = Push(v: string) | Pull(v: string)

  function ApplyOp(s: seq<string>, op: ListOp): seq<string> {
    match op
    case Push(v) => s + [v]
    case Pull(v) => RemoveAll(s, v)
  }

  /** Everything a user document holds apart from its id lists. */
  function Profile(u: User): (UserId, string, Email, string, string, string, Option<string>) {
    (u.id, u.username, u.email, u.firstname, u.lastname, u.password, u.profilePictureUrl)
  }

  function ChangeRefs(u: User, l: RefList, op: ListOp): (r: User)
    ensures Refs(r, l) == ApplyOp(Refs(u, l), op)
    ensures forall m: RefList | m != l :: Refs(r, m) == Refs(u, m)
    ensures Profile(r) == Profile(u)
    ensures r.id == u.id && r.email == u.email && r.profilePictureUrl == u.profilePictureUrl
  {
    var v := ApplyOp(Refs(u, l), op);
    match l
    case OwnedGroups => u.(ownedGroups := v)
    case MemberGroups => u.(memberGroups := v)
    case OwnedRepos => u.(ownedRepos := v)
    case MemberRepos => u.(memberRepos := v)
    case PinnedRepos => u.(pinnedRepos := v)
  }

  /** The filter of an `update_one`/`update_many` on `users`. E-mail addresses are unique
      (registration refuses a second account), so a filter on e-mail selects at most one document. */
  datatype Who = ById(id: UserId) | ByEmail(email: Email) | Everyone

  predicate Selects(w: Who, u: User) {
    match w
    case ById(id) => u.id == id
    case ByEmail(e) => u.email == e
    case Everyone => true
  }

  function UpdateUsers(users: map<UserId, User>, w: Who, l: RefList, op: ListOp): (r: map<UserId, User>)
    ensures r.Keys == users.Keys
    ensures Registered(r) == Registered(users)
    ensures forall id | id in users ::
              Refs(r[id], l) == (if Selects(w, users[id]) then ApplyOp(Refs(users[id], l), op) else Refs(users[id], l))
    ensures forall id | id in users :: Profile(r[id]) == Profile(users[id])
    ensures forall id, m: RefList | id in users && m != l :: Refs(r[id], m) == Refs(users[id], m)
    ensures forall id | id in users && !Selects(w, users[id]) :: r[id] == users[id]
  {
    var r := map id | id in users :: if Selects(w, users[id]) then ChangeRefs(users[id], l, op) else users[id];
    assert forall id | id in users :: r[id].email == users[id].email;
    r
  }

  /** `update_one({"email": e}, {"$push": {l: v}})` for each address of `emails`, in order. */
  function PushToEach(users: map<UserId, User>, emails: seq<Email>, l: RefList, v: string): (r: map<UserId, User>)
    ensures r.Keys == users.Keys
    ensures Registered(r) == Registered(users)
    ensures forall id | id in users :: Profile(r[id]) == Profile(users[id])
    ensures forall id, m: RefList | id in users && m != l :: Refs(r[id], m) == Refs(users[id], m)
  {
    if |emails| == 0 then users
    else PushToEach(UpdateUsers(users, ByEmail(emails[0]), l, Push(v)), emails[1..], l, v)
  }

  /** `update_one({"email": e}, {"$pull": {l: v}})` for each address of `emails`. */
  function PullFromEach(users: map<UserId, User>, emails: seq<Email>, l: RefList, v: string): (r: map<UserId, User>)
    ensures r.Keys == users.Keys
    ensures Registered(r) == Registered(users)
    ensures forall id | id in users :: Profile(r[id]) == Profile(users[id])
    ensures forall id, m: RefList | id in users && m != l :: Refs(r[id], m) == Refs(users[id], m)
  {
    if |emails| == 0 then users
    else PullFromEach(UpdateUsers(users, ByEmail(emails[0]), l, Pull(v)), emails[1..], l, v)
  }

  /** `update_one` succeeded on the e-mail `e`: the user with that address now lists `v`. */
  lemma PushToEachLists(users: map<UserId, User>, emails: seq<Email>, l: RefList, v: string, id: UserId)
    requires id in users && users[id].email in emails
    ensures v in Refs(PushToEach(users, emails, l, v)[id], l)
    decreases |emails|
  {
    if emails[0] == users[id].email {
      PushKeeps(UpdateUsers(users, ByEmail(emails[0]), l, Push(v)), emails[1..], l, v, id);
    } else {
      PushToEachLists(UpdateUsers(users, ByEmail(emails[0]), l, Push(v)), emails[1..], l, v, id);
    }
  }

  lemma {:induction false} PushKeeps(users: map<UserId, User>, emails: seq<Email>, l: RefList, v: string, id: UserId)
    requires id in users && v in Refs(users[id], l)
    ensures v in Refs(PushToEach(users, emails, l, v)[id], l)
    decreases |emails|
  {
    if |emails| > 0 {
      PushKeeps(UpdateUsers(users, ByEmail(emails[0]), l, Push(v)), emails[1..], l, v, id);
    }
  }

  /** `update_one` with `$pull` on the e-mail of a listed user: that user no longer lists `v`. */
  lemma {:induction false} PullFromEachClears(users: map<UserId, User>, emails: seq<Email>, l: RefList, v: string, id: UserId)
    requires id in users && users[id].email in emails
    ensures v !in Refs(PullFromEach(users, emails, l, v)[id], l)
    decreases |emails|
  {
    var next := UpdateUsers(users, ByEmail(emails[0]), l, Pull(v));
    if emails[0] == users[id].email {
      PullKeepsAbsent(next, emails[1..], l, v, id);
    } else {
      PullFromEachClears(next, emails[1..], l, v, id);
    }
  }

  lemma {:induction false} PullKeepsAbsent(users: map<UserId, User>, emails: seq<Email>, l: RefList, v: string, id: UserId)
    requires id in users && v !in Refs(users[id], l)
    ensures v !in Refs(PullFromEach(users, emails, l, v)[id], l)
    decreases |emails|
  {
    if |emails| > 0 {
      PullKeepsAbsent(UpdateUsers(users, ByEmail(emails[0]), l, Pull(v)), emails[1..], l, v, id);
    }
  }

  /** A new document's owner lists it in `owned`, and every listed member lists it in `member`:
      the owner's push is done first and the members' pushes touch another list. */
  lemma OwnerThenMembersListed(users: map<UserId, User>, owner: UserId, members: seq<Email>, v: string,
                               owned: RefList, member: RefList, id: UserId)
    requires id in users && owned != member
    ensures var r := PushToEach(UpdateUsers(users, ById(owner), owned, Push(v)), members, member, v);
            (users[id].id == owner ==> v in Refs(r[id], owned))
            && (users[id].email in members ==> v in Refs(r[id], member))
  {
    var first := UpdateUsers(users, ById(owner), owned, Push(v));
    assert Profile(first[id]) == Profile(users[id]);
    assert Refs(PushToEach(first, members, member, v)[id], owned) == Refs(first[id], owned);
    if users[id].email in members {
      PushToEachLists(first, members, member, v, id);
    }
  }

  /** A deleted document leaves its owner's `owned` list: the owner's pull is kept by the
      members' pulls, which touch another list. Profiles and the remaining lists are kept. */
  lemma OwnerThenMembersUnlisted(users: map<UserId, User>, owner: UserId, members: seq<Email>, v: string,
                                 owned: RefList, member: RefList, id: UserId)
    requires id in users && owned != member
    ensures var r := PullFromEach(UpdateUsers(users, ById(owner), owned, Pull(v)), members, member, v);
            id in r && Profile(r[id]) == Profile(users[id])
            && (users[id].id == owner ==> v !in Refs(r[id], owned))
            && forall l | l != owned && l != member :: Refs(r[id], l) == Refs(users[id], l)
  {
    var first := UpdateUsers(users, ById(owner), owned, Pull(v));
    var r := PullFromEach(first, members, member, v);
    assert Refs(first[id], owned) == (if users[id].id == owner then RemoveAll(Refs(users[id], owned), v) else Refs(users[id], owned));
    assert Refs(r[id], owned) == Refs(first[id], owned);
  }


  lemma OwnerThenMembersUnlistedAll(users: map<UserId, User>, owner: UserId, members: seq<Email>, v: string,
                                    owned: RefList, member: RefList)
    requires owned != member
    ensures var r := PullFromEach(UpdateUsers(users, ById(owner), owned, Pull(v)), members, member, v);
            forall id | id in users ::
              id in r && Profile(r[id]) == Profile(users[id])
              && (users[id].id == owner ==> v !in Refs(r[id], owned))
              && forall l | l != owned && l != member :: Refs(r[id], l) == Refs(users[id], l)
  {
    forall id | id in users {
      OwnerThenMembersUnlisted(users, owner, members, v, owned, member, id);
    }
  }

  lemma OwnerThenMembersListedAll(users: map<UserId, User>, owner: UserId, members: seq<Email>, v: string,
                                  owned: RefList, member: RefList)
    requires owned != member
    ensures var r := PushToEach(UpdateUsers(users, ById(owner), owned, Push(v)), members, member, v);
            forall id | id in users ::
              id in r && (users[id].id == owner ==> v in Refs(r[id], owned))
              && (users[id].email in members ==> v in Refs(r[id], member))
  {
    forall id | id in users {
      OwnerThenMembersListed(users, owner, members, v, owned, member, id);
    }
  }
}

=== FILE: tree.dfy ===
/** The directory tree embedded in a repository document: a forest of named
    directories, each holding files and further directories. Names are only
    unique among siblings, and lookups by name search the whole forest in
    pre-order, so the engine acts on the FIRST directory with a given name. */
module Tree {
  import opened Common

  /** A file entry of the tree; `url` points into the blob store. `addedAt` is the upload time,
      and `None` when the entry has no `added_at` field. */
  datatype File = File(filename: string, url: string, addedAt: Option<int>)

  datatype Directory = Directory(name: string, subdirectories: seq<Directory>, files: seq<File>)

  /** The request body of `add_directory`: a whole subtree whose files have a name and a URL
      but no upload time. */
  datatype FileCreate = FileCreate(filename: string, url: string)
  datatype DirectoryCreate = DirectoryCreate(name: string, subdirectories: seq<DirectoryCreate>, files: seq<FileCreate>)

  /** `directory.dict()`: the request stored as it came, so its files have no `added_at`. */
  function Stored(d: DirectoryCreate): (r: Directory)
    ensures r.name == d.name
    ensures |r.files| == |d.files|
    ensures forall i | 0 <= i < |d.files| :: r.files[i] == File(d.files[i].filename, d.files[i].url, None)
    ensures |r.subdirectories| == |d.subdirectories|
    ensures forall i | 0 <= i < |d.subdirectories| :: r.subdirectories[i] == Stored(d.subdirectories[i])
    decreases d
  {
    Directory(d.name,
              seq(|d.subdirectories|, i requires 0 <= i < |d.subdirectories| => Stored(d.subdirectories[i])),
              seq(|d.files|, i requires 0 <= i < |d.files| => File(d.files[i].filename, d.files[i].url, None)))
  }

  /** No file anywhere in the forest has an upload time. */
  predicate Unstamped(forest: seq<Directory>)
    decreases forest
  {
    forall i | 0 <= i < |forest| ::
      (forall f | f in forest[i].files :: f.addedAt.None?) && Unstamped(forest[i].subdirectories)
  }

  /** A stored request carries no upload time at any depth. */
  lemma {:induction false} StoredUnstamped(d: DirectoryCreate)
    ensures Unstamped([Stored(d)])
    decreases d
  {
    var r := Stored(d);
    forall i | 0 <= i < |r.subdirectories| ensures Unstamped([r.subdirectories[i]]) {
      StoredUnstamped(d.subdirectories[i]);
    }
    assert Unstamped(r.subdirectories) by {
      forall i | 0 <= i < |r.subdirectories|
        ensures (forall f | f in r.subdirectories[i].files :: f.addedAt.None?) && Unstamped(r.subdirectories[i].subdirectories)
      {
        assert [r.subdirectories[i]][0] == r.subdirectories[i];
      }
    }
  }

  /** ... so every file of its flattened list lacks `added_at`. */
  lemma {:induction false} UnstampedFiles(forest: seq<Directory>)
    requires Unstamped(forest)
    ensures forall f | f in FilesOf(forest) :: f.addedAt.None?
    decreases forest
  {
    if |forest| > 0 {
      assert forest[0] in forest;
      UnstampedFiles(forest[0].subdirectories);
      assert Unstamped(forest[1..]) by {
        forall i | 0 <= i < |forest[1..]|
          ensures (forall f | f in forest[1..][i].files :: f.addedAt.None?) && Unstamped(forest[1..][i].subdirectories)
        {
          assert forest[1..][i] == forest[i + 1];
        }
      }
      UnstampedFiles(forest[1..]);
    }
  }

  // ---------------------------------------------------------------------------
  // Reference views: the pre-order list of directories and the names in it.

  /** Every directory of the forest, each before its subtree, subtrees before later siblings. */
  function PreOrder(forest: seq<Directory>): seq<Directory>
    decreases forest
  {
    if |forest| == 0 then []
    else
      assert forest[0] in forest;
      [forest[0]] + PreOrder(forest[0].subdirectories) + PreOrder(forest[1..])
  }

  function Names(ds: seq<Directory>): (r: seq<string>)
    ensures |r| == |ds|
    ensures forall i | 0 <= i < |ds| :: r[i] == ds[i].name
  {
    if |ds| == 0 then [] else [ds[0].name] + Names(ds[1..])
  }

  /** The first directory of a list with the given name. */
  function FirstNamed(ds: seq<Directory>, name: string): (r: Option<Directory>)
    ensures r.None? <==> forall d | d in ds :: d.name != name
    ensures r.Some? ==> r.value in ds && r.value.name == name
    ensures r.Some? ==> exists i | 0 <= i < |ds| :: ds[i] == r.value && forall j | 0 <= j < i :: ds[j].name != name
  {
    if |ds| == 0 then None
    else if ds[0].name == name then Some(ds[0])
    else
      var rest := FirstNamed(ds[1..], name);
      if rest.Some? then
        var i :| 0 <= i < |ds[1..]| && ds[1..][i] == rest.value && forall j | 0 <= j < i :: ds[1..][j].name != name;
        assert ds[i + 1] == rest.value && forall j | 0 <= j < i + 1 :: ds[j].name != name;
        rest
      else rest
  }

  /** `find_directory_by_name`: the pre-order search of the forest, first match wins. */
  function Find(forest: seq<Directory>, name: string): (r: Option<Directory>)
    ensures r.Some? ==> r.value.name == name
    decreases forest
  {
    if |forest| == 0 then None
    else if forest[0].name == name then Some(forest[0])
    else
      assert forest[0] in forest;
      match Find(forest[0].subdirectories, name)
      case Some(d) => Some(d)
      case None => Find(forest[1..], name)
  }

  lemma {:induction false} FirstNamedAppend(a: seq<Directory>, b: seq<Directory>, name: string)
    ensures FirstNamed(a + b, name) == if FirstNamed(a, name).Some? then FirstNamed(a, name) else FirstNamed(b, name)
  {
    if |a| == 0 {
      assert a + b == b;
    } else {
      assert (a + b)[0] == a[0];
      assert (a + b)[1..] == a[1..] + b;
      FirstNamedAppend(a[1..], b, name);
    }
  }

  /** The recursive search returns exactly the first directory of the pre-order listing with that name. */
  lemma {:induction false} FindIsFirstInPreOrder(forest: seq<Directory>, name: string)
    ensures Find(forest, name) == FirstNamed(PreOrder(forest), name)
    decreases forest
  {
    if |forest| > 0 {
      var d := forest[0];
      assert d in forest;
      FindIsFirstInPreOrder(d.subdirectories, name);
      FindIsFirstInPreOrder(forest[1..], name);
      var sub := PreOrder(d.subdirectories);
      var rest := PreOrder(forest[1..]);
      var po := PreOrder(forest);
      assert po == [d] + (sub + rest);
      assert po[0] == d && po[1..] == sub + rest;
      if d.name != name {
        assert FirstNamed(po, name) == FirstNamed(sub + rest, name);
        FirstNamedAppend(sub, rest, name);
      }
    }
  }

  /** The search fails exactly when no directory at any depth carries the name. */
  lemma FindNoneIffAbsent(forest: seq<Directory>, name: string)
    ensures Find(forest, name).None? <==> forall d | d in PreOrder(forest) :: d.name != name
    ensures Find(forest, name).Some? ==> Find(forest, name).value in PreOrder(forest)
  {
    FindIsFirstInPreOrder(forest, name);
  }

  lemma {:induction false} PreOrderAppend(a: seq<Directory>, b: seq<Directory>)
    ensures PreOrder(a + b) == PreOrder(a) + PreOrder(b)
    decreases a
  {
    if |a| == 0 {
      assert a + b == b;
    } else {
      assert (a + b)[0] == a[0];
      assert (a + b)[1..] == a[1..] + b;
      PreOrderAppend(a[1..], b);
    }
  }

  lemma {:induction false} NamesAppend(a: seq<Directory>, b: seq<Directory>)
    ensures Names(a + b) == Names(a) + Names(b)
  {
  }

  // ---------------------------------------------------------------------------
  // Flattening.

  /** The files of every directory of the forest, in the order `collect_from_directory` visits them. */
  function FilesOf(forest: seq<Directory>): seq<File>
    decreases forest
  {
    if |forest| == 0 then []
    else
      assert forest[0] in forest;
      forest[0].files + FilesOf(forest[0].subdirectories) + FilesOf(forest[1..])
  }

  /** `collect_all_files`: the root files followed by the files of the directory forest. */
  function CollectAllFiles(rootFiles: seq<File>, forest: seq<Directory>): (r: seq<File>)
    ensures |r| == |rootFiles| + FileCount(PreOrder(forest))
    ensures r[..|rootFiles|] == rootFiles
    ensures r[|rootFiles|..] == FilesOfEach(PreOrder(forest))
  {
    FilesOfIsPreOrderFiles(forest);
    FileCountOfEach(PreOrder(forest));
    rootFiles + FilesOf(forest)
  }

  /** Concatenation of the `files` lists of a list of directories (no descent). */
  function FilesOfEach(ds: seq<Directory>): seq<File>
  {
    if |ds| == 0 then [] else ds[0].files + FilesOfEach(ds[1..])
  }

  /** Total number of files held directly by the directories of a list. */
  function FileCount(ds: seq<Directory>): nat
  {
    if |ds| == 0 then 0 else |ds[0].files| + FileCount(ds[1..])
  }

  lemma {:induction false} FileCountOfEach(ds: seq<Directory>)
    ensures |FilesOfEach(ds)| == FileCount(ds)
  {
    if |ds| > 0 {
      FileCountOfEach(ds[1..]);
    }
  }

  lemma {:induction false} FilesOfEachAppend(a: seq<Directory>, b: seq<Directory>)
    ensures FilesOfEach(a + b) == FilesOfEach(a) + FilesOfEach(b)
  {
    if |a| == 0 {
      assert a + b == b;
    } else {
      assert (a + b)[0] == a[0];
      assert (a + b)[1..] == a[1..] + b;
      FilesOfEachAppend(a[1..], b);
    }
  }

  /** Recursive collection visits the same files as reading every directory of the pre-order listing. */
  lemma {:induction false} FilesOfIsPreOrderFiles(forest: seq<Directory>)
    ensures FilesOf(forest) == FilesOfEach(PreOrder(forest))
    decreases forest
  {
    if |forest| > 0 {
      var d := forest[0];
      var rest := forest[1..];
      assert d in forest;
      assert forest == [d] + rest;
      FilesOfCons(d, rest);
      FilesOfIsPreOrderFiles(d.subdirectories);
      FilesOfIsPreOrderFiles(rest);
      var sub := PreOrder(d.subdirectories);
      var tail := PreOrder(rest);
      assert PreOrder(forest) == [d] + sub + tail;
      FilesOfEachAppend([d] + sub, tail);
      FilesOfEachAppend([d], sub);
      assert FilesOfEach([d]) == d.files;
    }
  }

  lemma {:induction false} FilesOfAppend(a: seq<Directory>, b: seq<Directory>)
    ensures FilesOf(a + b) == FilesOf(a) + FilesOf(b)
    decreases a
  {
    if |a| == 0 {
      assert a + b == b;
    } else {
      assert (a + b)[0] == a[0];
      assert (a + b)[1..] == a[1..] + b;
      FilesOfAppend(a[1..], b);
    }
  }

  /** A file appears in the flattened list exactly when some directory at some depth holds it. */
  lemma FlattenedMembership(forest: seq<Directory>, f: File)
    ensures f in FilesOf(forest) <==> exists d | d in PreOrder(forest) :: f in d.files
  {
    FilesOfIsPreOrderFiles(forest);
    FilesOfEachMembership(PreOrder(forest), f);
  }

  lemma {:induction false} FilesOfEachMembership(ds: seq<Directory>, f: File)
    ensures f in FilesOfEach(ds) <==> exists d | d in ds :: f in d.files
  {
    if |ds| > 0 {
      FilesOfEachMembership(ds[1..], f);
      assert ds == [ds[0]] + ds[1..];
      assert forall d | d in ds :: d == ds[0] || d in ds[1..];
    }
  }

  // ---------------------------------------------------------------------------
  // Editing the first directory with a given name.

  /** The two in-place mutations the routes perform on a found directory. */
  datatype Edit = AppendDirectory(dir: Directory) | AppendFile(file: File)

  function Apply(e: Edit, d: Directory): (r: Directory)
    ensures r.name == d.name
  {
    match e
    case AppendDirectory(n) => d.(subdirectories := d.subdirectories + [n])
    case AppendFile(f) => d.(files := d.files + [f])
  }

  /** The files an edit adds to the flattened listing. */
  function AddedFiles(e: Edit): seq<File> {
    match e
    case AppendDirectory(n) => FilesOf([n])
    case AppendFile(f) => [f]
  }

  /** The directory names an edit adds to the pre-order listing. */
  function AddedNames(e: Edit): seq<string> {
    match e
    case AppendDirectory(n) => Names(PreOrder([n]))
    case AppendFile(_) => []
  }

  /** What a directory holds itself: its name, its own files and how many subdirectories it
      has. Listed in pre-order, these entries determine the whole forest. */
  datatype Local = Local(name: string, files: seq<File>, children: nat)

  function LocalOf(d: Directory): Local {
    Local(d.name, d.files, |d.subdirectories|)
  }

  /** The own contents of every directory of the forest, in pre-order. */
  function Locals(forest: seq<Directory>): seq<Local>
    decreases forest
  {
    if |forest| == 0 then []
    else
      assert forest[0] in forest;
      [LocalOf(forest[0])] + Locals(forest[0].subdirectories) + Locals(forest[1..])
  }

  /** What an edit does to the own contents of the directory it is applied to. */
  function Touch(e: Edit, l: Local): Local {
    match e
    case AppendDirectory(_) => l.(children := l.children + 1)
    case AppendFile(f) => l.(files := l.files + [f])
  }

  /** The pre-order entries an edit adds: the new subtree's, or none for a file. */
  function AddedLocals(e: Edit): seq<Local> {
    match e
    case AppendDirectory(n) => Locals([n])
    case AppendFile(_) => []
  }

  /** `after` is `before` with entry `k`, the first one named `name`, touched by `e`, the edit's
      new entries placed right after the `size` entries of that directory's subtree, and every
      other entry unchanged and in place. */
  predicate Spliced(before: seq<Local>, after: seq<Local>, name: string, e: Edit, k: nat, size: nat) {
    k + 1 + size <= |before|
    && before[k].name == name
    && (forall j | 0 <= j < k :: before[j].name != name)
    && after == before[..k] + [Touch(e, before[k])] + before[k + 1..k + 1 + size] + AddedLocals(e) + before[k + 1 + size..]
  }

  /** `after` is `before` with the directory `Find(before, name)` returns edited by `e` in place:
      in the pre-order listing of own contents, that directory's entry is touched, the new
      entries follow its subtree, and every other entry stays as it was. */
  ghost predicate EditedInPlace(before: seq<Directory>, after: seq<Directory>, name: string, e: Edit) {
    && Find(before, name).Some?
    && exists k: nat :: Spliced(Locals(before), Locals(after), name, e, k, |Locals(Find(before, name).value.subdirectories)|)
  }

  /** Apply `e` to the directory `Find(forest, name)` returns, in place; Python mutates the
      dict the search returned, and the whole forest is written back. */
  function EditFirst(forest: seq<Directory>, name: string, e: Edit): (r: seq<Directory>)
    ensures Find(forest, name).None? ==> r == forest
    ensures Find(forest, name).Some? ==> Find(r, name) == Some(Apply(e, Find(forest, name).value))
    ensures |r| == |forest|
    ensures forall i | 0 <= i < |r| :: r[i].name == forest[i].name
    ensures Find(forest, name).Some? ==> EditedInPlace(forest, r, name, e)
    decreases forest
  {
    if |forest| == 0 then []
    else
      var d := forest[0];
      assert d in forest;
      if d.name == name then
        HereStep(forest, name, e);
        [Apply(e, d)] + forest[1..]
      else if Find(d.subdirectories, name).Some? then
        var edited := EditFirst(d.subdirectories, name, e);
        BelowStep(forest, name, e, edited);
        [d.(subdirectories := edited)] + forest[1..]
      else
        var rest := EditFirst(forest[1..], name, e);
        LaterStep(forest, name, e, rest);
        [d] + rest
  }

  /** `EditFirst`'s contract when the head of the forest carries the name. */
  lemma HereStep(forest: seq<Directory>, name: string, e: Edit)
    requires |forest| > 0 && forest[0].name == name
    ensures var r := [Apply(e, forest[0])] + forest[1..];
            && Find(forest, name) == Some(forest[0])
            && Find(r, name) == Some(Apply(e, forest[0]))
            && |r| == |forest|
            && (forall i | 0 <= i < |r| :: r[i].name == forest[i].name)
            && EditedInPlace(forest, r, name, e)
  {
    var r := [Apply(e, forest[0])] + forest[1..];
    assert r[0] == Apply(e, forest[0]);
    assert forest == [forest[0]] + forest[1..];
    HereLocals(forest[0], forest[1..], e);
  }

  /** `EditFirst`'s contract when the name is found below the head, given the recursive call's. */
  lemma BelowStep(forest: seq<Directory>, name: string, e: Edit, edited: seq<Directory>)
    requires |forest| > 0 && forest[0].name != name
    requires var sub := forest[0].subdirectories;
             && Find(sub, name).Some?
             && Find(edited, name) == Some(Apply(e, Find(sub, name).value))
             && |edited| == |sub|
             && (forall i | 0 <= i < |edited| :: edited[i].name == sub[i].name)
             && EditedInPlace(sub, edited, name, e)
    ensures var r := [forest[0].(subdirectories := edited)] + forest[1..];
            && Find(forest, name) == Find(forest[0].subdirectories, name)
            && Find(r, name) == Find(edited, name)
            && |r| == |forest|
            && (forall i | 0 <= i < |r| :: r[i].name == forest[i].name)
            && EditedInPlace(forest, r, name, e)
  {
    var d := forest[0];
    assert d in forest;
    var r := [d.(subdirectories := edited)] + forest[1..];
    assert r[0] == d.(subdirectories := edited) && r[1..] == forest[1..];
    var size := |Locals(Find(d.subdirectories, name).value.subdirectories)|;
    var k: nat :| Spliced(Locals(d.subdirectories), Locals(edited), name, e, k, size);
    assert forest == [d] + forest[1..];
    var k' := BelowLocals(d, forest[1..], name, e, edited, k, size);
  }

  /** `EditFirst`'s contract when the name is not in the head's subtree, given the recursive call's. */
  lemma LaterStep(forest: seq<Directory>, name: string, e: Edit, rest: seq<Directory>)
    requires |forest| > 0 && forest[0].name != name && Find(forest[0].subdirectories, name).None?
    requires var tail := forest[1..];
             && (Find(tail, name).None? ==> rest == tail)
             && (Find(tail, name).Some? ==> Find(rest, name) == Some(Apply(e, Find(tail, name).value)))
             && |rest| == |tail|
             && (forall i | 0 <= i < |rest| :: rest[i].name == tail[i].name)
             && (Find(tail, name).Some? ==> EditedInPlace(tail, rest, name, e))
    ensures var r := [forest[0]] + rest;
            && Find(forest, name) == Find(forest[1..], name)
            && (Find(forest, name).None? ==> r == forest)
            && (Find(forest, name).Some? ==> Find(r, name) == Some(Apply(e, Find(forest, name).value)))
            && |r| == |forest|
            && (forall i | 0 <= i < |r| :: r[i].name == forest[i].name)
            && (Find(forest, name).Some? ==> EditedInPlace(forest, r, name, e))
  {
    var d := forest[0];
    assert d in forest;
    var r := [d] + rest;
    assert r[0] == d && r[1..] == rest;
    if Find(forest, name).Some? {
      var size := |Locals(Find(forest[1..], name).value.subdirectories)|;
      var k: nat :| Spliced(Locals(forest[1..]), Locals(rest), name, e, k, size);
      assert forest == [d] + forest[1..];
      var k' := LaterLocals(d, forest[1..], name, e, rest, k, size);
    } else {
      assert r == forest;
    }
  }

  lemma LocalsCons(d: Directory, rest: seq<Directory>)
    ensures Locals([d] + rest) == [LocalOf(d)] + Locals(d.subdirectories) + Locals(rest)
  {
    assert ([d] + rest)[0] == d;
    assert ([d] + rest)[1..] == rest;
  }

  lemma {:induction false} LocalsAppend(a: seq<Directory>, b: seq<Directory>)
    ensures Locals(a + b) == Locals(a) + Locals(b)
    decreases a
  {
    if |a| == 0 {
      assert a + b == b;
    } else {
      assert (a + b)[0] == a[0];
      assert (a + b)[1..] == a[1..] + b;
      LocalsAppend(a[1..], b);
    }
  }

  /** When the search fails, no entry of the listing carries the name. */
  lemma {:induction false} LocalsUnnamed(forest: seq<Directory>, name: string)
    requires Find(forest, name).None?
    ensures forall j | 0 <= j < |Locals(forest)| :: Locals(forest)[j].name != name
    decreases forest
  {
    if |forest| > 0 {
      var d := forest[0];
      assert d in forest;
      LocalsUnnamed(d.subdirectories, name);
      LocalsUnnamed(forest[1..], name);
      var rest := Locals(forest[1..]);
      assert Locals(forest) == [LocalOf(d)] + Locals(d.subdirectories) + rest + [];
      UnnamedPrefix(Locals(forest), [LocalOf(d)] + Locals(d.subdirectories), rest, [], name, |rest|);
    }
  }

  /** Touching the head entry and placing the new entries after the head's subtree. */
  lemma HereSpliced(before: seq<Local>, after: seq<Local>, l: Local, s: seq<Local>, rest: seq<Local>, e: Edit)
    requires before == [l] + s + rest && after == [Touch(e, l)] + (s + AddedLocals(e)) + rest
    ensures Spliced(before, after, l.name, e, 0, |s|)
  {
    assert ([l] + s + rest)[0] == l;
    HeadSplice(l, s, rest, Touch(e, l), AddedLocals(e));
  }

  /** A splice inside `a` is a splice, shifted by `|pre|`, of `pre + a + post`, as long as no
      entry of `pre` carries the name. */
  lemma ShiftSpliced(before: seq<Local>, after: seq<Local>, pre: seq<Local>, a: seq<Local>, a': seq<Local>, post: seq<Local>,
                     name: string, e: Edit, k: nat, size: nat) returns (k': nat)
    requires before == pre + a + post && after == pre + a' + post
    requires forall j | 0 <= j < |pre| :: pre[j].name != name
    requires Spliced(a, a', name, e, k, size)
    ensures Spliced(before, after, name, e, k', size)
  {
    k' := |pre| + k;
    assert before[k'] == a[k];
    ShiftSplice(before, after, pre, a, a', post, k, k', size, Touch(e, before[k']), AddedLocals(e));
    UnnamedPrefix(before, pre, a, post, name, k);
  }

  /** No entry before `|pre| + k` carries the name when none of `pre` and none of `a[..k]` does. */
  lemma UnnamedPrefix(before: seq<Local>, pre: seq<Local>, a: seq<Local>, post: seq<Local>, name: string, k: nat)
    requires before == pre + a + post && k <= |a|
    requires forall j | 0 <= j < |pre| :: pre[j].name != name
    requires forall j | 0 <= j < k :: a[j].name != name
    ensures forall j | 0 <= j < |pre| + k :: before[j].name != name
  {
    forall j | 0 <= j < |pre| + k
      ensures before[j].name != name
    {
      if j >= |pre| {
        assert before[j] == a[j - |pre|];
      } else {
        assert before[j] == pre[j];
      }
    }
  }

  lemma HereLocals(d: Directory, rest: seq<Directory>, e: Edit)
    ensures Spliced(Locals([d] + rest), Locals([Apply(e, d)] + rest), d.name, e, 0, |Locals(d.subdirectories)|)
  {
    LocalsCons(d, rest);
    LocalsCons(Apply(e, d), rest);
    match e {
      case AppendDirectory(n) =>
        LocalsAppend(d.subdirectories, [n]);
      case AppendFile(_) =>
        assert Locals(d.subdirectories) + AddedLocals(e) == Locals(d.subdirectories);
    }
    HereSpliced(Locals([d] + rest), Locals([Apply(e, d)] + rest), LocalOf(d), Locals(d.subdirectories), Locals(rest), e);
  }

  lemma BelowLocals(d: Directory, rest: seq<Directory>, name: string, e: Edit, edited: seq<Directory>, k: nat, size: nat)
    returns (k': nat)
    requires d.name != name && |edited| == |d.subdirectories|
    requires Spliced(Locals(d.subdirectories), Locals(edited), name, e, k, size)
    ensures Spliced(Locals([d] + rest), Locals([d.(subdirectories := edited)] + rest), name, e, k', size)
  {
    var x := LocalOf(d);
    var a, a', b := Locals(d.subdirectories), Locals(edited), Locals(rest);
    LocalsCons(d, rest);
    LocalsCons(d.(subdirectories := edited), rest);
    assert LocalOf(d.(subdirectories := edited)) == x;
    assert Locals([d] + rest) == [x] + a + b;
    assert Locals([d.(subdirectories := edited)] + rest) == [x] + a' + b;
    k' := ShiftSpliced(Locals([d] + rest), Locals([d.(subdirectories := edited)] + rest), [x], a, a', b, name, e, k, size);
  }

  /** A directory without the name and with no name below it contributes no entry with the name. */
  lemma HeadUnnamed(d: Directory, name: string)
    requires d.name != name && Find(d.subdirectories, name).None?
    ensures var pre := [LocalOf(d)] + Locals(d.subdirectories);
            forall j | 0 <= j < |pre| :: pre[j].name != name
  {
    LocalsUnnamed(d.subdirectories, name);
    var pre := [LocalOf(d)] + Locals(d.subdirectories);
    assert pre == [LocalOf(d)] + Locals(d.subdirectories) + [];
    UnnamedPrefix(pre, [LocalOf(d)], Locals(d.subdirectories), [], name, |Locals(d.subdirectories)|);
  }

  lemma LaterLocals(d: Directory, rest: seq<Directory>, name: string, e: Edit, edited: seq<Directory>, k: nat, size: nat)
    returns (k': nat)
    requires d.name != name && Find(d.subdirectories, name).None?
    requires Spliced(Locals(rest), Locals(edited), name, e, k, size)
    ensures Spliced(Locals([d] + rest), Locals([d] + edited), name, e, k', size)
  {
    var pre := [LocalOf(d)] + Locals(d.subdirectories);
    HeadUnnamed(d, name);
    LocalsCons(d, rest);
    LocalsCons(d, edited);
    assert Locals([d] + rest) == pre + Locals(rest) + [];
    assert Locals([d] + edited) == pre + Locals(edited) + [];
    k' := ShiftSpliced(Locals([d] + rest), Locals([d] + edited), pre, Locals(rest), Locals(edited), [], name, e, k, size);
  }


  lemma FilesOfCons(d: Directory, rest: seq<Directory>)
    ensures FilesOf([d] + rest) == d.files + FilesOf(d.subdirectories) + FilesOf(rest)
  {
    assert ([d] + rest)[0] == d;
    assert ([d] + rest)[1..] == rest;
  }

  lemma PreOrderNamesCons(d: Directory, rest: seq<Directory>)
    ensures Names(PreOrder([d] + rest)) == [d.name] + Names(PreOrder(d.subdirectories)) + Names(PreOrder(rest))
  {
    assert ([d] + rest)[0] == d;
    assert ([d] + rest)[1..] == rest;
    NamesAppend([d] + PreOrder(d.subdirectories), PreOrder(rest));
    NamesAppend([d], PreOrder(d.subdirectories));
  }

  /** How `EditFirst` treats the head of a non-empty forest. */
  lemma EditFirstCons(d: Directory, rest: seq<Directory>, name: string, e: Edit)
    ensures d.name == name ==> EditFirst([d] + rest, name, e) == [Apply(e, d)] + rest
    ensures d.name != name && Find(d.subdirectories, name).Some? ==>
      EditFirst([d] + rest, name, e) == [d.(subdirectories := EditFirst(d.subdirectories, name, e))] + rest
    ensures d.name != name && Find(d.subdirectories, name).None? ==>
      EditFirst([d] + rest, name, e) == [d] + EditFirst(rest, name, e)
    ensures d.name != name && Find(d.subdirectories, name).None? ==>
      Find([d] + rest, name) == Find(rest, name)
  {
    assert ([d] + rest)[0] == d;
    assert ([d] + rest)[1..] == rest;
  }

  /** An edit inserts its files at one point of the flattened listing and leaves every other file where it was. */
  lemma {:induction false} EditFirstFiles(forest: seq<Directory>, name: string, e: Edit) returns (p: nat)
    requires Find(forest, name).Some?
    ensures p <= |FilesOf(forest)|
    ensures FilesOf(EditFirst(forest, name, e)) == FilesOf(forest)[..p] + AddedFiles(e) + FilesOf(forest)[p..]
    decreases forest
  {
    var d := forest[0];
    assert d in forest;
    var rest := forest[1..];
    assert forest == [d] + rest;
    EditFirstCons(d, rest, name, e);
    if d.name == name {
      p := EditHereFiles(d, rest, e);
    } else if Find(d.subdirectories, name).Some? {
      var q := EditFirstFiles(d.subdirectories, name, e);
      p := EditBelowFiles(d, rest, EditFirst(d.subdirectories, name, e), e, q);
    } else {
      var q := EditFirstFiles(rest, name, e);
      p := EditLaterFiles(d, rest, EditFirst(rest, name, e), e, q);
    }
  }

  lemma EditHereFiles(d: Directory, rest: seq<Directory>, e: Edit) returns (p: nat)
    ensures p <= |FilesOf([d] + rest)|
    ensures FilesOf([Apply(e, d)] + rest) == FilesOf([d] + rest)[..p] + AddedFiles(e) + FilesOf([d] + rest)[p..]
  {
    match e
    case AppendFile(f) => p := AppendFileHere(d, rest, f);
    case AppendDirectory(n) => p := AppendDirectoryHere(d, rest, n);
  }

  lemma AppendFileHere(d: Directory, rest: seq<Directory>, f: File) returns (p: nat)
    ensures p <= |FilesOf([d] + rest)|
    ensures FilesOf([d.(files := d.files + [f])] + rest) == FilesOf([d] + rest)[..p] + [f] + FilesOf([d] + rest)[p..]
  {
    FilesOfCons(d, rest);
    FilesOfCons(d.(files := d.files + [f]), rest);
    var later := FilesOf(d.subdirectories) + FilesOf(rest);
    p := |d.files|;
    assert FilesOf([d] + rest) == d.files + later;
    assert FilesOf([d.(files := d.files + [f])] + rest) == d.files + [f] + later;
    InsertBetween(FilesOf([d] + rest), FilesOf([d.(files := d.files + [f])] + rest), d.files, later, [f]);
  }

  lemma AppendDirectoryHere(d: Directory, rest: seq<Directory>, n: Directory) returns (p: nat)
    ensures p <= |FilesOf([d] + rest)|
    ensures FilesOf([d.(subdirectories := d.subdirectories + [n])] + rest)
         == FilesOf([d] + rest)[..p] + FilesOf([n]) + FilesOf([d] + rest)[p..]
  {
    FilesOfCons(d, rest);
    FilesOfCons(d.(subdirectories := d.subdirectories + [n]), rest);
    var sub := FilesOf(d.subdirectories);
    var tail := FilesOf(rest);
    FilesOfAppend(d.subdirectories, [n]);
    p := |d.files| + |sub|;
    SpliceInMiddle(d.files, sub, tail, |sub|, FilesOf([n]));
    assert sub[..|sub|] == sub && sub[|sub|..] == [];
  }

  lemma EditBelowFiles(d: Directory, rest: seq<Directory>, edited: seq<Directory>, e: Edit, q: nat) returns (p: nat)
    requires q <= |FilesOf(d.subdirectories)|
    requires FilesOf(edited)
          == FilesOf(d.subdirectories)[..q] + AddedFiles(e) + FilesOf(d.subdirectories)[q..]
    ensures p <= |FilesOf([d] + rest)|
    ensures FilesOf([d.(subdirectories := edited)] + rest)
         == FilesOf([d] + rest)[..p] + AddedFiles(e) + FilesOf([d] + rest)[p..]
  {
    FilesOfCons(d, rest);
    FilesOfCons(d.(subdirectories := edited), rest);
    var v := FilesOf(d.subdirectories);
    assert FilesOf([d] + rest) == d.files + v + FilesOf(rest);
    assert FilesOf([d.(subdirectories := edited)] + rest) == d.files + FilesOf(edited) + FilesOf(rest);
    p := |d.files| + q;
    InsertedAt(FilesOf([d] + rest), FilesOf([d.(subdirectories := edited)] + rest), d.files, v, FilesOf(edited), FilesOf(rest), q, p, AddedFiles(e));
  }

  lemma EditLaterFiles(d: Directory, rest: seq<Directory>, edited: seq<Directory>, e: Edit, q: nat) returns (p: nat)
    requires q <= |FilesOf(rest)|
    requires FilesOf(edited) == FilesOf(rest)[..q] + AddedFiles(e) + FilesOf(rest)[q..]
    ensures p <= |FilesOf([d] + rest)|
    ensures FilesOf([d] + edited) == FilesOf([d] + rest)[..p] + AddedFiles(e) + FilesOf([d] + rest)[p..]
  {
    FilesOfCons(d, rest);
    FilesOfCons(d, edited);
    var pre := d.files + FilesOf(d.subdirectories);
    var tail := FilesOf(rest);
    assert FilesOf([d] + rest) == pre + tail + [];
    assert FilesOf([d] + edited) == pre + FilesOf(edited) + [];
    p := |pre| + q;
    InsertedAt(FilesOf([d] + rest), FilesOf([d] + edited), pre, tail, FilesOf(edited), [], q, p, AddedFiles(e));
  }

  /** An edit inserts its directories at one point of the pre-order listing of names and renames nothing. */
  lemma {:induction false} EditFirstNames(forest: seq<Directory>, name: string, e: Edit) returns (p: nat)
    requires Find(forest, name).Some?
    ensures p <= |Names(PreOrder(forest))|
    ensures Names(PreOrder(EditFirst(forest, name, e)))
         == Names(PreOrder(forest))[..p] + AddedNames(e) + Names(PreOrder(forest))[p..]
    decreases forest
  {
    var d := forest[0];
    assert d in forest;
    var rest := forest[1..];
    assert forest == [d] + rest;
    EditFirstCons(d, rest, name, e);
    if d.name == name {
      p := EditHereNames(d, rest, e);
    } else if Find(d.subdirectories, name).Some? {
      var q := EditFirstNames(d.subdirectories, name, e);
      p := EditBelowNames(d, rest, EditFirst(d.subdirectories, name, e), e, q);
    } else {
      var q := EditFirstNames(rest, name, e);
      p := EditLaterNames(d, rest, EditFirst(rest, name, e), e, q);
    }
  }

  lemma EditHereNames(d: Directory, rest: seq<Directory>, e: Edit) returns (p: nat)
    ensures p <= |Names(PreOrder([d] + rest))|
    ensures Names(PreOrder([Apply(e, d)] + rest))
         == Names(PreOrder([d] + rest))[..p] + AddedNames(e) + Names(PreOrder([d] + rest))[p..]
  {
    match e
    case AppendFile(f) =>
      PreOrderNamesCons(d, rest);
      PreOrderNamesCons(d.(files := d.files + [f]), rest);
      p := 0;
    case AppendDirectory(n) => p := AppendDirectoryHereNames(d, rest, n);
  }

  lemma AppendDirectoryHereNames(d: Directory, rest: seq<Directory>, n: Directory) returns (p: nat)
    ensures p <= |Names(PreOrder([d] + rest))|
    ensures Names(PreOrder([d.(subdirectories := d.subdirectories + [n])] + rest))
         == Names(PreOrder([d] + rest))[..p] + Names(PreOrder([n])) + Names(PreOrder([d] + rest))[p..]
  {
    var d' := d.(subdirectories := d.subdirectories + [n]);
    PreOrderNamesCons(d, rest);
    PreOrderNamesCons(d', rest);
    PreOrderAppend(d.subdirectories, [n]);
    NamesAppend(PreOrder(d.subdirectories), PreOrder([n]));
    var sub := Names(PreOrder(d.subdirectories));
    var pre := [d.name] + sub;
    var added := Names(PreOrder([n]));
    var tail := Names(PreOrder(rest));
    assert Names(PreOrder([d] + rest)) == pre + tail;
    assert Names(PreOrder(d'.subdirectories)) == sub + added;
    assert Names(PreOrder([d'] + rest)) == [d.name] + (sub + added) + tail;
    Regroup([d.name], sub, added, tail);
    InsertBetween(Names(PreOrder([d] + rest)), Names(PreOrder([d'] + rest)), pre, tail, added);
    p := |pre|;
  }

  lemma EditBelowNames(d: Directory, rest: seq<Directory>, edited: seq<Directory>, e: Edit, q: nat) returns (p: nat)
    requires q <= |Names(PreOrder(d.subdirectories))|
    requires Names(PreOrder(edited))
          == Names(PreOrder(d.subdirectories))[..q] + AddedNames(e) + Names(PreOrder(d.subdirectories))[q..]
    ensures p <= |Names(PreOrder([d] + rest))|
    ensures Names(PreOrder([d.(subdirectories := edited)] + rest))
         == Names(PreOrder([d] + rest))[..p] + AddedNames(e) + Names(PreOrder([d] + rest))[p..]
  {
    PreOrderNamesCons(d, rest);
    PreOrderNamesCons(d.(subdirectories := edited), rest);
    var v := Names(PreOrder(d.subdirectories));
    assert Names(PreOrder([d] + rest)) == [d.name] + v + Names(PreOrder(rest));
    assert Names(PreOrder([d.(subdirectories := edited)] + rest)) == [d.name] + Names(PreOrder(edited)) + Names(PreOrder(rest));
    p := 1 + q;
    InsertedAt(Names(PreOrder([d] + rest)), Names(PreOrder([d.(subdirectories := edited)] + rest)), [d.name], v,
               Names(PreOrder(edited)), Names(PreOrder(rest)), q, p, AddedNames(e));
  }

  lemma EditLaterNames(d: Directory, rest: seq<Directory>, edited: seq<Directory>, e: Edit, q: nat) returns (p: nat)
    requires q <= |Names(PreOrder(rest))|
    requires Names(PreOrder(edited))
          == Names(PreOrder(rest))[..q] + AddedNames(e) + Names(PreOrder(rest))[q..]
    ensures p <= |Names(PreOrder([d] + rest))|
    ensures Names(PreOrder([d] + edited))
         == Names(PreOrder([d] + rest))[..p] + AddedNames(e) + Names(PreOrder([d] + rest))[p..]
  {
    PreOrderNamesCons(d, rest);
    PreOrderNamesCons(d, edited);
    var pre := [d.name] + Names(PreOrder(d.subdirectories));
    var v := Names(PreOrder(rest));
    assert Names(PreOrder([d] + rest)) == pre + v + [];
    assert Names(PreOrder([d] + edited)) == pre + Names(PreOrder(edited)) + [];
    p := |pre| + q;
    InsertedAt(Names(PreOrder([d] + rest)), Names(PreOrder([d] + edited)), pre, v, Names(PreOrder(edited)), [], q, p, AddedNames(e));
  }


}

=== FILE: users.dfy ===
/** Account-level helpers: sorting requested member e-mails into known and
    unknown ones, and deleting an account together with its memberships. */
module Users {
  import opened Common
  import opened Store
  import S3

  /** `a` can be obtained from `b` by deleting elements: `a` keeps `b`'s order. */
  predicate IsSubseq<T(==)>(a: seq<T>, b: seq<T>)
    decreases |b|
  {
    |a| == 0 || (|b| > 0 && ((a[0] == b[0] && IsSubseq(a[1..], b[1..])) || IsSubseq(a, b[1..])))
  }

  /** Every requested address, in request order, goes to exactly one side: known
      (`known` holds it) or unknown. Repeats are kept on their side. */
  function SplitKnown(members: seq<Email>, known: set<Email>): (r: (seq<Email>, seq<Email>))
    ensures forall e | e in r.0 :: e in members && e in known
    ensures forall e | e in r.1 :: e in members && e !in known
    ensures multiset(r.0) + multiset(r.1) == multiset(members)
    ensures IsSubseq(r.0, members) && IsSubseq(r.1, members)
  {
    if |members| == 0 then ([], [])
    else
      var rest := SplitKnown(members[1..], known);
      assert members == [members[0]] + members[1..];
      if members[0] in known then
        var v := [members[0]] + rest.0;
        assert v[1..] == rest.0;
        (v, rest.1)
      else
        var m := [members[0]] + rest.1;
        assert m[1..] == rest.1;
        (rest.0, m)
  }

  /** `check_members_exist`: the valid list starts with the caller's own address and
      continues with every requested address that has an account; the others are returned
      as non-existent. */
  function CheckMembersExist(members: seq<Email>, me: User, users: map<UserId, User>): (r: (seq<Email>, seq<Email>))
    ensures |r.0| >= 1 && r.0[0] == me.email
    ensures forall e | e in r.0[1..] :: e in members && e in Registered(users)
    ensures forall e | e in r.1 :: e in members && e !in Registered(users)
    ensures multiset(r.0[1..]) + multiset(r.1) == multiset(members)
    ensures IsSubseq(r.0[1..], members) && IsSubseq(r.1, members)
  {
    var split := SplitKnown(members, Registered(users));
    var valid := [me.email] + split.0;
    assert valid[1..] == split.0;
    (valid, split.1)
  }

  /** Each requested address is classified by whether it has an account: known ones are
      on the valid side and never on the other, and the other way round. */
  lemma ClassifiedByRegistration(members: seq<Email>, me: User, users: map<UserId, User>, e: Email)
    requires e in members
    ensures var r := CheckMembersExist(members, me, users);
              (e in Registered(users) ==> e in r.0[1..] && e !in r.1) &&
              (e !in Registered(users) ==> e in r.1 && e !in r.0[1..])
  {
    var r := CheckMembersExist(members, me, users);
    assert e in multiset(members);
    assert e in multiset(r.0[1..]) + multiset(r.1);
  }

  // ---------------------------------------------------------------------------
  // Account deletion.

  /** `$pull` keeps the survivors in their stored order. */
  lemma {:induction false} RemoveAllKeepsOrder(s: seq<string>, x: string)
    ensures IsSubseq(RemoveAll(s, x), s)
    decreases |s|
  {
    if |s| > 0 {
      var rest := RemoveAll(s[1..], x);
      RemoveAllKeepsOrder(s[1..], x);
      if s[0] != x {
        var r := [s[0]] + rest;
        assert r[1..] == rest;
      }
    }
  }

  lemma RemoveAllKeepsOrderEverywhere(x: string)
    ensures forall s: seq<string> :: IsSubseq(RemoveAll(s, x), s)
  {
    forall s: seq<string> ensures IsSubseq(RemoveAll(s, x), s) {
      RemoveAllKeepsOrder(s, x);
    }
  }

  /** `$pull` of `v` from the `members` of every group. */
  function PullFromGroups(groups: map<GroupId, Group>, v: string): (r: map<GroupId, Group>)
    ensures r.Keys == groups.Keys
    ensures forall g | g in r :: r[g] == groups[g].(members := r[g].members)
    ensures forall g | g in r :: v !in r[g].members
                                && multiset(r[g].members) == multiset(groups[g].members)[v := 0]
                                && IsSubseq(r[g].members, groups[g].members)
  {
    RemoveAllKeepsOrderEverywhere(v);
    map g | g in groups :: groups[g].(members := RemoveAll(groups[g].members, v))
  }

  /** `$pull` of `v` from the `members` of every repository. */
  function PullFromRepos(repos: map<RepoId, Repo>, v: string): (r: map<RepoId, Repo>)
    ensures r.Keys == repos.Keys
    ensures forall k | k in r :: r[k] == repos[k].(members := r[k].members)
    ensures forall k | k in r :: v !in r[k].members
                                && multiset(r[k].members) == multiset(repos[k].members)[v := 0]
                                && IsSubseq(r[k].members, repos[k].members)
  {
    RemoveAllKeepsOrderEverywhere(v);
    map k | k in repos :: repos[k].(members := RemoveAll(repos[k].members, v))
  }

  /** `delete_user_func` as written. It pulls the user's id from every group's members,
      though members are e-mail addresses, and from a `repos` collection that is not the one
      repositories live in, so repositories are untouched. */
  function DeleteUserAsWritten(st: Store, me: User): (r: Result<Store>)
    ensures r.Err? <==> me.id !in st.users
    ensures r.Err? ==> r.error == HttpError(404, "User not found")
    ensures r.Ok? ==> r.value.users == st.users - {me.id}
    ensures r.Ok? ==> r.value.groups == PullFromGroups(st.groups, me.id)
    ensures r.Ok? ==> r.value.repos == st.repos
    ensures r.Ok? ==> r.value.blobs == S3.DeleteProfilePicture(st.blobs, me)
    ensures r.Ok? ==> r.value.messages == st.messages && r.value.notifications == st.notifications
  {
    if me.id !in st.users then Fail(404, "User not found")
    else
      Ok(st.(users := st.users - {me.id},
             groups := PullFromGroups(st.groups, me.id),
             blobs := if Truthy(me.profilePictureUrl) then S3.DeleteProfilePicture(st.blobs, me) else st.blobs))
  }

  /** The deleted user's address survives in every group and repository that listed it,
      whenever the address differs from the id (which it always does for a real account). */
  lemma DeleteUserAsWrittenKeepsMembership(st: Store, me: User)
    requires me.id in st.users && me.email != me.id
    ensures var r := DeleteUserAsWritten(st, me);
              r.Ok? &&
              (forall g | g in st.groups && me.email in st.groups[g].members :: me.email in r.value.groups[g].members) &&
              (forall k | k in st.repos && me.email in st.repos[k].members :: me.email in r.value.repos[k].members)
  {
  }

  /** `delete_user_func` as evidently intended: the account's address leaves the members
      of every group and every repository. */
  function DeleteUser(st: Store, me: User): (r: Result<Store>)
    ensures r.Err? <==> me.id !in st.users
    ensures r.Err? ==> r.error == HttpError(404, "User not found")
    ensures r.Ok? ==> r.value.users == st.users - {me.id}
    ensures r.Ok? ==> r.value.groups.Keys == st.groups.Keys && r.value.repos.Keys == st.repos.Keys
    ensures r.Ok? ==> forall g | g in r.value.groups :: me.email !in r.value.groups[g].members
    ensures r.Ok? ==> forall k | k in r.value.repos :: me.email !in r.value.repos[k].members
    ensures r.Ok? ==> r.value.blobs == S3.DeleteProfilePicture(st.blobs, me)
    ensures r.Ok? ==> r.value == st.(users := st.users - {me.id}, groups := PullFromGroups(st.groups, me.email),
                                     repos := PullFromRepos(st.repos, me.email), blobs := r.value.blobs)
  {
    if me.id !in st.users then Fail(404, "User not found")
    else
      Ok(st.(users := st.users - {me.id},
             groups := PullFromGroups(st.groups, me.email),
             repos := PullFromRepos(st.repos, me.email),
             blobs := if Truthy(me.profilePictureUrl) then S3.DeleteProfilePicture(st.blobs, me) else st.blobs))
  }

  /** The intended deletion touches nothing but the account's address: every other member of
      every group and repository stays, in order. */
  lemma DeleteUserKeepsOthers(st: Store, me: User, e: Email)
    requires me.id in st.users && e != me.email
    ensures var r := DeleteUser(st, me);
              r.Ok? &&
              (forall g | g in st.groups :: e in st.groups[g].members <==> e in r.value.groups[g].members) &&
              (forall k | k in st.repos :: e in st.repos[k].members <==> e in r.value.repos[k].members)
  {
  }
}
